=== FILE: README.md ===
# FeedHorn, modelled in Dafny

FeedHorn is a small network-monitoring dashboard. It has a web API, background workers and a browser front end. This project models its core:

- **URL monitoring.** A worker probes every monitored URL by HTTP or by ping. It stores one check per URL per round and prunes checks older than 60 days.
- **SSL certificate monitoring.** Each certificate's TLS capture is turned into validity, issuer, subject, days-to-expiry and an error message.
- **The REST controllers.** These cover monitored URLs, certificates, speed tests and Palo Alto firewalls. Each refusal path is modelled: blank fields, duplicates, unknown ids, and failures of the appliance or the command-line tool.
- **The Palo Alto XML API client.** This covers key generation, system info, URL category tests, DNS resolution with sinkhole detection, and traffic-log queries with their filter syntax.
- **The speed-test runner.** It picks the tool's path, interprets the tool's outcome, stores the row and prunes old rows.
- **Authentication.** This covers the request gate (public paths, static assets, the session cookie) and the password service (salted PBKDF2 layout, default user, login, password change).
- **The footer-injection middleware.** It rewrites HTML responses at their closing body tag.
- **The dashboard's own logic.** This covers the slow-response badge, chart windows and order, HTML escaping, and the certificate expiry bands.

Every operation is a pure function over an immutable store `Context.Db`. The store holds one `Table` per entity: a map from store-assigned ids to records, plus the next id to hand out. `Context.Consistent` states the store's relational rules. Monitored URLs are unique by URL, and every check references an existing monitored URL, which the cascade on delete preserves.

Everything outside the process is a parameter of the operation that uses it:
- the firewall appliance's replies (`PaloAlto.Appliance`);
- HTTP and ping probes (`UrlMonitoring.Probes`);
- the TLS capture of a certificate;
- the speed-test process runner and the file-existence test;
- the key-derivation function, the salt and the encryption service;
- absolute-URI parsing;
- the clock (`now`, in 100-nanosecond ticks).

Modules follow the source's layout:

| module | models |
|---|---|
| `Wrappers`, `Text`, `Clock`, `Ordering` | option values, .NET string helpers, `DateTime`/`TimeSpan` arithmetic and formatting, sorting and filtering |
| `Models`, `Context` | the entity records and the store |
| `UrlMonitoring`, `SslMonitoring`, `SpeedTests`, `PaloAlto`, `AuthService` | the services |
| `MonitoredUrls`, `SslCertificates`, `Firewalls`, `SpeedTests` | the controllers |
| `AuthMiddleware`, `FooterInjection` | the middleware |
| `Dashboard` | the browser script's logic |

## Model

| member | source | states |
|---|---|---|
| Context.DeleteUrl | Data/FeedHornContext.cs:19-23 | Deleting a monitored URL removes it and exactly the checks that reference it. Every other row and table is unchanged, and the store stays consistent. |
| UrlMonitoring.FromHttp | Services/UrlMonitoringService.cs:94-126 | An HTTP response succeeds exactly for a 2xx status. A failing status gives the error "HTTP " plus the status name. A request that throws gives status 0 and the exception message. The elapsed time is always recorded. |
| UrlMonitoring.FromPing | Services/UrlMonitoringService.cs:150-168 | A ping reply succeeds exactly on IP status Success, with status code 200 on success and 0 otherwise. A non-success reply gives "Ping Status: " plus the status name. The error is absent exactly on success. A throwing ping gives the elapsed time and the exception message. |
| UrlMonitoring.PingHost | Services/UrlMonitoringService.cs:131-140 | A URL that parses as absolute pings its host. Otherwise every "http://" and then every "https://" is deleted, and the text is cut at the first '/'. A bare host is pinged as given. |
| UrlMonitoring.PingHostStripsScheme | Services/UrlMonitoringService.cs:131-140 | When the URI parser rejects "http://host/path" or "https://host/path", and the host holds no ':' or '/', the fallback still pings exactly the host, whatever the path holds. |
| UrlMonitoring.Observe | Services/UrlMonitoringService.cs:56-85 | A check is dispatched on its type: HTTP, ping, or an "unsupported check type" failure. |
| UrlMonitoring.AppendOnePerId | Services/UrlMonitoringService.cs:45-92 | Appending one check per monitored URL, in id order, adds exactly one new row for each URL. |
| UrlMonitoring.RecordChecks | Services/UrlMonitoringService.cs:45-92 | One round keeps every old check unchanged. It adds exactly one check per monitored URL, stamped with the round's time and equal to that URL's observation. No other table changes, and the store stays consistent. |
| UrlMonitoring.CleanupOldChecks | Services/UrlMonitoringService.cs:172-188 | Exactly the checks no older than 60 days survive, unchanged. |
| UrlMonitoring.CleanupIdempotent | Services/UrlMonitoringService.cs:172-188 | Pruning twice at the same time prunes nothing more. |
| UrlMonitoring.CleanupKeepsBatch | Services/UrlMonitoringService.cs:45-92 | The prune that follows a round never removes that round's checks. |
| UrlMonitoring.CheckAllUrls | Services/UrlMonitoringService.cs:45-92 | After a round plus prune, an old check survives exactly when it is within 60 days. Exactly one fresh check per URL is present, and only the checks table changes. |
| SslMonitoring.UpdateCertificateInfo | Services/SslMonitoringService.cs:66-130 | A captured certificate copies its dates, issuer and subject. It is valid exactly when now lies within its validity window. The error is absent exactly when valid, and is "not yet valid" or "expired" on the matching side of the window. Days to expiry are the truncated whole days left. A missing certificate or a failure gives invalid with the matching message, keeping the old details. |
| SslMonitoring.ExpiredWithZeroDays | Services/SslMonitoringService.cs:105-112 | A certificate that expired less than a day ago is invalid and "expired", yet reports 0 days until expiration. |
| SslMonitoring.CheckAllCertificates | Services/SslMonitoringService.cs:38-64 | Every stored certificate is re-checked against its own URL's capture. No row is added or removed. |
| SslCertificates.NormalizeUrl | Controllers/SslCertificateController.cs:50-61 | The result always starts with "https://". An https URL is kept as is, an http prefix is replaced, and anything else is prefixed. |
| SslCertificates.NormalizeIdempotent | Controllers/SslCertificateController.cs:50-61 | Normalising an already normalised URL changes nothing. |
| SslCertificates.Create | Controllers/SslCertificateController.cs:42-76 | Blank fields are refused first, then an already-watched normalised URL. Creation happens exactly when neither applies. It adds one row under a fresh id, already checked, and leaves every other row intact. |
| SslCertificates.Update | Controllers/SslCertificateController.cs:78-114 | A mismatched id gives BadRequest and an unknown id gives NotFound, with the table unchanged. Otherwise only the name and the normalised URL change, the certificate is re-checked, and other rows are kept. |
| SslCertificates.UpdateCanDuplicateUrl | Controllers/SslCertificateController.cs:78-114 | Update has no duplicate check, so two rows can end up watching the same URL. |
| SslCertificates.Delete | Controllers/SslCertificateController.cs:116-129 | Deletion removes exactly the named row, or answers NotFound and changes nothing. |
| SslCertificates.Get | Controllers/SslCertificateController.cs:31-40 | An id answers NotFound exactly when no row has it, and otherwise returns that row. |
| SslCertificates.CheckNow | Controllers/SslCertificateController.cs:131-144 | Check-now re-checks exactly the named certificate, stores it and returns it. An unknown id gives NotFound. |
| SslCertificates.GetAll | Controllers/SslCertificateController.cs:23-29 | The listing is a permutation of the table's entries, ordered by days until expiration. |
| SslCertificates.GetAllComplete | Controllers/SslCertificateController.cs:23-29 | An id and certificate pair is listed exactly when the table holds that certificate under that id. |
| PaloAlto.GetApiKey | Services/PaloAltoService.cs:19-51 | The call succeeds exactly when the reply's status is "success", and then returns the key. Otherwise it returns no key, with the exception message, the reply's message, or "Unknown error". |
| PaloAlto.ReadSystemInfo | Services/PaloAltoService.cs:77-84 | Each field is read with its "Unknown" default. The hostname falls back from hostname to devicename. |
| PaloAlto.GetSystemInfo | Services/PaloAltoService.cs:53-93 | Info is returned exactly when the reply's status is "success". Otherwise the error is reported, with "Failed to get system info" as the fallback. |
| PaloAlto.CategoryOf | Services/PaloAltoService.cs:120-125 | The category is the trimmed result text, or "unknown" when there is none. |
| PaloAlto.TestUrl | Services/PaloAltoService.cs:95-134 | A URL test succeeds exactly when the reply's status is "success", returning the URL, its category and the source IP. Otherwise the error is reported, with "Test failed" as the fallback. |
| PaloAlto.FirstSinkhole | Services/PaloAltoService.cs:143-150 | The result is the first name containing "sinkhole", ignoring case, or none exactly when no name does. |
| PaloAlto.ResolveDomain | Services/PaloAltoService.cs:136-164 | A failed lookup gives its message. Otherwise the domain is a sinkhole exactly when an alias or the host name is one, and then the sinkhole name replaces the addresses. |
| PaloAlto.TrafficFilterLayout | Services/PaloAltoService.cs:176-195 | The filter is the source clause, then the destination clause only when there are destination IPs, then the start and end time clauses, joined by " and ". |
| PaloAlto.SingleDestinationClause | Services/PaloAltoService.cs:180-184 | One destination address renders as a parenthesised single "addr.dst eq" term. |
| PaloAlto.ReadEntries | Services/PaloAltoService.cs:218-243 | Log entries are read one for one, in order. No entries element gives an empty list. |
| PaloAlto.ReadEntryDefaults | Services/PaloAltoService.cs:222-240 | Missing byte counts read as "0" and missing addresses as "". Present values are copied. |
| PaloAlto.QueryTrafficLogs | Services/PaloAltoService.cs:166-250 | A window start outside `DateTime`'s range fails before anything is sent, with the exception's message and no entries. Otherwise the query succeeds exactly when the reply's status is "success", returning the read entries. Otherwise it returns none and reports the error, with "Query failed" as the fallback. |
| Clock.StampRoundTrip | Services/PaloAltoService.cs:188-193 | The filter's "yyyy/MM/dd HH:mm:ss" rendering parses back to the same calendar stamp. |
| Clock.ParseStampCanonical | Services/PaloAltoService.cs:188-193 | Every text the stamp parser accepts is exactly the rendering of what it returns. |
| Firewalls.Create | Controllers/FirewallController.cs:73-127 | Blank fields are refused. A key failure gives "Failed to get API key: " plus its error, and a system-info failure gives "Failed to get system info: " plus its error, leaving the table unchanged. Creation happens exactly when all four fields are present, the key call returns a key and the system-info call succeeds. It then adds one row with the encrypted key, system info and timestamps. The answer omits the last-test time. |
| Firewalls.CreateStoresIssuedKey | Controllers/FirewallController.cs:98-115 | Decrypting a created firewall's stored key gives back the key the appliance issued. |
| Firewalls.Rename | Controllers/FirewallController.cs:167-175 | A name or hostname changes only when the request gives a non-blank one. |
| Firewalls.Update | Controllers/FirewallController.cs:129-181 | An unknown id gives NotFound. With credentials, the firewall is re-keyed, with a refusal on key failure, and system info is refreshed only on success. Only a NoContent answer changes the table, and then only this row: its non-blank name and host replace the stored ones, CreatedAt is kept, and the last-test time becomes now. |
| Firewalls.UpdateWithoutCredentialsKeepsKey | Controllers/FirewallController.cs:138-165 | Without credentials, the stored key, system info and creation time are kept. |
| Firewalls.Delete | Controllers/FirewallController.cs:183-196 | Deletion removes exactly the named row, or answers NotFound and changes nothing. |
| Firewalls.Get | Controllers/FirewallController.cs:51-71 | A known id returns its view and an unknown id gives NotFound. |
| Firewalls.GetAll | Controllers/FirewallController.cs:30-49 | The listing is ordered by friendly name. Each listed view is the stored firewall under its id, and no id is listed twice. |
| Firewalls.GetAllComplete | Controllers/FirewallController.cs:30-49 | Every stored firewall appears in the listing. |
| Firewalls.ByNameTotalPreorder | Controllers/FirewallController.cs:32-34 | Code-point (SQLite BINARY) ordering by name is a total preorder, so the listing's sort is well defined. |
| Firewalls.TestUrl | Controllers/FirewallController.cs:198-224 | An unknown id gives "Firewall not found". A failed test passes its error on and changes nothing. A successful test returns the result and sets the last-test time. |
| Firewalls.ResolveForQuery | Controllers/FirewallController.cs:237-254 | A blank domain resolves nothing. IPs are present exactly when the lookup succeeded, and are then the lookup's IPs with the lookup's sinkhole flag. A sinkhole name is present exactly on a sinkhole, and it is then the only IP. |
| Firewalls.QueryLogs | Controllers/FirewallController.cs:226-283 | The query runs on the stored host and decrypted key, with the resolved IPs as destinations and at most 100 logs. A failure passes its error on. Success returns the logs with the DNS report and sets the last-test time. |
| Firewalls.SinkholeNarrowsQuery | Controllers/FirewallController.cs:237-254 | On a sinkhole, the query's destination is exactly the first sinkhole name. |
| MonitoredUrls.ChecksOf | Controllers/MonitoredUrlsController.cs:33-45 | The result holds exactly the checks of one URL, each under its own id and each once. |
| MonitoredUrls.AverageWithinBounds | Controllers/MonitoredUrlsController.cs:44 | The average response time lies between any lower and upper bound of the individual times. |
| MonitoredUrls.Summarize | Controllers/MonitoredUrlsController.cs:25-46 | The listed checks are exactly the URL's checks within 60 days, each once, newest first. The average is over all its checks. The latest check is absent exactly when it has none, and is otherwise a check no other one postdates. |
| MonitoredUrls.GetMonitoredUrls | Controllers/MonitoredUrlsController.cs:19-50 | The listing has one summary per monitored URL, in id order. |
| MonitoredUrls.GetMonitoredUrl | Controllers/MonitoredUrlsController.cs:52-73 | A known id returns its fields and an unknown id gives NotFound. |
| MonitoredUrls.CreateMonitoredUrl | Controllers/MonitoredUrlsController.cs:75-110 | Blank fields are refused, then an HTTP check whose URL is not absolute, then a URL already stored (Conflict). Creation happens exactly when none applies, and adds one row. |
| MonitoredUrls.UpdateMonitoredUrl | Controllers/MonitoredUrlsController.cs:112-151 | Refusals come in order: blank fields, unknown id, invalid HTTP URL, then a URL used by another row (Conflict). Only a success changes the store, overwriting name, URL and type. |
| MonitoredUrls.DeleteMonitoredUrl | Controllers/MonitoredUrlsController.cs:153-166 | Deletion removes the URL and exactly the checks that reference it, or answers NotFound and changes nothing. Every other row and table is unchanged, and the store stays consistent. |
| SpeedTests.ToolPath | Services/SpeedTestService.cs:22-31 | The chosen path exists exactly when some candidate does, and is then the first existing one in the order tools folder, base folder, PATH. When none exists it falls back to the tools-folder candidate. |
| SpeedTests.Round2Nearest | Services/SpeedTestService.cs:124-125 | Rounding to two decimals moves a value by at most 0.005. |
| SpeedTests.Round2Exact | Services/SpeedTestService.cs:124-125 | A value with two decimals is unchanged by the rounding. |
| SpeedTests.TruncToInt | Services/SpeedTestService.cs:126-127 | The integer cast truncates toward zero. |
| SpeedTests.Interpret | Services/SpeedTestService.cs:94-134 | A failure to start gives its message. A non-zero exit gives "Speedtest failed: " plus stderr. Unreadable output gives its error. A measurement happens exactly on a zero exit with a report, recording rounded Mbps, truncated ping and jitter, server, ISP and "location, country". |
| SpeedTests.FailedTest | Services/SpeedTestService.cs:80-91 | A failed run records the message with zero speeds and no server details. |
| SpeedTests.CleanupOldTests | Services/SpeedTestService.cs:136-150 | Exactly the tests no older than 60 days survive, unchanged. |
| SpeedTests.CleanupIdempotent | Services/SpeedTestService.cs:136-150 | Pruning twice at the same time prunes nothing more. |
| SpeedTests.RunSpeedTest | Services/SpeedTestService.cs:57-92 | Every run stores its row under the next id, and that is the only row added. A stored test disappears only after a successful run, and only when it is older than the 60-day window. |
| SpeedTests.FailedRunKeepsHistory | Services/SpeedTestService.cs:80-91 | A failed run never removes a stored test. |
| SpeedTests.RunNow | Controllers/SpeedTestController.cs:92-143 | The row is always stored under a new id, without pruning, and every other row is kept. Success answers with the stored test. Failure answers with the error and the tool path. |
| SpeedTests.GetSpeedTests | Controllers/SpeedTestController.cs:35-61 | The listing holds exactly the tests within 60 days, each once, newest first. |
| SpeedTests.GetLatestSpeedTest | Controllers/SpeedTestController.cs:63-90 | NotFound, with its message, is answered exactly on an empty table. Otherwise the answer is a stored test that no other test postdates. |
| AuthMiddleware.ParseInt32OfIntToString | Middleware/AuthenticationMiddleware.cs:39-40 | The decimal text of any integer parses back to it exactly when it fits in 32 bits. |
| AuthMiddleware.Authenticate | Middleware/AuthenticationMiddleware.cs:20-76 | A request passes exactly when its lowered path is public or static, or its cookie parses to an existing user's id. A refusal is 401 for paths under "/api" and a login redirect otherwise. The cookie is deleted exactly when it names a missing user. |
| AuthMiddleware.SessionCookieAdmits | Middleware/AuthenticationMiddleware.cs:39-57 | The cookie holding an existing user's id admits every request. |
| AuthMiddleware.StaticRuleIsSubstring | Middleware/AuthenticationMiddleware.cs:32-36 | The static-file rule is a substring test, so a ".json" path passes without a cookie. |
| AuthService.HashPassword | Services/AuthService.cs:66-81 | The stored hash is 48 bytes: the 16-byte salt followed by the derived key. |
| AuthService.VerifyPassword | Services/AuthService.cs:83-99 | Verification answers true exactly when the derived key matches. It faults exactly when the hash has fewer than 16 bytes, or has fewer than 48 bytes and agrees with the derived key as far as it goes. |
| AuthService.HashThenVerify | Services/AuthService.cs:66-99 | A freshly hashed password verifies. |
| AuthService.EnsureDefaultUserExists | Services/AuthService.cs:18-33 | An empty user table gets the default admin, who must change the password. A non-empty table is untouched. |
| AuthService.EnsureDefaultUserIdempotent | Services/AuthService.cs:18-33 | Seeding twice adds the default user at most once. |
| AuthService.ValidateCredentials | Services/AuthService.cs:35-48 | Login succeeds exactly when the first user with that name has a matching password, and then records the login time. Every refusal leaves the users unchanged. |
| AuthService.GetUserById | Services/AuthService.cs:50-53 | A user is found exactly when the id is stored. |
| AuthService.ChangePassword | Services/AuthService.cs:55-64 | The call succeeds exactly for a stored id. It replaces only the hash and clears the must-change flag. |
| AuthService.ChangedPasswordVerifies | Services/AuthService.cs:55-64 | After a change, the new password verifies against the stored hash. |
| FooterInjection.Insertion | Middleware/FooterInjectionMiddleware.cs:49 | The inserted text ends with the closing body tag it replaces. |
| FooterInjection.ReplaceLength | Middleware/FooterInjectionMiddleware.cs:49 | Case-insensitive replacement changes the length by the number of matches times the length difference. |
| FooterInjection.ReplaceSingleMatch | Middleware/FooterInjectionMiddleware.cs:49 | With a single match, replacement splices the new text in at that match and nowhere else. |
| FooterInjection.Inject | Middleware/FooterInjectionMiddleware.cs:29-62 | A body is rewritten exactly when it is HTML and contains "</body>" in any case. Every match is then replaced. |
| FooterInjection.InjectOnePage | Middleware/FooterInjectionMiddleware.cs:29-62 | A page with one closing body tag gains the footer, script and newline right before it, and grows by exactly their length. |
| FooterInjection.InjectKeepsBodyCloseCount | Middleware/FooterInjectionMiddleware.cs:16-49 | For the footer of any year and any script without a closing body tag, a rewritten page holds exactly as many closing body tags, matched ignoring case, as the original. Each insertion ends with the tag it replaced, and no tag forms across its edges. |
| Dashboard.SlowIsMonotone | wwwroot/app.js:183-191 | A slower latest check, or a lower positive average, keeps a URL flagged slow. |
| Dashboard.FastNeverSlow | wwwroot/app.js:183-191 | A latest response of at most 1000 ms is never flagged. |
| Dashboard.ChartSeries | wwwroot/app.js:221-229 | There is no chart exactly when nothing in the window passes. Otherwise the chart holds exactly the in-window points that pass, each as often as the data holds it. |
| Dashboard.ChartIsOldestFirst | wwwroot/app.js:221-239 | Newest-first data becomes an oldest-first chart. |
| Dashboard.SpeedChartOnlySuccesses | wwwroot/app.js:687-698 | The speed chart plots only successful tests. |
| Dashboard.EscapeEach | wwwroot/app.js:490-497 | Escaped text never contains <, >, a double quote or an apostrophe. |
| Dashboard.EscapeHtmlIsPerCharacter | wwwroot/app.js:490-497 | The chained replacements equal escaping each character on its own. |
| Dashboard.UnescapeEscape | wwwroot/app.js:490-497 | Escaping loses nothing: decoding the entities gives the original text back. |
| Dashboard.BandOf | wwwroot/app.js:997-1005 | A certificate is "Expired" exactly below 0 days, "Expiring soon" from 0 to 30 days, and "Valid" above 30 days. |
| Dashboard.BandAfterCapture | wwwroot/app.js:997-1005 | A certificate shows as Expired exactly when it expired at least a full day ago. |
| Dashboard.ExpiredCertificateShownExpiringSoon | wwwroot/app.js:997-1005 | A certificate that expired under a day ago is invalid but still shown as "Expiring soon". |

## Left out

- Background scheduling is not modelled. The workers' timing loops, delays and cancellation are left out: each round is one call with its own `now`.
- Network, DNS, TLS, ping and process execution are not modelled. Their outcomes are inputs, and the XML parsing of appliance replies starts from already-parsed elements.
- Entity Framework is not modelled beyond maps. A `SaveChanges` failure is not modelled. SQL ordering ties are taken in ascending id order. Queries with no ORDER BY are also read in ascending id order: the URL listing, a URL's checks for the average and the latest check, the batch checked by CheckAllUrls, and the first user found by username. The store is assumed to honour the unique URL index and the cascade.
- Cryptography is not modelled. PBKDF2, the random salt, Base64 and ASP.NET data protection are parameters. Only the hash's byte layout and the encrypt/decrypt round trip are stated.
- Floating point is not modelled. Averages, Mbps and the slow-response threshold use exact reals.
- SpeedTests.TruncToInt: the cast to a 32-bit int is modelled as truncation on unbounded integers. Overflow of latencies beyond 2^31 ms is not modelled, because no real measurement reaches it.
- Calendars and time zones are not modelled. The traffic filter's local-time stamp comes from a parameter, and days are 24-hour tick spans.
- PaloAlto.QueryTrafficLogs: the stamps use "/" and ":" as separators, as the invariant culture does. .NET substitutes the current culture's date and time separators for them, and that substitution is not modelled. The range exception's message is a parameter of the clock.
- `Path.Combine` follows the Windows rule of .NET Core and later: a `\` is added unless the first part already ends in `\` or `/`. The older rule that also accepted `:` is not used.
- Case folding is not culture-aware. `ToLower` and ordinal case-insensitive comparisons fold ASCII letters only.
- `Uri.TryCreate` and `Uri.Host` are not modelled. Absolute-URI parsing is a parameter.
- Ids supplied in request bodies are not modelled. The source would insert a client-supplied non-zero id as given, so a clash fails; the model always assigns a fresh id.
- Each operation reads the clock once. Where the source reads `UtcNow` twice, both reads are taken to be equal.
- The guard script's text is a parameter of `FooterInjection.NewInjector`. `FooterInjection.InjectKeepsBodyCloseCount` takes as a hypothesis that it holds no closing body tag; the footer text is modelled in full. Content-Length recomputation and stream buffering are left out.
- The login and logout controller is left out. Only the authentication service and the request gate are modelled.
- DOM rendering, Chart.js drawing, logging, health endpoints and dependency-injection wiring are left out.
- `FeedHornContext` declares only four entity sets, while the controllers use certificates, firewalls and users too. The model gives every entity a table.
- `int.TryParse` is modelled for the integer number style with ASCII digits and .NET white space. Culture-specific signs and full-width digits are left out.

=== FILE: auth_middleware.dfy ===
/**
 * The request gate in front of the dashboard: public pages and static assets
 * pass; everything else needs a session cookie holding the id of an existing
 * user. API requests without one get 401, page requests a redirect to the
 * login page, and a cookie naming a missing user is also deleted.
 */
module AuthMiddleware {
  import opened Wrappers
  import opened Text
  import opened Models
  import opened Context

  const PublicPaths: seq<string> := ["/login.html", "/api/auth/login", "/api/auth/status"]
  const StaticMarkers: seq<string> := [".css", ".js", ".svg", ".png"]
  const SessionCookie: string := "FeedHorn_UserId"

  const Int32Min: int := -0x8000_0000
  const Int32Max: int := 0x7FFF_FFFF

  /** The white space `int.TryParse` skips around a number. */
  predicate IsNumberWhite(c: char)
  {
    c == ' ' || '\U{9}' <= c <= '\U{D}'
  }

  function SkipLeading(s: string): (r: string)
    ensures |r| <= |s| && r == s[|s| - |r|..]
    ensures r == [] || !IsNumberWhite(r[0])
  {
    if s != [] && IsNumberWhite(s[0]) then SkipLeading(s[1..]) else s
  }

  function SkipTrailing(s: string): (r: string)
    ensures |r| <= |s| && r == s[..|r|]
    ensures r == [] || !IsNumberWhite(r[|r| - 1])
  {
    if s != [] && IsNumberWhite(s[|s| - 1]) then SkipTrailing(s[..|s| - 1]) else s
  }

  predicate AllDigits(s: string)
  {
    forall i :: 0 <= i < |s| ==> IsDigit(s[i])
  }

  function InInt32Range(v: int): (r: Option<int>)
    ensures r.Some? <==> Int32Min <= v <= Int32Max
    ensures r.Some? ==> r.value == v
  {
    if Int32Min <= v <= Int32Max then Some(v) else None
  }

  /** At least one decimal digit and nothing else, negated if a '-' preceded it. */
  function ParseMagnitude(digits: string, negative: bool): Option<int>
  {
    if digits == [] || !AllDigits(digits) then None
    else if negative then InInt32Range(-(DigitsValue(digits) as int))
    else InInt32Range(DigitsValue(digits))
  }

  /** An optional sign, then the magnitude. */
  function ParseSigned(body: string): Option<int>
  {
    if body != [] && body[0] == '-' then ParseMagnitude(body[1..], true)
    else if body != [] && body[0] == '+' then ParseMagnitude(body[1..], false)
    else ParseMagnitude(body, false)
  }

  /**
   * `int.TryParse` with the integer number style: optional surrounding white
   * space, an optional sign, then at least one decimal digit; the value must
   * fit in 32 bits.
   */
  function ParseInt32(s: string): (r: Option<int>)
    ensures r.Some? ==> Int32Min <= r.value <= Int32Max
  {
    ParseSigned(SkipTrailing(SkipLeading(s)))
  }

  /** Text with no surrounding number white space is left alone by the skipping. */
  lemma SkipNothing(s: string)
    requires s != [] && !IsNumberWhite(s[0]) && !IsNumberWhite(s[|s| - 1])
    ensures SkipTrailing(SkipLeading(s)) == s
  {
  }

  /** An unsigned digit string parses to its value, if that fits. */
  lemma ParseDigits(m: string)
    requires m != [] && AllDigits(m)
    ensures ParseInt32(m) == InInt32Range(DigitsValue(m))
  {
    SkipNothing(m);
  }

  lemma SignThenMagnitude(m: string)
    requires m != [] && AllDigits(m)
    ensures ParseSigned("-" + m) == ParseMagnitude(m, true)
  {
    assert ("-" + m)[1..] == m;
  }

  lemma NegatedNotSkipped(m: string)
    requires m != [] && AllDigits(m)
    ensures SkipTrailing(SkipLeading("-" + m)) == "-" + m
  {
    var s := "-" + m;
    assert s[|s| - 1] == m[|m| - 1];
    SkipNothing(s);
  }

  /** A '-' followed by a digit string parses to the negated value, if that fits. */
  lemma ParseNegatedDigits(m: string)
    requires m != [] && AllDigits(m)
    ensures ParseInt32("-" + m) == ParseMagnitude(m, true)
  {
    NegatedNotSkipped(m);
    SignThenMagnitude(m);
  }

  /**
   * Every integer's decimal text parses back to it exactly when it fits in
   * 32 bits, and is rejected otherwise.
   */
  lemma ParseInt32OfIntToString(n: int)
    ensures ParseInt32(IntToString(n)) == InInt32Range(n)
  {
    if n < 0 {
      var m := NatToString(-n);
      assert IntToString(n) == "-" + m;
      DigitsValueOfNatToString(-n);
      assert -(DigitsValue(m) as int) == n;
      ParseNegatedDigits(m);
    } else {
      var m := NatToString(n);
      assert IntToString(n) == m;
      DigitsValueOfNatToString(n);
      ParseDigits(m);
    }
  }

  /** `PathString.StartsWithSegments`: the path is the segment itself or continues with '/', ignoring case. */
  predicate StartsWithSegments(path: string, segment: string)
  {
    && StartsWithIgnoreCase(path, segment)
    && (|path| == |segment| || path[|segment|] == '/')
  }

  predicate IsPublic(lowered: string)
  {
    exists i :: 0 <= i < |PublicPaths| && Contains(lowered, PublicPaths[i])
  }

  predicate IsStatic(lowered: string)
  {
    exists i :: 0 <= i < |StaticMarkers| && Contains(lowered, StaticMarkers[i])
  }

  /** What the gate does with a request. */
  datatype Decision = Next | Unauthorized | RedirectToLogin

  datatype Outcome = Outcome(decision: Decision, deleteCookie: bool)

  /** 401 for API paths, a redirect to the login page for everything else. */
  function Refuse(path: string): (d: Decision)
    ensures d == Unauthorized <==> StartsWithSegments(path, "/api")
    ensures d != Next
  {
    if StartsWithSegments(path, "/api") then Unauthorized else RedirectToLogin
  }

  /**
   * The gate. `path` is the request path (absent when empty) and `cookie` the
   * session cookie, if sent.
   */
  function Authenticate(path: Option<string>, cookie: Option<string>, users: Table<User>): (r: Outcome)
    ensures var p := path.GetOr("");
            var id := if cookie.Some? then ParseInt32(cookie.value) else None;
            && (r.decision == Next <==>
                  IsPublic(Lower(p)) || IsStatic(Lower(p)) || (id.Some? && id.value in users.rows))
            && (r.decision != Next ==> r.decision == Refuse(p))
            && (r.deleteCookie <==>
                  !IsPublic(Lower(p)) && !IsStatic(Lower(p)) && id.Some? && id.value !in users.rows)
  {
    var p := path.GetOr("");
    var lowered := Lower(p);
    if IsPublic(lowered) || IsStatic(lowered) then Outcome(Next, false)
    else
      var id := if cookie.Some? then ParseInt32(cookie.value) else None;
      if id.None? then Outcome(Refuse(p), false)
      else if id.value !in users.rows then Outcome(Refuse(p), true)
      else Outcome(Next, false)
  }

  /** The cookie the login sets (the user's id in decimal) lets every request through while the user exists. */
  lemma SessionCookieAdmits(path: Option<string>, id: int, users: Table<User>)
    requires Int32Min <= id <= Int32Max && id in users.rows
    ensures Authenticate(path, Some(IntToString(id)), users) == Outcome(Next, false)
  {
    ParseInt32OfIntToString(id);
  }

  /** The static-asset rule is a substring test: any path mentioning ".js", such as a ".json" API path, passes. */
  lemma StaticRuleIsSubstring(users: Table<User>)
    ensures Authenticate(Some("/a.json"), None, users).decision == Next
  {
    var p := "/a.json";
    assert Lower(p) == p by {
      forall i | 0 <= i < |p| ensures LowerChar(p[i]) == p[i] { }
    }
    assert p[2..5] == ".js";
    assert OccursAt(p, StaticMarkers[1], 2);
  }
}

=== FILE: auth_service.dfy ===
/**
 * Accounts: the salted password hash (16 random salt bytes followed by the
 * 32-byte key derived from the password and salt), its verification, the
 * default account, login, lookup and password change. The key derivation
 * and the salt source are parameters.
 */
module AuthService {
  import opened Wrappers
  import opened Clock
  import opened Models
  import opened Context

  const SaltSize: nat := 16
  const KeySize: nat := 32
  const HashSize: nat := 48
  const DefaultUsername: string := "admin"
  const DefaultPassword: string := "admin"

  type Salt = s: seq<byte> | |s| == SaltSize witness seq(16, _ => 0 as byte)
  type DerivedKey = k: seq<byte> | |k| == KeySize witness seq(32, _ => 0 as byte)

  /** The key derivation: a password and a salt to a 32-byte key (10 000 rounds of PBKDF2-SHA256). */
  type Kdf = (string, Salt) -> DerivedKey

  /** The stored hash: the salt, then the key derived from the password with it. */
  function HashPassword(password: string, salt: Salt, kdf: Kdf): (h: seq<byte>)
    ensures |h| == HashSize
    ensures h[..SaltSize] == salt
    ensures h[SaltSize..] == kdf(password, salt)
  {
    salt + kdf(password, salt)
  }

  /** The salt a stored hash carries; defined when it has at least 16 bytes. */
  function SaltOf(stored: seq<byte>): Salt
    requires |stored| >= SaltSize
  {
    stored[..SaltSize]
  }

  /** The stored bytes hold the key derived from `password` and their own salt. */
  predicate Matches(password: string, stored: seq<byte>, kdf: Kdf)
  {
    |stored| >= HashSize && stored[SaltSize..HashSize] == kdf(password, SaltOf(stored))
  }

  /**
   * The stored bytes make verification fail with an exception: too short to
   * hold a salt, or too short to hold a whole key and agreeing with the
   * derived key as far as they go.
   */
  predicate Throws(password: string, stored: seq<byte>, kdf: Kdf)
  {
    || |stored| < SaltSize
    || (|stored| < HashSize && stored[SaltSize..] == kdf(password, SaltOf(stored))[..|stored| - SaltSize])
  }

  /**
   * Compares the stored key with the key derived from `password` and the
   * stored salt, byte by byte; bytes after the 48th are ignored. `None` is the
   * exception the comparison raises when it runs past the end of the stored
   * bytes before finding a difference.
   */
  method VerifyPassword(password: string, stored: seq<byte>, kdf: Kdf) returns (r: Option<bool>)
    ensures r.None? <==> Throws(password, stored, kdf)
    ensures r == Some(true) <==> Matches(password, stored, kdf)
  {
    if |stored| < SaltSize {
      return None;
    }
    var hash := kdf(password, SaltOf(stored));
    var i := 0;
    while i < KeySize
      invariant 0 <= i <= KeySize
      invariant i + SaltSize <= |stored|
      invariant stored[SaltSize..SaltSize + i] == hash[..i]
    {
      if i + SaltSize >= |stored| {
        assert stored[SaltSize..] == hash[..|stored| - SaltSize];
        return None;
      }
      if stored[i + SaltSize] != hash[i] {
        assert !Matches(password, stored, kdf) by {
          if |stored| >= HashSize {
            assert stored[SaltSize..HashSize][i] != hash[i];
          }
        }
        assert !Throws(password, stored, kdf) by {
          if |stored| < HashSize {
            assert stored[SaltSize..][i] != hash[..|stored| - SaltSize][i];
          }
        }
        return Some(false);
      }
      assert stored[SaltSize..SaltSize + i + 1] == stored[SaltSize..SaltSize + i] + [stored[SaltSize + i]];
      assert hash[..i + 1] == hash[..i] + [hash[i]];
      i := i + 1;
    }
    return Some(true);
  }

  /** A freshly hashed password verifies against the password it was made from. */
  lemma HashThenVerify(password: string, salt: Salt, kdf: Kdf)
    ensures Matches(password, HashPassword(password, salt, kdf), kdf)
    ensures !Throws(password, HashPassword(password, salt, kdf), kdf)
  {
  }

  /** Creates the default account (must change its password) when there are no accounts at all. */
  function EnsureDefaultUserExists(users: Table<User>, salt: Salt, kdf: Kdf, now: Ticks): (r: Table<User>)
    requires users.Valid()
    ensures r.Valid()
    ensures users.rows != map[] ==> r == users
    ensures users.rows == map[] ==>
              && r.rows.Keys == {users.nextId}
              && r.rows[users.nextId] == User(DefaultUsername, HashPassword(DefaultPassword, salt, kdf), true, now, None)
  {
    if users.rows != map[] then users
    else Insert(users, User(DefaultUsername, HashPassword(DefaultPassword, salt, kdf), true, now, None)).0
  }

  /** Running the default-account step again changes nothing, and afterwards there is an account. */
  lemma EnsureDefaultUserIdempotent(users: Table<User>, salt: Salt, salt2: Salt, kdf: Kdf, now: Ticks, later: Ticks)
    requires users.Valid()
    ensures var once := EnsureDefaultUserExists(users, salt, kdf, now);
            && once.rows != map[]
            && EnsureDefaultUserExists(once, salt2, kdf, later) == once
  {
    var once := EnsureDefaultUserExists(users, salt, kdf, now);
    if users.rows == map[] {
      assert users.nextId in once.rows;
    }
  }

  /** The first account, in id order, whose user name is exactly `username`. */
  function FindByUsername(users: Table<User>, username: string): (r: Option<int>)
    requires users.Valid()
    ensures r.None? <==> forall k :: k in users.rows ==> users.rows[k].username != username
    ensures r.Some? ==> r.value in users.rows && users.rows[r.value].username == username
    ensures r.Some? ==> forall k :: k in users.rows && k < r.value ==> users.rows[k].username != username
  {
    FirstNamed(users.rows, Ids(users), username)
  }

  function FirstNamed(rows: map<int, User>, ids: seq<int>, username: string): (r: Option<int>)
    requires forall i, j :: 0 <= i < j < |ids| ==> ids[i] < ids[j]
    requires forall i :: 0 <= i < |ids| ==> ids[i] in rows
    ensures r.None? <==> forall i :: 0 <= i < |ids| ==> rows[ids[i]].username != username
    ensures r.Some? ==> r.value in ids && rows[r.value].username == username
    ensures r.Some? ==> forall i :: 0 <= i < |ids| && ids[i] < r.value ==> rows[ids[i]].username != username
  {
    if ids == [] then None
    else if rows[ids[0]].username == username then Some(ids[0])
    else FirstNamed(rows, ids[1..], username)
  }

  /** How a login attempt ends: the account, a refusal, or the exception verification raised. */
  datatype Login = LoggedIn(id: int) | Refused | Faulted

  /**
   * Checks credentials against the first account with that user name; on
   * success its last-login time becomes `now`. Nothing else changes.
   */
  method ValidateCredentials(users: Table<User>, username: string, password: string, kdf: Kdf, now: Ticks)
    returns (r: Login, after: Table<User>)
    requires users.Valid()
    ensures after.Valid()
    ensures FindByUsername(users, username).None? ==> r == Refused && after == users
    ensures FindByUsername(users, username).Some? ==>
              var id := FindByUsername(users, username).value;
              var u := users.rows[id];
              && (r.LoggedIn? <==> Matches(password, u.passwordHash, kdf))
              && (r == Faulted <==> Throws(password, u.passwordHash, kdf))
              && (r.LoggedIn? ==> r.id == id && after == Replace(users, id, u.(lastLoginAt := Some(now))))
              && (!r.LoggedIn? ==> after == users)
  {
    var found := FindByUsername(users, username);
    if found.None? {
      return Refused, users;
    }
    var id := found.value;
    var ok := VerifyPassword(password, users.rows[id].passwordHash, kdf);
    match ok {
      case None => r, after := Faulted, users;
      case Some(false) => r, after := Refused, users;
      case Some(true) => r, after := LoggedIn(id), Replace(users, id, users.rows[id].(lastLoginAt := Some(now)));
    }
  }

  function GetUserById(users: Table<User>, id: int): (r: Option<User>)
    ensures r.Some? <==> id in users.rows
    ensures r.Some? ==> r.value == users.rows[id]
  {
    if id in users.rows then Some(users.rows[id]) else None
  }

  /** Stores a new hash for the account and clears its must-change flag; false for an unknown id. */
  function ChangePassword(users: Table<User>, id: int, newPassword: string, salt: Salt, kdf: Kdf): (r: (bool, Table<User>))
    requires users.Valid()
    ensures r.1.Valid()
    ensures r.0 <==> id in users.rows
    ensures !r.0 ==> r.1 == users
    ensures r.0 ==> r.1 == Replace(users, id, users.rows[id].(passwordHash := HashPassword(newPassword, salt, kdf),
                                                              mustChangePassword := false))
  {
    if id !in users.rows then (false, users)
    else (true, Replace(users, id, users.rows[id].(passwordHash := HashPassword(newPassword, salt, kdf),
                                                   mustChangePassword := false)))
  }

  /** After a password change, the new password verifies for that account. */
  lemma ChangedPasswordVerifies(users: Table<User>, id: int, newPassword: string, salt: Salt, kdf: Kdf)
    requires users.Valid() && id in users.rows
    ensures var after := ChangePassword(users, id, newPassword, salt, kdf).1;
            Matches(newPassword, after.rows[id].passwordHash, kdf)
  {
    HashThenVerify(newPassword, salt, kdf);
  }
}

=== FILE: clock.dfy ===
/**
 * Time as the source's `DateTime`/`TimeSpan` sees it: instants are tick counts
 * (100 ns units), durations are tick differences, and the appliance filter uses
 * the `yyyy/MM/dd HH:mm:ss` rendering of a calendar stamp.
 */
module Clock {
  import opened Wrappers
  import opened Text

  /** An instant, in ticks. */
  type Ticks = int

  const TicksPerMillisecond: int := 10_000
  const TicksPerHour: int := 36_000_000_000
  const TicksPerDay: int := 864_000_000_000

  /** `DateTime.MaxValue.Ticks`, the last instant of the year 9999; the first is tick 0. */
  const MaxTicks: int := 3_155_378_975_999_999_999

  /** Rows older than this many days are pruned and hidden from listings. */
  const RetentionDays: int := 60

  /** `DateTime.UtcNow.AddDays(-60)`. */
  function RetentionCutoff(now: Ticks): Ticks
  {
    now - RetentionDays * TicksPerDay
  }

  lemma DivisionBounds(m: nat, b: int)
    requires b > 0
    ensures (m / b) * b <= m < (m / b) * b + b
    ensures m / b >= 1 <==> m >= b
  {
  }

  /** C#'s integer division, which truncates toward zero. */
  function TruncDiv(a: int, b: int): (q: int)
    requires b > 0
    ensures q < 0 <==> a <= -b
    ensures q > 0 <==> a >= b
  {
    if a >= 0 then
      DivisionBounds(a, b);
      a / b
    else
      DivisionBounds(-a, b);
      -((-a) / b)
  }

  /** The truncated quotient takes the most whole multiples of `b` that fit in `a`, on `a`'s side of zero. */
  lemma TruncDivBounds(a: int, b: int)
    requires b > 0
    ensures a >= 0 ==> TruncDiv(a, b) * b <= a < TruncDiv(a, b) * b + b
    ensures a < 0 ==> TruncDiv(a, b) * b - b < a <= TruncDiv(a, b) * b
  {
    if a >= 0 {
      DivisionBounds(a, b);
    } else {
      var d := (-a) / b;
      DivisionBounds(-a, b);
      assert TruncDiv(a, b) == -d;
      assert (-d) * b == -(d * b);
    }
  }

  /** `TimeSpan.Days`: the whole days of a tick span, truncated toward zero. */
  function WholeDays(span: int): int
  {
    TruncDiv(span, TicksPerDay)
  }

  /** A calendar reading of an instant, as `DateTime` exposes its fields. */
  datatype Stamp = Stamp(year: int, month: int, day: int, hour: int, minute: int, second: int)
  {
    predicate Valid()
    {
      && 1 <= year <= 9999 && 1 <= month <= 12 && 1 <= day <= 31
      && 0 <= hour < 24 && 0 <= minute < 60 && 0 <= second < 60
    }
  }

  /** `n` in exactly `width` decimal digits, zero-padded on the left. */
  function Pad(n: nat, width: nat): (r: string)
    ensures |r| == width
    ensures forall i :: 0 <= i < |r| ==> IsDigit(r[i])
  {
    if width == 0 then "" else Pad(n / 10, width - 1) + [DigitChar(n % 10)]
  }

  function Power10(k: nat): (p: nat)
    ensures p >= 1
  {
    if k == 0 then 1 else 10 * Power10(k - 1)
  }

  /** Reading back `width` zero-padded digits gives `n` whenever `n` fits. */
  lemma {:induction false} PadRoundTrip(n: nat, width: nat)
    requires n < Power10(width)
    ensures DigitsValue(Pad(n, width)) == n
  {
    if width > 0 {
      var p := Pad(n / 10, width - 1);
      var s := p + [DigitChar(n % 10)];
      assert s[..|s| - 1] == p;
      PadRoundTrip(n / 10, width - 1);
    }
  }

  /** Writing the value of `width` digits back with `Pad` gives the same digits. */
  lemma {:induction false} DigitsRoundTrip(s: string)
    requires forall i :: 0 <= i < |s| ==> IsDigit(s[i])
    ensures DigitsValue(s) < Power10(|s|)
    ensures Pad(DigitsValue(s), |s|) == s
  {
    if s != [] {
      var p := s[..|s| - 1];
      DigitsRoundTrip(p);
      var v := DigitsValue(s);
      assert v / 10 == DigitsValue(p);
      assert v % 10 == DigitValue(s[|s| - 1]);
      assert s == p + [s[|s| - 1]];
    }
  }

  /** `ToString("yyyy/MM/dd HH:mm:ss")`. */
  function FormatStamp(t: Stamp): (r: string)
    requires t.Valid()
    ensures |r| == 19
  {
    Pad(t.year, 4) + "/" + Pad(t.month, 2) + "/" + Pad(t.day, 2) + " "
      + Pad(t.hour, 2) + ":" + Pad(t.minute, 2) + ":" + Pad(t.second, 2)
  }

  predicate AllDigits(s: string)
  {
    forall i :: 0 <= i < |s| ==> IsDigit(s[i])
  }

  /** The inverse of `FormatStamp`: accepts exactly its 19-character layout. */
  function ParseStamp(s: string): Option<Stamp>
  {
    if |s| == 19 && s[4] == '/' && s[7] == '/' && s[10] == ' ' && s[13] == ':' && s[16] == ':'
       && AllDigits(s[0..4]) && AllDigits(s[5..7]) && AllDigits(s[8..10])
       && AllDigits(s[11..13]) && AllDigits(s[14..16]) && AllDigits(s[17..19])
    then
      var t := Stamp(DigitsValue(s[0..4]), DigitsValue(s[5..7]), DigitsValue(s[8..10]),
                     DigitsValue(s[11..13]), DigitsValue(s[14..16]), DigitsValue(s[17..19]));
      if t.Valid() then Some(t) else None
    else None
  }

  /** Formatting then parsing a stamp gives the stamp back. */
  lemma StampRoundTrip(t: Stamp)
    requires t.Valid()
    ensures ParseStamp(FormatStamp(t)) == Some(t)
  {
    var s := FormatStamp(t);
    assert s[0..4] == Pad(t.year, 4);
    assert s[5..7] == Pad(t.month, 2);
    assert s[8..10] == Pad(t.day, 2);
    assert s[11..13] == Pad(t.hour, 2);
    assert s[14..16] == Pad(t.minute, 2);
    assert s[17..19] == Pad(t.second, 2);
    PadRoundTrip(t.year, 4);
    PadRoundTrip(t.month, 2);
    PadRoundTrip(t.day, 2);
    PadRoundTrip(t.hour, 2);
    PadRoundTrip(t.minute, 2);
    PadRoundTrip(t.second, 2);
  }

  /** Every string the parser accepts is exactly the rendering of what it returns. */
  lemma ParseStampCanonical(s: string)
    requires ParseStamp(s).Some?
    ensures FormatStamp(ParseStamp(s).value) == s
  {
    DigitsRoundTrip(s[0..4]);
    DigitsRoundTrip(s[5..7]);
    DigitsRoundTrip(s[8..10]);
    DigitsRoundTrip(s[11..13]);
    DigitsRoundTrip(s[14..16]);
    DigitsRoundTrip(s[17..19]);
    var r := FormatStamp(ParseStamp(s).value);
    assert r[0..4] == s[0..4];
    assert r == s;
  }
}

=== FILE: context.dfy ===
/**
 * The store: one table per entity set, each a map from id to record, plus the
 * relationships the database enforces: the unique index on `MonitoredUrl.Url`
 * and the cascade from a monitored URL to its checks.
 */
module Context {
  import opened Wrappers
  import opened Models
  import opened Ordering

  /**
   * A table with store-assigned ids. `nextId` is the next id the store hands
   * out; ids are never reused.
   */
  datatype Table<T> = Table(rows: map<int, T>, nextId: int)
  {
    ghost predicate Valid()
    {
      nextId >= 1 && forall k :: k in rows ==> 1 <= k < nextId
    }
  }

  function EmptyTable<T>(): (t: Table<T>)
    ensures t.Valid() && t.rows == map[]
  {
    Table(map[], 1)
  }

  /** Adds one row under a fresh id; every existing row is kept as it was. */
  function Insert<T>(t: Table<T>, v: T): (r: (Table<T>, int))
    requires t.Valid()
    ensures r.0.Valid()
    ensures r.1 !in t.rows && r.1 in r.0.rows && r.0.rows[r.1] == v
    ensures r.0.rows.Keys == t.rows.Keys + {r.1}
    ensures forall k :: k in t.rows ==> r.0.rows[k] == t.rows[k]
  {
    (Table(t.rows[t.nextId := v], t.nextId + 1), t.nextId)
  }

  /** Adds the rows of `vs` under consecutive fresh ids, in order. */
  function AppendAll<T>(t: Table<T>, vs: seq<T>): (r: Table<T>)
    requires t.Valid()
    ensures r.Valid()
    ensures r.nextId == t.nextId + |vs|
    ensures forall k :: t.nextId <= k < r.nextId ==> k !in t.rows
    ensures forall k :: t.nextId <= k < r.nextId ==> k in r.rows && r.rows[k] == vs[k - t.nextId]
    ensures forall k :: k in t.rows ==> k in r.rows && r.rows[k] == t.rows[k]
    ensures forall k :: k in r.rows ==> k in t.rows || t.nextId <= k < r.nextId
    decreases |vs|
  {
    if vs == [] then t
    else
      var t1 := Insert(t, vs[0]).0;
      var r := AppendAll(t1, vs[1..]);
      r
  }

  /** Replaces the row under an existing id. */
  function Replace<T>(t: Table<T>, id: int, v: T): (r: Table<T>)
    requires t.Valid() && id in t.rows
    ensures r.Valid()
    ensures r.rows.Keys == t.rows.Keys && r.rows[id] == v
    ensures forall k :: k in t.rows && k != id ==> r.rows[k] == t.rows[k]
  {
    Table(t.rows[id := v], t.nextId)
  }

  /** Removes the row under `id`, if any. */
  function Remove<T>(t: Table<T>, id: int): (r: Table<T>)
    requires t.Valid()
    ensures r.Valid()
    ensures r.rows.Keys == t.rows.Keys - {id}
    ensures forall k :: k in r.rows ==> r.rows[k] == t.rows[k]
  {
    Table(t.rows - {id}, t.nextId)
  }

  /** Keeps exactly the rows satisfying `keep`, unchanged. */
  function Where<T>(t: Table<T>, keep: T -> bool): (r: Table<T>)
    requires t.Valid()
    ensures r.Valid() && r.nextId == t.nextId
    ensures forall k :: k in r.rows <==> k in t.rows && keep(t.rows[k])
    ensures forall k :: k in r.rows ==> r.rows[k] == t.rows[k]
  {
    Table(map k | k in t.rows && keep(t.rows[k]) :: t.rows[k], t.nextId)
  }

  /** The ids below `bound`, ascending: the order a full scan returns rows in. */
  function IdsBelow<T>(rows: map<int, T>, bound: int): (ids: seq<int>)
    ensures forall i, j :: 0 <= i < j < |ids| ==> ids[i] < ids[j]
    ensures forall k :: k in ids <==> k in rows && 1 <= k < bound
    decreases bound
  {
    if bound <= 1 then []
    else
      var below := IdsBelow(rows, bound - 1);
      assert forall i :: 0 <= i < |below| ==> below[i] < bound - 1 by {
        forall i | 0 <= i < |below| ensures below[i] < bound - 1 {
          assert below[i] in below;
        }
      }
      below + (if bound - 1 in rows then [bound - 1] else [])
  }

  /** Every id of a valid table, ascending, each once. */
  function Ids<T>(t: Table<T>): (ids: seq<int>)
    requires t.Valid()
    ensures forall i, j :: 0 <= i < j < |ids| ==> ids[i] < ids[j]
    ensures forall k :: k in ids <==> k in t.rows
  {
    IdsBelow(t.rows, t.nextId)
  }

  /** Every row of a valid table with its id, in ascending id order. */
  function Entries<T>(t: Table<T>): (es: seq<(int, T)>)
    requires t.Valid()
    ensures |es| == |Ids(t)|
    ensures forall i :: 0 <= i < |es| ==> es[i].0 == Ids(t)[i] && es[i].1 == t.rows[Ids(t)[i]]
  {
    var ids := Ids(t);
    seq(|ids|, i requires 0 <= i < |ids| => (ids[i], t.rows[ids[i]]))
  }

  /** An id/row pair is an entry of a table exactly when the table holds that row under that id. */
  lemma EntriesComplete<T>(t: Table<T>, k: int, v: T)
    requires t.Valid()
    ensures (k, v) in Entries(t) <==> k in t.rows && t.rows[k] == v
  {
    var es := Entries(t);
    if k in t.rows && t.rows[k] == v {
      var ids := Ids(t);
      var i :| 0 <= i < |ids| && ids[i] == k;
      assert es[i] == (k, v);
    }
  }

  /** Any reordering of a table's entries still holds exactly its rows, each under its own id. */
  lemma PermutedEntries<T>(t: Table<T>, s: seq<(int, T)>)
    requires t.Valid() && multiset(s) == multiset(Entries(t))
    ensures forall i :: 0 <= i < |s| ==> s[i].0 in t.rows && s[i].1 == t.rows[s[i].0]
    ensures forall k :: k in t.rows ==> exists i :: 0 <= i < |s| && s[i].0 == k
  {
    forall i | 0 <= i < |s| ensures s[i].0 in t.rows && s[i].1 == t.rows[s[i].0] {
      assert s[i] in multiset(s);
      EntriesComplete(t, s[i].0, s[i].1);
    }
    forall k | k in t.rows ensures exists i :: 0 <= i < |s| && s[i].0 == k {
      EntriesComplete(t, k, t.rows[k]);
      assert (k, t.rows[k]) in multiset(s);
    }
  }

  /** Pairs drawn from a listing of stored rows are stored rows too. */
  lemma DrawnFromStored<T>(t: Table<T>, s: seq<(int, T)>, r: seq<(int, T)>)
    requires forall i :: 0 <= i < |s| ==> s[i].0 in t.rows && t.rows[s[i].0] == s[i].1
    requires forall i :: 0 <= i < |r| ==> r[i] in s
    ensures forall i :: 0 <= i < |r| ==> r[i].0 in t.rows && t.rows[r[i].0] == r[i].1
  {
    forall i | 0 <= i < |r| ensures r[i].0 in t.rows && t.rows[r[i].0] == r[i].1 {
      var x := r[i];
      assert x in s;
      var j :| 0 <= j < |s| && s[j] == x;
    }
  }

  /** No id appears twice in a listing of id/row pairs. */
  predicate IdsOnce<T>(s: seq<(int, T)>)
  {
    forall i, j :: 0 <= i < j < |s| ==> s[i].0 != s[j].0
  }

  /** A table's entries never repeat: their ids ascend strictly. */
  lemma EntriesDistinct<T>(t: Table<T>)
    requires t.Valid()
    ensures Distinct(Entries(t))
  {
    var es := Entries(t);
    forall i, j | 0 <= i < j < |es| ensures es[i] != es[j] {
      assert es[i].0 == Ids(t)[i] && es[j].0 == Ids(t)[j];
    }
  }

  /**
   * A listing of a table's rows, each under its own id and none more often
   * than the table holds it, names every id at most once.
   */
  lemma ListedOnce<T>(t: Table<T>, r: seq<(int, T)>)
    requires t.Valid()
    requires multiset(r) <= multiset(Entries(t))
    requires forall i :: 0 <= i < |r| ==> r[i].0 in t.rows && t.rows[r[i].0] == r[i].1
    ensures IdsOnce(r)
  {
    EntriesDistinct(t);
    DistinctCounts(Entries(t));
    DistinctCounts(r);
    forall i, j | 0 <= i < j < |r| ensures r[i].0 != r[j].0 {
      assert r[i] != r[j];
    }
  }

  /** The whole store. */
  datatype Db = Db(
    urls: Table<MonitoredUrl>,
    checks: Table<UrlCheck>,
    speedTests: Table<SpeedTest>,
    certificates: Table<SslCertificate>,
    firewalls: Table<Firewall>,
    users: Table<User>)

  /** The unique index on `MonitoredUrl.Url` (exact, case-sensitive comparison). */
  ghost predicate UniqueUrls(urls: map<int, MonitoredUrl>)
  {
    forall a, b :: a in urls && b in urls && urls[a].url == urls[b].url ==> a == b
  }

  /** The foreign key from every check to the monitored URL it belongs to. */
  ghost predicate ChecksReferenceUrls(checks: map<int, UrlCheck>, urls: map<int, MonitoredUrl>)
  {
    forall k :: k in checks ==> checks[k].monitoredUrlId in urls
  }

  ghost predicate Consistent(db: Db)
  {
    && db.urls.Valid() && db.checks.Valid() && db.speedTests.Valid()
    && db.certificates.Valid() && db.firewalls.Valid() && db.users.Valid()
    && UniqueUrls(db.urls.rows)
    && ChecksReferenceUrls(db.checks.rows, db.urls.rows)
  }

  /**
   * Removing a monitored URL cascades to every check that references it;
   * no other table is touched.
   */
  function DeleteUrl(db: Db, id: int): (r: Db)
    requires Consistent(db) && id in db.urls.rows
    ensures Consistent(r)
    ensures r.urls.rows.Keys == db.urls.rows.Keys - {id}
    ensures forall k :: k in r.checks.rows <==> k in db.checks.rows && db.checks.rows[k].monitoredUrlId != id
    ensures forall k :: k in r.checks.rows ==> r.checks.rows[k] == db.checks.rows[k]
    ensures forall k :: k in r.urls.rows ==> r.urls.rows[k] == db.urls.rows[k]
    ensures r.speedTests == db.speedTests && r.certificates == db.certificates
    ensures r.firewalls == db.firewalls && r.users == db.users
  {
    db.(urls := Remove(db.urls, id),
        checks := Where(db.checks, (c: UrlCheck) => c.monitoredUrlId != id))
  }
}

=== FILE: dashboard.dfy ===
/**
 * The dashboard script's decision logic: the slow-response badge, the chart
 * windows, HTML escaping of user-supplied text, and the certificate status
 * bands. Drawing and the DOM are not modelled; times are milliseconds.
 */
module Dashboard {
  import opened Wrappers
  import opened Ordering
  import opened Clock
  import opened Models
  import opened SslMonitoring

  /** A JavaScript instant, in milliseconds. */
  type Millis = int

  const MillisPerDay: int := 24 * 60 * 60 * 1000

  /**
   * The slow badge: shown when the latest response is over one and a half
   * times the average and over a second; never without a latest check or
   * with a zero average.
   */
  predicate IsRespondingSlowly(latestResponseMs: Option<int>, averageResponseTime: real)
  {
    && latestResponseMs.Some?
    && averageResponseTime != 0.0
    && latestResponseMs.value as real > averageResponseTime * 1.5
    && latestResponseMs.value > 1000
  }

  /** A slower latest response keeps the badge, and so does a lower positive average. */
  lemma SlowIsMonotone(latest: int, later: int, average: real, lower: real)
    requires IsRespondingSlowly(Some(latest), average)
    requires later >= latest && 0.0 < lower <= average
    ensures IsRespondingSlowly(Some(later), average)
    ensures IsRespondingSlowly(Some(latest), lower)
  {
  }

  /** Nothing at or under a second is slow, whatever the average. */
  lemma FastNeverSlow(latest: int, average: real)
    requires latest <= 1000
    ensures !IsRespondingSlowly(Some(latest), average)
  {
  }

  /** The chart's keep test: inside the window and accepted by `keep`. */
  function InWindow<T>(time: T -> Millis, keep: T -> bool, cutoff: Millis): T -> bool
  {
    (x: T) => time(x) >= cutoff && keep(x)
  }

  /** Everything in the reversed kept items is an accepted input item. */
  lemma ReversedKept<T(!new)>(items: seq<T>, p: T -> bool)
    ensures var r := Reverse(Filter(items, p));
            forall i :: 0 <= i < |r| ==> r[i] in items && p(r[i])
  {
    var kept := Filter(items, p);
    var r := Reverse(kept);
    forall i | 0 <= i < |r| ensures r[i] in items && p(r[i]) {
      assert r[i] == kept[|kept| - 1 - i];
    }
  }

  /** Every accepted input item is among the reversed kept items. */
  lemma ReversedKeptComplete<T(!new)>(items: seq<T>, p: T -> bool)
    ensures var r := Reverse(Filter(items, p));
            forall i :: 0 <= i < |items| && p(items[i]) ==> items[i] in r
  {
    var kept := Filter(items, p);
    var r := Reverse(kept);
    forall i | 0 <= i < |items| && p(items[i]) ensures items[i] in r {
      var j :| 0 <= j < |kept| && kept[j] == items[i];
      assert r[|kept| - 1 - j] == kept[j];
    }
  }

  /** Reversing the kept items keeps each as often as the input holds it. */
  lemma ReversedKeptCounts<T(!new)>(items: seq<T>, p: T -> bool)
    ensures forall x :: multiset(Reverse(Filter(items, p)))[x] == if p(x) then multiset(items)[x] else 0
  {
    FilterCounts(items, p);
  }

  /**
   * One chart's series: the items no older than `days` days before `now`
   * that `keep` accepts, reversed. `None` is the "no data" case, where no
   * chart is drawn.
   */
  function ChartSeries<T(!new)>(items: seq<T>, time: T -> Millis, keep: T -> bool, now: Millis, days: int)
    : (r: Option<seq<T>>)
    ensures var cutoff := now - days * MillisPerDay;
            && (r.None? <==> forall i :: 0 <= i < |items| ==> !(time(items[i]) >= cutoff && keep(items[i])))
            && (r.Some? ==> forall i :: 0 <= i < |r.value| ==>
                              r.value[i] in items && time(r.value[i]) >= cutoff && keep(r.value[i]))
            && (r.Some? ==> forall i :: 0 <= i < |items| && time(items[i]) >= cutoff && keep(items[i]) ==>
                              items[i] in r.value)
            && (r.Some? ==> forall x :: multiset(r.value)[x] ==
                              if time(x) >= cutoff && keep(x) then multiset(items)[x] else 0)
  {
    var inWindow := InWindow(time, keep, now - days * MillisPerDay);
    var kept := Filter(items, inWindow);
    if kept == [] then None
    else
      ReversedKept(items, inWindow);
      ReversedKeptComplete(items, inWindow);
      ReversedKeptCounts(items, inWindow);
      Some(Reverse(kept))
  }

  /** `s` runs from newest to oldest. */
  predicate Descending<T>(s: seq<T>, time: T -> int)
  {
    forall i, j :: 0 <= i < j < |s| ==> time(s[i]) >= time(s[j])
  }

  /** A sequence headed by `x` is descending when its tail is and nothing in the tail is newer than `x`. */
  lemma DescendingCons<T>(x: T, t: seq<T>, time: T -> int)
    requires Descending(t, time)
    requires forall k :: 0 <= k < |t| ==> time(t[k]) <= time(x)
    ensures Descending([x] + t, time)
  {
    var f := [x] + t;
    forall i, j | 0 <= i < j < |f| ensures time(f[i]) >= time(f[j]) {
      assert f[j] == t[j - 1];
      if i > 0 {
        assert f[i] == t[i - 1];
      }
    }
  }

  /** Filtering keeps relative order, so a descending input gives a descending result. */
  lemma {:induction false} FilterKeepsDescending<T(!new)>(s: seq<T>, p: T -> bool, time: T -> int)
    requires Descending(s, time)
    ensures Descending(Filter(s, p), time)
    decreases |s|
  {
    if s != [] {
      var tail := s[1..];
      assert Descending(tail, time) by {
        forall i, j | 0 <= i < j < |tail| ensures time(tail[i]) >= time(tail[j]) {
          assert tail[i] == s[i + 1] && tail[j] == s[j + 1];
        }
      }
      FilterKeepsDescending(tail, p, time);
      var rest := Filter(tail, p);
      if p(s[0]) {
        forall k | 0 <= k < |rest| ensures time(rest[k]) <= time(s[0]) {
          assert rest[k] in tail;
          var m :| 0 <= m < |tail| && tail[m] == rest[k];
          assert s[m + 1] == rest[k];
        }
        DescendingCons(s[0], rest, time);
        assert Filter(s, p) == [s[0]] + rest;
      } else {
        assert Filter(s, p) == rest;
      }
    }
  }

  /** Reversing a newest-first sequence gives an oldest-first one. */
  lemma ReverseOfDescending<T>(s: seq<T>, time: T -> int)
    requires Descending(s, time)
    ensures var r := Reverse(s);
            forall i, j :: 0 <= i < j < |r| ==> time(r[i]) <= time(r[j])
  {
    var r := Reverse(s);
    var n := |s|;
    forall i, j | 0 <= i < j < |r| ensures time(r[i]) <= time(r[j]) {
      assert r[i] == s[n - 1 - i] && r[j] == s[n - 1 - j];
    }
  }

  /** The server lists checks newest first, so every chart runs from oldest to newest. */
  lemma ChartIsOldestFirst<T(!new)>(items: seq<T>, time: T -> Millis, keep: T -> bool, now: Millis, days: int)
    requires Descending(items, time)
    requires ChartSeries(items, time, keep, now, days).Some?
    ensures var r := ChartSeries(items, time, keep, now, days).value;
            forall i, j :: 0 <= i < j < |r| ==> time(r[i]) <= time(r[j])
  {
    var kept := Filter(items, InWindow(time, keep, now - days * MillisPerDay));
    FilterKeepsDescending(items, InWindow(time, keep, now - days * MillisPerDay), time);
    ReverseOfDescending(kept, time);
  }

  /** A check as the page receives it. */
  datatype CheckPoint = CheckPoint(checkedAt: Millis, responseTimeMs: int)

  /** A speed-test result as the page receives it. */
  datatype SpeedPoint = SpeedPoint(testedAt: Millis, downloadMbps: real, uploadMbps: real, isSuccess: bool)

  /** The response-time chart plots every check in the window. */
  function ResponseChart(checks: seq<CheckPoint>, now: Millis, days: int): Option<seq<CheckPoint>>
  {
    ChartSeries(checks, (c: CheckPoint) => c.checkedAt, (c: CheckPoint) => true, now, days)
  }

  /** The speed chart plots only successful runs in the window. */
  function SpeedChart(tests: seq<SpeedPoint>, now: Millis, days: int): Option<seq<SpeedPoint>>
  {
    ChartSeries(tests, (t: SpeedPoint) => t.testedAt, (t: SpeedPoint) => t.isSuccess, now, days)
  }

  /** Failed runs never reach the speed chart. */
  lemma SpeedChartOnlySuccesses(tests: seq<SpeedPoint>, now: Millis, days: int)
    requires SpeedChart(tests, now, days).Some?
    ensures forall i :: 0 <= i < |SpeedChart(tests, now, days).value| ==> SpeedChart(tests, now, days).value[i].isSuccess
  {
  }

  /** Replaces every `c` in `s` by `rep`. */
  function ReplaceChar(s: string, c: char, rep: string): (r: string)
  {
    if s == [] then [] else (if s[0] == c then rep else [s[0]]) + ReplaceChar(s[1..], c, rep)
  }

  lemma {:induction false} ReplaceCharAppend(a: string, b: string, c: char, rep: string)
    ensures ReplaceChar(a + b, c, rep) == ReplaceChar(a, c, rep) + ReplaceChar(b, c, rep)
    decreases |a|
  {
    if a == [] {
      assert a + b == b;
    } else {
      assert (a + b)[0] == a[0] && (a + b)[1..] == a[1..] + b;
      ReplaceCharAppend(a[1..], b, c, rep);
    }
  }

  /** Text without `c` passes through unchanged. */
  lemma {:induction false} ReplaceCharAbsent(s: string, c: char, rep: string)
    requires c !in s
    ensures ReplaceChar(s, c, rep) == s
    decreases |s|
  {
    if s != [] {
      assert s[0] != c;
      ReplaceCharAbsent(s[1..], c, rep);
      assert s == [s[0]] + s[1..];
    }
  }

  lemma ReplaceCharSingle(d: char, c: char, rep: string)
    ensures ReplaceChar([d], c, rep) == if d == c then rep else [d]
  {
    assert [d][1..] == [];
  }

  /** `escapeHtml`: the five replacements, applied in turn, ampersands first. */
  function EscapeHtml(s: string): string
  {
    ReplaceChar(ReplaceChar(ReplaceChar(ReplaceChar(ReplaceChar(s, '&', "&amp;"), '<', "&lt;"), '>', "&gt;"),
                            '"', "&quot;"), '\'', "&#039;")
  }

  /** The entity for one character, or the character itself. */
  function EscapeChar(c: char): string
  {
    if c == '&' then "&amp;"
    else if c == '<' then "&lt;"
    else if c == '>' then "&gt;"
    else if c == '"' then "&quot;"
    else if c == '\'' then "&#039;"
    else [c]
  }

  /** The reference escaping: each character escaped on its own. */
  function EscapeEach(s: string): (r: string)
    ensures forall i :: 0 <= i < |r| ==> r[i] !in "<>\"'"
  {
    if s == [] then [] else EscapeChar(s[0]) + EscapeEach(s[1..])
  }

  lemma EscapeHtmlAppend(a: string, b: string)
    ensures EscapeHtml(a + b) == EscapeHtml(a) + EscapeHtml(b)
  {
    ReplaceCharAppend(a, b, '&', "&amp;");
    var a1, b1 := ReplaceChar(a, '&', "&amp;"), ReplaceChar(b, '&', "&amp;");
    ReplaceCharAppend(a1, b1, '<', "&lt;");
    var a2, b2 := ReplaceChar(a1, '<', "&lt;"), ReplaceChar(b1, '<', "&lt;");
    ReplaceCharAppend(a2, b2, '>', "&gt;");
    var a3, b3 := ReplaceChar(a2, '>', "&gt;"), ReplaceChar(b2, '>', "&gt;");
    ReplaceCharAppend(a3, b3, '"', "&quot;");
    var a4, b4 := ReplaceChar(a3, '"', "&quot;"), ReplaceChar(b3, '"', "&quot;");
    ReplaceCharAppend(a4, b4, '\'', "&#039;");
  }

  /** Each pass rewrites only its own character; the entities of the earlier passes hold none of the later ones. */
  lemma EscapeAmpersand(c: char, amp: string)
    requires c == '&' && amp == "&amp;"
    ensures EscapeHtml([c]) == amp
  {
    ReplaceCharSingle(c, '&', amp);
    ReplaceCharAbsent(amp, '<', "&lt;");
    ReplaceCharAbsent(amp, '>', "&gt;");
    ReplaceCharAbsent(amp, '"', "&quot;");
    ReplaceCharAbsent(amp, '\'', "&#039;");
  }

  lemma EscapeLess(c: char, lt: string)
    requires c == '<' && lt == "&lt;"
    ensures EscapeHtml([c]) == lt
  {
    ReplaceCharSingle(c, '&', "&amp;");
    ReplaceCharSingle(c, '<', lt);
    ReplaceCharAbsent(lt, '>', "&gt;");
    ReplaceCharAbsent(lt, '"', "&quot;");
    ReplaceCharAbsent(lt, '\'', "&#039;");
  }

  lemma EscapeGreater()
    ensures EscapeHtml(">") == "&gt;"
  {
    ReplaceCharSingle('>', '&', "&amp;");
    ReplaceCharSingle('>', '<', "&lt;");
    ReplaceCharSingle('>', '>', "&gt;");
    ReplaceCharAbsent("&gt;", '"', "&quot;");
    ReplaceCharAbsent("&gt;", '\'', "&#039;");
  }

  lemma EscapeQuote()
    ensures EscapeHtml("\"") == "&quot;"
  {
    ReplaceCharSingle('"', '&', "&amp;");
    ReplaceCharSingle('"', '<', "&lt;");
    ReplaceCharSingle('"', '>', "&gt;");
    ReplaceCharSingle('"', '"', "&quot;");
    ReplaceCharAbsent("&quot;", '\'', "&#039;");
  }

  lemma EscapeApostrophe()
    ensures EscapeHtml("'") == "&#039;"
  {
    ReplaceCharSingle('\'', '&', "&amp;");
    ReplaceCharSingle('\'', '<', "&lt;");
    ReplaceCharSingle('\'', '>', "&gt;");
    ReplaceCharSingle('\'', '"', "&quot;");
    ReplaceCharSingle('\'', '\'', "&#039;");
  }

  lemma EscapePlain(c: char)
    requires c !in "&<>\"'"
    ensures EscapeHtml([c]) == [c]
  {
    ReplaceCharSingle(c, '&', "&amp;");
    ReplaceCharSingle(c, '<', "&lt;");
    ReplaceCharSingle(c, '>', "&gt;");
    ReplaceCharSingle(c, '"', "&quot;");
    ReplaceCharSingle(c, '\'', "&#039;");
  }

  lemma EscapeHtmlOne(c: char)
    ensures EscapeHtml([c]) == EscapeChar(c)
  {
    if c == '&' { EscapeAmpersand(c, "&amp;"); }
    else if c == '<' { EscapeLess(c, "&lt;"); }
    else if c == '>' { EscapeGreater(); }
    else if c == '"' { EscapeQuote(); }
    else if c == '\'' { EscapeApostrophe(); }
    else { EscapePlain(c); }
  }

  /** Later passes leave earlier entities alone, so the chain escapes each character once. */
  lemma {:induction false} EscapeHtmlIsPerCharacter(s: string)
    ensures EscapeHtml(s) == EscapeEach(s)
    decreases |s|
  {
    if s == [] {
      assert ReplaceChar(s, '&', "&amp;") == [];
    } else {
      assert s == [s[0]] + s[1..];
      EscapeHtmlAppend([s[0]], s[1..]);
      EscapeHtmlIsPerCharacter(s[1..]);
      EscapeHtmlOne(s[0]);
    }
  }

  /** Decodes the five entities the escaping produces; everything else is kept. */
  function Unescape(s: string): string
    decreases |s|
  {
    if |s| >= 5 && s[..5] == "&amp;" then "&" + Unescape(s[5..])
    else if |s| >= 4 && s[..4] == "&lt;" then "<" + Unescape(s[4..])
    else if |s| >= 4 && s[..4] == "&gt;" then ">" + Unescape(s[4..])
    else if |s| >= 6 && s[..6] == "&quot;" then "\"" + Unescape(s[6..])
    else if |s| >= 6 && s[..6] == "&#039;" then "'" + Unescape(s[6..])
    else if s == [] then []
    else [s[0]] + Unescape(s[1..])
  }

  /** Text that differs from `lit` at some position below its length does not start with `lit`. */
  lemma NotPrefix(e: string, lit: string, k: nat)
    requires k < |lit| && k < |e| && e[k] != lit[k]
    ensures !(|e| >= |lit| && e[..|lit|] == lit)
  {
  }

  /** Unescaping reads one escaped character back off the front. */
  lemma UnescapeHead(c: char, rest: string)
    ensures Unescape(EscapeChar(c) + rest) == [c] + Unescape(rest)
  {
    var e := EscapeChar(c) + rest;
    if c == '&' {
      assert e[..5] == "&amp;" && e[5..] == rest;
    } else if c == '<' {
      assert e[..4] == "&lt;" && e[4..] == rest;
      NotPrefix(e, "&amp;", 1);
    } else if c == '>' {
      assert e[..4] == "&gt;" && e[4..] == rest;
      NotPrefix(e, "&amp;", 1);
      NotPrefix(e, "&lt;", 1);
    } else if c == '"' {
      assert e[..6] == "&quot;" && e[6..] == rest;
      NotPrefix(e, "&amp;", 1);
      NotPrefix(e, "&lt;", 1);
      NotPrefix(e, "&gt;", 1);
    } else if c == '\'' {
      assert e[..6] == "&#039;" && e[6..] == rest;
      NotPrefix(e, "&amp;", 1);
      NotPrefix(e, "&lt;", 1);
      NotPrefix(e, "&gt;", 1);
      NotPrefix(e, "&quot;", 1);
    } else {
      assert e[0] == c && e[1..] == rest;
      NotPrefix(e, "&amp;", 0);
      NotPrefix(e, "&lt;", 0);
      NotPrefix(e, "&gt;", 0);
      NotPrefix(e, "&quot;", 0);
      NotPrefix(e, "&#039;", 0);
    }
  }

  /** Unescaping the escaped text gives the original text back. */
  lemma {:induction false} UnescapeEscape(s: string)
    ensures Unescape(EscapeEach(s)) == s
    decreases |s|
  {
    if s != [] {
      UnescapeEscape(s[1..]);
      UnescapeHead(s[0], EscapeEach(s[1..]));
      assert s == [s[0]] + s[1..];
    }
  }

  /** The certificate card's band. */
  datatype Band = ValidBand | ExpiringSoon | ExpiredBand

  /** Negative days left is expired, up to 30 is expiring soon, the rest is valid. */
  function BandOf(daysUntilExpiration: int): (b: Band)
    ensures b == ExpiredBand <==> daysUntilExpiration < 0
    ensures b == ExpiringSoon <==> 0 <= daysUntilExpiration <= 30
    ensures b == ValidBand <==> daysUntilExpiration > 30
  {
    if daysUntilExpiration < 0 then ExpiredBand
    else if daysUntilExpiration <= 30 then ExpiringSoon
    else ValidBand
  }

  /** The status text and card class shown for a band. */
  function BandLabels(b: Band): (string, string)
  {
    match b
    case ExpiredBand => ("Expired", "expired")
    case ExpiringSoon => ("Expiring Soon", "expiring-soon")
    case ValidBand => ("Valid", "")
  }

  /**
   * After a captured check, the card shows Expired exactly when the
   * certificate ran out at least a whole day ago.
   */
  lemma BandAfterCapture(cert: SslCertificate, notBefore: Ticks, notAfter: Ticks, issuer: string,
                         subject: string, now: Ticks)
    ensures var r := UpdateCertificateInfo(cert, Captured(notBefore, notAfter, issuer, subject), now);
            BandOf(r.daysUntilExpiration) == ExpiredBand <==> notAfter - now <= -TicksPerDay
  {
  }

  /** The band follows the day count, not validity: a certificate expired within the last day shows as expiring soon. */
  lemma ExpiredCertificateShownExpiringSoon(cert: SslCertificate, now: Ticks)
    ensures var r := UpdateCertificateInfo(cert, Captured(now - TicksPerDay, now - 1, "", ""), now);
            !r.isValid && BandOf(r.daysUntilExpiration) == ExpiringSoon
  {
    ExpiredWithZeroDays(cert, now);
  }
}

=== FILE: firewalls.dfy ===
/**
 * The firewall controller: registering an appliance (which obtains and
 * stores its API key encrypted, plus its system information), editing,
 * listing and deleting registrations, and running URL-category tests and
 * traffic-log queries through the stored key. Listings never carry the key.
 */
module Firewalls {
  import opened Wrappers
  import opened Text
  import opened Clock
  import opened Models
  import opened Context
  import opened Ordering
  import opened PaloAlto

  /** The encryption service: protect and unprotect a string. */
  datatype Crypto = Crypto(encrypt: string -> string, decrypt: string -> string)
  {
    /** Unprotecting a protected value gives it back. */
    ghost predicate RoundTrips()
    {
      forall s :: decrypt(encrypt(s)) == s
    }
  }

  /** A registration as the API shows it: every field except the encrypted key. */
  datatype FirewallView = FirewallView(
    id: int,
    friendlyName: string,
    hostname: string,
    firewallHostname: Option<string>,
    model: Option<string>,
    serialNumber: Option<string>,
    softwareVersion: Option<string>,
    lastTestedAt: Option<Ticks>)

  function View(id: int, f: Firewall): (v: FirewallView)
    ensures v.id == id && v.friendlyName == f.friendlyName && v.hostname == f.hostname
    ensures v.firewallHostname == f.firewallHostname && v.model == f.model
    ensures v.serialNumber == f.serialNumber && v.softwareVersion == f.softwareVersion
    ensures v.lastTestedAt == f.lastTestedAt
  {
    FirewallView(id, f.friendlyName, f.hostname, f.firewallHostname, f.model, f.serialNumber,
                 f.softwareVersion, f.lastTestedAt)
  }

  /** What the DNS step of a log query reports back. */
  datatype DnsReport = DnsReport(
    domain: Option<string>,
    resolvedIps: Option<seq<string>>,
    isSinkhole: bool,
    resolvedName: Option<string>)

  /** What a firewall request answers. */
  datatype Response =
    | BadRequest(message: Option<string>)
    | NotFound(message: Option<string>)
    | Created(view: FirewallView)
    | NoContent
    | Found(view: FirewallView)
    | UrlTested(result: Option<UrlTestResult>)
    | LogsFound(logs: seq<TrafficLogEntry>, dns: DnsReport)

  datatype CreateRequest = CreateRequest(friendlyName: string, hostname: string, username: string, password: string)
  datatype UpdateRequest = UpdateRequest(
    friendlyName: Option<string>,
    hostname: Option<string>,
    username: Option<string>,
    password: Option<string>)
  datatype TestUrlRequest = TestUrlRequest(sourceIp: string, url: string)
  datatype QueryLogsRequest = QueryLogsRequest(sourceIp: string, domain: Option<string>, hoursAgo: int)

  const AllFieldsRequired: string := "All fields are required"
  const FirewallNotFound: string := "Firewall not found"
  /** The number of log entries a query asks for. */
  const MaxLogs: int := 100

  /** The message of a failed step: its prefix, then the error (nothing when there is none). */
  function StepFailure(prefix: string, error: Option<string>): string
  {
    prefix + error.GetOr("")
  }

  /** The key a stored registration talks to its appliance with. */
  function StoredKey(crypto: Crypto, f: Firewall): string
  {
    crypto.decrypt(f.encryptedApiKey)
  }

  /** Copies the appliance's reported identity onto a registration. */
  function WithSystemInfo(f: Firewall, info: SystemInfo): (r: Firewall)
    ensures r.firewallHostname == Some(info.hostname) && r.model == Some(info.model)
    ensures r.serialNumber == Some(info.serialNumber) && r.softwareVersion == Some(info.softwareVersion)
    ensures r.friendlyName == f.friendlyName && r.hostname == f.hostname
    ensures r.encryptedApiKey == f.encryptedApiKey && r.createdAt == f.createdAt && r.lastTestedAt == f.lastTestedAt
  {
    f.(firewallHostname := Some(info.hostname), model := Some(info.model),
       serialNumber := Some(info.serialNumber), softwareVersion := Some(info.softwareVersion))
  }

  /**
   * Registers an appliance. Any blank field is refused; then the appliance
   * must issue a key and report its system information, else the step's
   * error is returned; otherwise one row is added holding the encrypted key,
   * the reported identity, and `now` as both creation and last-test time.
   * The answer shows the new registration without its last-test time.
   */
  function Create(t: Table<Firewall>, req: CreateRequest, api: Appliance, crypto: Crypto, now: Ticks)
    : (r: (Response, Table<Firewall>))
    requires t.Valid()
    ensures r.1.Valid()
    ensures !r.0.Created? ==> r.1 == t && r.0.BadRequest?
    ensures Blank(Some(req.friendlyName)) || Blank(Some(req.hostname))
            || Blank(Some(req.username)) || Blank(Some(req.password)) ==>
              r.0 == BadRequest(Some(AllFieldsRequired))
    ensures r.0.Created? ==>
              var key := GetApiKey(api, req.hostname, req.username, req.password);
              && !Blank(Some(req.friendlyName)) && !Blank(Some(req.hostname))
              && !Blank(Some(req.username)) && !Blank(Some(req.password))
              && key.success && key.value.Some?
              && var info := GetSystemInfo(api, req.hostname, key.value.value);
              && info.success
              && r.0.view.id !in t.rows
              && r.1.rows.Keys == t.rows.Keys + {r.0.view.id}
              && r.1.rows[r.0.view.id] == WithSystemInfo(
                   Firewall(req.friendlyName, req.hostname, crypto.encrypt(key.value.value),
                            None, None, None, None, now, Some(now)), info.value.value)
              && r.0.view == View(r.0.view.id, r.1.rows[r.0.view.id]).(lastTestedAt := None)
              && (forall k :: k in t.rows ==> r.1.rows[k] == t.rows[k])
    ensures !Blank(Some(req.friendlyName)) && !Blank(Some(req.hostname))
            && !Blank(Some(req.username)) && !Blank(Some(req.password)) ==>
              var key := GetApiKey(api, req.hostname, req.username, req.password);
              (!key.success || key.value.None? ==>
                 r.0 == BadRequest(Some(StepFailure("Failed to get API key: ", key.error))))
              && (key.success && key.value.Some? ==>
                    var info := GetSystemInfo(api, req.hostname, key.value.value);
                    !info.success ==> r.0 == BadRequest(Some(StepFailure("Failed to get system info: ", info.error))))
    ensures r.0.Created? <==>
              && !Blank(Some(req.friendlyName)) && !Blank(Some(req.hostname))
              && !Blank(Some(req.username)) && !Blank(Some(req.password))
              && var key := GetApiKey(api, req.hostname, req.username, req.password);
              && key.success && key.value.Some?
              && GetSystemInfo(api, req.hostname, key.value.value).success
  {
    if Blank(Some(req.friendlyName)) || Blank(Some(req.hostname))
       || Blank(Some(req.username)) || Blank(Some(req.password)) then
      (BadRequest(Some(AllFieldsRequired)), t)
    else
      var key := GetApiKey(api, req.hostname, req.username, req.password);
      if !key.success || key.value.None? then
        (BadRequest(Some(StepFailure("Failed to get API key: ", key.error))), t)
      else
        var info := GetSystemInfo(api, req.hostname, key.value.value);
        if !info.success || info.value.None? then
          (BadRequest(Some(StepFailure("Failed to get system info: ", info.error))), t)
        else
          var f := WithSystemInfo(Firewall(req.friendlyName, req.hostname, crypto.encrypt(key.value.value),
                                           None, None, None, None, now, Some(now)), info.value.value);
          var (t', id) := Insert(t, f);
          // The creation answer leaves out the last-test time.
          (Created(View(id, f).(lastTestedAt := None)), t')
  }

  /**
   * A registration's key after creation is the one the appliance issued,
   * provided the encryption service round-trips.
   */
  lemma CreateStoresIssuedKey(t: Table<Firewall>, req: CreateRequest, api: Appliance, crypto: Crypto, now: Ticks)
    requires t.Valid() && crypto.RoundTrips()
    requires Create(t, req, api, crypto, now).0.Created?
    ensures var r := Create(t, req, api, crypto, now);
            StoredKey(crypto, r.1.rows[r.0.view.id])
              == GetApiKey(api, req.hostname, req.username, req.password).value.value
  {
  }

  /** Both credentials present and non-blank: the update asks for a new key. */
  predicate Rekeys(req: UpdateRequest)
  {
    !Blank(req.username) && !Blank(req.password)
  }

  /** The host an update talks to: the request's host when given at all (even blank), else the stored one. */
  function RekeyHost(f: Firewall, req: UpdateRequest): string
  {
    req.hostname.GetOr(f.hostname)
  }

  /** The non-blank name and host of the request, written over the registration. */
  function Rename(f: Firewall, req: UpdateRequest): (r: Firewall)
    ensures r.friendlyName == (if Blank(req.friendlyName) then f.friendlyName else req.friendlyName.value)
    ensures r.hostname == (if Blank(req.hostname) then f.hostname else req.hostname.value)
    ensures r == f.(friendlyName := r.friendlyName, hostname := r.hostname)
  {
    f.(friendlyName := if Blank(req.friendlyName) then f.friendlyName else req.friendlyName.value,
       hostname := if Blank(req.hostname) then f.hostname else req.hostname.value)
  }

  /**
   * Edits a registration. With credentials, a new key must be issued (else
   * nothing changes) and is stored encrypted; the system information is
   * refreshed only when that call succeeds. Non-blank name and host replace
   * the stored ones, and the last-test time becomes `now`.
   */
  function Update(t: Table<Firewall>, id: int, req: UpdateRequest, api: Appliance, crypto: Crypto, now: Ticks)
    : (r: (Response, Table<Firewall>))
    requires t.Valid()
    ensures r.1.Valid()
    ensures id !in t.rows ==> r == (NotFound(None), t)
    ensures r.0.BadRequest? ==> r.1 == t
    ensures id in t.rows && !Rekeys(req) ==>
              r == (NoContent, Replace(t, id, Rename(t.rows[id], req).(lastTestedAt := Some(now))))
    ensures id in t.rows && Rekeys(req) ==>
              var f := t.rows[id];
              var key := GetApiKey(api, RekeyHost(f, req), req.username.value, req.password.value);
              if !key.success || key.value.None? then
                r == (BadRequest(Some(StepFailure("Failed to get API key: ", key.error))), t)
              else
                var info := GetSystemInfo(api, RekeyHost(f, req), key.value.value);
                var keyed := f.(encryptedApiKey := crypto.encrypt(key.value.value));
                var g := if info.success then WithSystemInfo(keyed, info.value.value) else keyed;
                r == (NoContent, Replace(t, id, Rename(g, req).(lastTestedAt := Some(now))))
    ensures r.1.rows.Keys == t.rows.Keys && forall k :: k in t.rows && k != id ==> r.1.rows[k] == t.rows[k]
    ensures !r.0.NoContent? ==> r.1 == t
    ensures r.0.NoContent? ==>
              var (f, g) := (t.rows[id], r.1.rows[id]);
              && g.lastTestedAt == Some(now) && g.createdAt == f.createdAt
              && g.friendlyName == (if Blank(req.friendlyName) then f.friendlyName else req.friendlyName.value)
              && g.hostname == (if Blank(req.hostname) then f.hostname else req.hostname.value)
  {
    if id !in t.rows then (NotFound(None), t)
    else
      var f := t.rows[id];
      if Rekeys(req) then
        var host := RekeyHost(f, req);
        var key := GetApiKey(api, host, req.username.value, req.password.value);
        if !key.success || key.value.None? then
          (BadRequest(Some(StepFailure("Failed to get API key: ", key.error))), t)
        else
          var keyed := f.(encryptedApiKey := crypto.encrypt(key.value.value));
          var info := GetSystemInfo(api, host, key.value.value);
          var g := if info.success && info.value.Some? then WithSystemInfo(keyed, info.value.value) else keyed;
          (NoContent, Replace(t, id, Rename(g, req).(lastTestedAt := Some(now))))
      else
        (NoContent, Replace(t, id, Rename(f, req).(lastTestedAt := Some(now))))
  }

  /** An update without credentials leaves the key and the reported identity as they were. */
  lemma UpdateWithoutCredentialsKeepsKey(t: Table<Firewall>, id: int, req: UpdateRequest, api: Appliance,
                                         crypto: Crypto, now: Ticks)
    requires t.Valid() && id in t.rows && !Rekeys(req)
    ensures var g := Update(t, id, req, api, crypto, now).1.rows[id];
            && g.encryptedApiKey == t.rows[id].encryptedApiKey
            && g.firewallHostname == t.rows[id].firewallHostname
            && g.model == t.rows[id].model
            && g.createdAt == t.rows[id].createdAt
  {
  }

  /** Deletes exactly the row with `id`, or answers NotFound and changes nothing. */
  function Delete(t: Table<Firewall>, id: int): (r: (Response, Table<Firewall>))
    requires t.Valid()
    ensures r.1.Valid()
    ensures id !in t.rows ==> r == (NotFound(None), t)
    ensures id in t.rows ==>
              && r.0 == NoContent
              && r.1.rows.Keys == t.rows.Keys - {id}
              && (forall k :: k in r.1.rows ==> r.1.rows[k] == t.rows[k])
  {
    if id !in t.rows then (NotFound(None), t) else (NoContent, Remove(t, id))
  }

  /** One registration without its key, or NotFound. */
  function Get(t: Table<Firewall>, id: int): (r: Response)
    ensures id !in t.rows ==> r == NotFound(None)
    ensures id in t.rows ==> r.Found? && r.view.id == id && r.view == View(id, t.rows[id])
  {
    if id !in t.rows then NotFound(None) else Found(View(id, t.rows[id]))
  }

  function ByName(a: (int, Firewall), b: (int, Firewall)): bool
  {
    LexLe(a.1.friendlyName, b.1.friendlyName)
  }

  lemma ByNameTotalPreorder()
    ensures TotalPreorder(ByName)
  {
    KeyedLexTotalPreorder((e: (int, Firewall)) => e.1.friendlyName, ByName);
  }

  /** The keyless view of each id/row pair, in the same order. */
  function Views(s: seq<(int, Firewall)>): (r: seq<FirewallView>)
    ensures |r| == |s|
    ensures forall i :: 0 <= i < |s| ==> r[i] == View(s[i].0, s[i].1)
  {
    seq(|s|, i requires 0 <= i < |s| => View(s[i].0, s[i].1))
  }

  /** Every registration, without keys, in code-point (SQLite BINARY) order of friendly name. */
  function GetAll(t: Table<Firewall>): (r: seq<FirewallView>)
    requires t.Valid()
    ensures forall i, j :: 0 <= i < j < |r| ==> LexLe(r[i].friendlyName, r[j].friendlyName)
    ensures forall i :: 0 <= i < |r| ==> r[i].id in t.rows && r[i] == View(r[i].id, t.rows[r[i].id])
    ensures forall i, j :: 0 <= i < j < |r| ==> r[i].id != r[j].id
  {
    ByNameTotalPreorder();
    var s := SortBy(Entries(t), ByName);
    PermutedEntries(t, s);
    ListedOnce(t, s);
    Views(s)
  }

  /** Every registration appears in the listing. */
  lemma GetAllComplete(t: Table<Firewall>, k: int)
    requires t.Valid() && k in t.rows
    ensures exists i :: 0 <= i < |GetAll(t)| && GetAll(t)[i].id == k
  {
    ByNameTotalPreorder();
    var s := SortBy(Entries(t), ByName);
    PermutedEntries(t, s);
    var i :| 0 <= i < |s| && s[i].0 == k;
    assert GetAll(t)[i].id == k;
  }

  /**
   * Asks the registration's appliance, with its stored key, for a URL's
   * category. A failure answers its error; a success records `now` as the
   * last-test time.
   */
  function TestUrl(t: Table<Firewall>, id: int, req: TestUrlRequest, api: Appliance, crypto: Crypto, now: Ticks)
    : (r: (Response, Table<Firewall>))
    requires t.Valid()
    ensures r.1.Valid()
    ensures id !in t.rows ==> r == (NotFound(Some(FirewallNotFound)), t)
    ensures id in t.rows ==>
              var f := t.rows[id];
              var res := PaloAlto.TestUrl(api, f.hostname, StoredKey(crypto, f), req.sourceIp, req.url);
              && (!res.success ==> r == (BadRequest(res.error), t))
              && (res.success ==> r == (UrlTested(res.value), Replace(t, id, f.(lastTestedAt := Some(now)))))
  {
    if id !in t.rows then (NotFound(Some(FirewallNotFound)), t)
    else
      var f := t.rows[id];
      var res := PaloAlto.TestUrl(api, f.hostname, StoredKey(crypto, f), req.sourceIp, req.url);
      if !res.success then (BadRequest(res.error), t)
      else (UrlTested(res.value), Replace(t, id, f.(lastTestedAt := Some(now))))
  }

  /**
   * The DNS step of a log query: only a non-blank domain is resolved, and
   * only a successful resolution contributes destinations; a sinkhole hit
   * also names the sinkhole.
   */
  function ResolveForQuery(api: Appliance, domain: Option<string>): (d: DnsReport)
    ensures d.domain == domain
    ensures Blank(domain) ==> d == DnsReport(domain, None, false, None)
    ensures d.resolvedIps.Some? <==> !Blank(domain) && ResolveDomain(api, domain.value).success
    ensures d.isSinkhole ==> d.resolvedIps.Some? && d.resolvedName.Some? && d.resolvedIps.value == [d.resolvedName.value]
    ensures d.resolvedName.Some? ==> d.isSinkhole
    ensures !Blank(domain) && ResolveDomain(api, domain.value).success ==>
              d.resolvedIps == Some(ResolveDomain(api, domain.value).ips)
              && d.isSinkhole == ResolveDomain(api, domain.value).isSinkhole
  {
    if Blank(domain) then DnsReport(domain, None, false, None)
    else
      var res := ResolveDomain(api, domain.value);
      if !res.success then DnsReport(domain, None, false, None)
      else DnsReport(domain, Some(res.ips), res.isSinkhole,
                     if res.isSinkhole && |res.ips| > 0 then Some(res.ips[0]) else None)
  }

  /**
   * Queries the registration's traffic log with its stored key, restricted to
   * the destinations the DNS step produced, for at most `MaxLogs` entries.
   * A failure answers its error; a success records `now` as the last-test time.
   */
  function QueryLogs(t: Table<Firewall>, id: int, req: QueryLogsRequest, api: Appliance, crypto: Crypto,
                     clock: LocalClock, now: Ticks): (r: (Response, Table<Firewall>))
    requires t.Valid() && clock.Valid()
    ensures r.1.Valid()
    ensures id !in t.rows ==> r == (NotFound(Some(FirewallNotFound)), t)
    ensures id in t.rows ==>
              var f := t.rows[id];
              var dns := ResolveForQuery(api, req.domain);
              var logs := QueryTrafficLogs(api, f.hostname, StoredKey(crypto, f), req.sourceIp,
                                           dns.resolvedIps, req.hoursAgo, MaxLogs, clock);
              && (!logs.success ==> r == (BadRequest(logs.error), t))
              && (logs.success ==> r == (LogsFound(logs.value, dns), Replace(t, id, f.(lastTestedAt := Some(now)))))
  {
    if id !in t.rows then (NotFound(Some(FirewallNotFound)), t)
    else
      var f := t.rows[id];
      var dns := ResolveForQuery(api, req.domain);
      var logs := QueryTrafficLogs(api, f.hostname, StoredKey(crypto, f), req.sourceIp,
                                   dns.resolvedIps, req.hoursAgo, MaxLogs, clock);
      if !logs.success then (BadRequest(logs.error), t)
      else (LogsFound(logs.value, dns), Replace(t, id, f.(lastTestedAt := Some(now))))
  }

  /** A sinkholed domain narrows the query to the sinkhole's name alone. */
  lemma SinkholeNarrowsQuery(api: Appliance, domain: Option<string>)
    requires ResolveForQuery(api, domain).isSinkhole
    ensures var d := ResolveForQuery(api, domain);
            !Blank(domain)
            && FirstSinkhole(api.dns(domain.value).aliases + [api.dns(domain.value).hostName]) == d.resolvedName
            && d.resolvedIps == Some([d.resolvedName.value])
  {
  }
}

=== FILE: footer_injection.dfy ===
/**
 * The footer injector: every HTML response that has a closing body tag gets
 * the attribution footer and its guard script inserted before each such tag
 * (matched ignoring case); every other response passes through unchanged.
 */
module FooterInjection {
  import opened Wrappers
  import opened Text

  const BodyClose: string := "</body>"

  // The footer's text, one piece per tag, in five runs.
  const FooterOpen: string := "\n    " + "<footer" + " id=\"app-footer\"" + " class=\"app-footer\">\n        "
  const FooterSpan: string := "<span>" + "&copy; "
  const FooterLink: string := " Powered by " + "<a href=" + "\"https://zero16sec.com\"" + " target=\"_blank\""
  const FooterCaption: string := " rel=\"noopener noreferrer\"" + " id=\"footer-link\">" + "Zero One Six Security, LLC"
  const FooterClose: string := "</a>" + "</span>" + "\n    " + "</footer>"

  /** The attribution footer for `year`, as inserted (it starts on a new line). */
  function FooterHtml(year: int): string
  {
    FooterOpen + FooterSpan + IntToString(year) + FooterLink + FooterCaption + FooterClose
  }

  /** The middleware's two fixed blocks: the footer rendered at start-up, and the guard script. */
  datatype Injector = Injector(footer: string, script: string)

  /** The blocks as the middleware builds them when it starts in `year`. */
  function NewInjector(year: int, script: string): (inj: Injector)
    ensures inj.script == script
  {
    Injector(FooterHtml(year), script)
  }

  /** What goes in place of each closing body tag: footer, guard script, a new line and the tag. */
  function Insertion(inj: Injector): (r: string)
    ensures |r| >= |BodyClose| && r[|r| - |BodyClose|..] == BodyClose
  {
    inj.footer + inj.script + "\n" + BodyClose
  }

  /**
   * `string.Replace(pat, rep, OrdinalIgnoreCase)`: scanning left to right,
   * every match of `pat` (ignoring case) that does not overlap an earlier one
   * is replaced by `rep`.
   */
  function ReplaceIgnoreCase(s: string, pat: string, rep: string): (r: string)
    requires |pat| > 0
    decreases |s|
  {
    if |s| < |pat| then s
    else if OccursAtIgnoreCase(s, pat, 0) then rep + ReplaceIgnoreCase(s[|pat|..], pat, rep)
    else [s[0]] + ReplaceIgnoreCase(s[1..], pat, rep)
  }

  /** The number of matches `ReplaceIgnoreCase` replaces. */
  function MatchCount(s: string, pat: string): nat
    requires |pat| > 0
    decreases |s|
  {
    if |s| < |pat| then 0
    else if OccursAtIgnoreCase(s, pat, 0) then 1 + MatchCount(s[|pat|..], pat)
    else MatchCount(s[1..], pat)
  }

  lemma GrowthStep(c: int, d: int)
    ensures (1 + c) * d == d + c * d
  {
  }

  /** Each replacement trades `|pat|` characters for `|rep|`. */
  lemma {:induction false} ReplaceLength(s: string, pat: string, rep: string)
    requires |pat| > 0
    ensures |ReplaceIgnoreCase(s, pat, rep)| == |s| + MatchCount(s, pat) * (|rep| - |pat|)
    decreases |s|
  {
    if |s| >= |pat| {
      if OccursAtIgnoreCase(s, pat, 0) {
        var t := s[|pat|..];
        ReplaceLength(t, pat, rep);
        assert ReplaceIgnoreCase(s, pat, rep) == rep + ReplaceIgnoreCase(t, pat, rep);
        assert MatchCount(s, pat) == 1 + MatchCount(t, pat);
        GrowthStep(MatchCount(t, pat), |rep| - |pat|);
      } else {
        ReplaceLength(s[1..], pat, rep);
        assert ReplaceIgnoreCase(s, pat, rep) == [s[0]] + ReplaceIgnoreCase(s[1..], pat, rep);
        assert MatchCount(s, pat) == MatchCount(s[1..], pat);
      }
    }
  }

  /** A match in a suffix is a match in the whole, shifted. */
  lemma OccursInSuffix(s: string, pat: string, k: nat, j: int)
    requires k <= |s|
    ensures OccursAtIgnoreCase(s[k..], pat, j) <==> j >= 0 && OccursAtIgnoreCase(s, pat, j + k)
  {
    if j >= 0 && j + |pat| <= |s| - k {
      assert s[k..][j..j + |pat|] == s[j + k..j + k + |pat|];
    }
  }

  /** Without a match, nothing is replaced. */
  lemma {:induction false} ReplaceWithoutMatch(s: string, pat: string, rep: string)
    requires |pat| > 0
    requires forall j :: !OccursAtIgnoreCase(s, pat, j)
    ensures ReplaceIgnoreCase(s, pat, rep) == s
    ensures MatchCount(s, pat) == 0
    decreases |s|
  {
    if |s| >= |pat| {
      forall j ensures !OccursAtIgnoreCase(s[1..], pat, j) {
        OccursInSuffix(s, pat, 1, j);
      }
      ReplaceWithoutMatch(s[1..], pat, rep);
      assert s == [s[0]] + s[1..];
    }
  }

  /** `pat` occurs in `s` at `i` and nowhere else. */
  ghost predicate OnlyMatchAt(s: string, pat: string, i: nat)
  {
    OccursAtIgnoreCase(s, pat, i) && forall j :: j != i ==> !OccursAtIgnoreCase(s, pat, j)
  }

  /** With no match at the front, the first character is kept and the scan moves on. */
  lemma ReplaceSkipsFirst(s: string, pat: string, rep: string)
    requires |pat| > 0 && |s| >= |pat| && !OccursAtIgnoreCase(s, pat, 0)
    ensures ReplaceIgnoreCase(s, pat, rep) == [s[0]] + ReplaceIgnoreCase(s[1..], pat, rep)
    ensures MatchCount(s, pat) == MatchCount(s[1..], pat)
  {
  }

  /** The only match moves one place left when the first character is dropped. */
  lemma OnlyMatchShifts(s: string, pat: string, i: nat)
    requires |pat| > 0 && i > 0 && OnlyMatchAt(s, pat, i)
    ensures i + |pat| <= |s| && !OccursAtIgnoreCase(s, pat, 0)
    ensures OnlyMatchAt(s[1..], pat, i - 1)
  {
    forall j | j != i - 1 ensures !OccursAtIgnoreCase(s[1..], pat, j) {
      OccursInSuffix(s, pat, 1, j);
    }
    OccursInSuffix(s, pat, 1, i - 1);
  }

  /** A sole match at the front is replaced and the rest is kept as it is. */
  lemma ReplaceOnlyFirst(s: string, pat: string, rep: string)
    requires |pat| > 0 && OnlyMatchAt(s, pat, 0)
    ensures ReplaceIgnoreCase(s, pat, rep) == rep + s[|pat|..]
    ensures MatchCount(s, pat) == 1
  {
    var rest := s[|pat|..];
    forall j ensures !OccursAtIgnoreCase(rest, pat, j) {
      OccursInSuffix(s, pat, |pat|, j);
    }
    ReplaceWithoutMatch(rest, pat, rep);
  }

  /** Splicing `rep` into a tail and then restoring the head splices it into the whole. */
  lemma SpliceAfterHead(s: string, rep: string, i: nat, k: nat)
    requires 0 < i && i + k <= |s|
    ensures [s[0]] + (s[1..][..i - 1] + rep + s[1..][i - 1 + k..]) == s[..i] + rep + s[i + k..]
  {
    assert s[..i] == [s[0]] + s[1..][..i - 1];
    assert s[1..][i - 1 + k..] == s[i + k..];
  }

  /** A character kept in front of a replaced tail stays in front of it. */
  lemma ReplaceKeepsPrefix(s: string, pat: string, rep: string, i: nat)
    requires |pat| > 0 && 0 < i && i + |pat| <= |s| && !OccursAtIgnoreCase(s, pat, 0)
    requires ReplaceIgnoreCase(s[1..], pat, rep) == s[1..][..i - 1] + rep + s[1..][i - 1 + |pat|..]
    requires MatchCount(s[1..], pat) == 1
    ensures ReplaceIgnoreCase(s, pat, rep) == s[..i] + rep + s[i + |pat|..]
    ensures MatchCount(s, pat) == 1
  {
    ReplaceSkipsFirst(s, pat, rep);
    SpliceAfterHead(s, rep, i, |pat|);
  }

  /** A single match at `i` is replaced in place, and the rest is kept. */
  lemma {:induction false} ReplaceSingleMatch(s: string, pat: string, rep: string, i: nat)
    requires |pat| > 0 && OnlyMatchAt(s, pat, i)
    ensures ReplaceIgnoreCase(s, pat, rep) == s[..i] + rep + s[i + |pat|..]
    ensures MatchCount(s, pat) == 1
    decreases i
  {
    if i == 0 {
      ReplaceOnlyFirst(s, pat, rep);
      assert s[..0] + rep + s[|pat|..] == rep + s[|pat|..];
    } else {
      OnlyMatchShifts(s, pat, i);
      ReplaceSingleMatch(s[1..], pat, rep, i - 1);
      ReplaceKeepsPrefix(s, pat, rep, i);
    }
  }

  /** A response leaving the middleware: the rewritten page, or the original bytes untouched. */
  datatype Output = Rewritten(body: string) | PassThrough

  /**
   * Rewrites a response when its content type mentions "text/html" and its
   * body has a closing body tag, both ignoring case.
   */
  function Inject(contentType: Option<string>, body: string, inj: Injector): (r: Output)
    ensures r.Rewritten? <==>
              contentType.Some? && ContainsIgnoreCase(contentType.value, "text/html")
              && ContainsIgnoreCase(body, BodyClose)
    ensures r.Rewritten? ==> r.body == ReplaceIgnoreCase(body, BodyClose, Insertion(inj))
  {
    if contentType.Some? && ContainsIgnoreCase(contentType.value, "text/html") && ContainsIgnoreCase(body, BodyClose)
    then Rewritten(ReplaceIgnoreCase(body, BodyClose, Insertion(inj)))
    else PassThrough
  }

  /**
   * On a page with one closing body tag, the footer and script land right
   * before it and the page grows by exactly their length plus a new line.
   */
  lemma InjectOnePage(contentType: string, body: string, i: nat, inj: Injector)
    requires ContainsIgnoreCase(contentType, "text/html")
    requires OccursAtIgnoreCase(body, BodyClose, i)
    requires forall j :: j != i ==> !OccursAtIgnoreCase(body, BodyClose, j)
    ensures var r := Inject(Some(contentType), body, inj);
            && r.Rewritten?
            && r.body == body[..i] + inj.footer + inj.script + "\n" + BodyClose + body[i + |BodyClose|..]
            && |r.body| == |body| + |inj.footer| + |inj.script| + 1
  {
    assert 0 <= i <= |body| - |BodyClose|;
    ReplaceSingleMatch(body, BodyClose, Insertion(inj), i);
    ReplaceLength(body, BodyClose, Insertion(inj));
  }

  // ---------------------------------------------------------------------
  // The number of closing body tags survives the rewrite.
  // ---------------------------------------------------------------------

  /** Counting splits at a point that no match straddles. */
  lemma {:induction false} MatchCountConcat(a: string, b: string, pat: string)
    requires |pat| > 0
    requires forall i :: 0 <= i < |a| < i + |pat| ==> !OccursAtIgnoreCase(a + b, pat, i)
    ensures MatchCount(a + b, pat) == MatchCount(a, pat) + MatchCount(b, pat)
    decreases |a|
  {
    if |a| == 0 {
      assert a + b == b;
    } else if |a + b| >= |pat| {
      if OccursAtIgnoreCase(a + b, pat, 0) {
        assert |pat| <= |a|;
        assert (a + b)[..|pat|] == a[..|pat|];
        var rest := a[|pat|..];
        assert (a + b)[|pat|..] == rest + b;
        forall i | 0 <= i < |rest| < i + |pat| ensures !OccursAtIgnoreCase(rest + b, pat, i) {
          OccursInSuffix(a + b, pat, |pat|, i);
        }
        MatchCountConcat(rest, b, pat);
      } else {
        var rest := a[1..];
        assert (a + b)[1..] == rest + b;
        forall i | 0 <= i < |rest| < i + |pat| ensures !OccursAtIgnoreCase(rest + b, pat, i) {
          OccursInSuffix(a + b, pat, 1, i);
        }
        MatchCountConcat(rest, b, pat);
        if |a| >= |pat| {
          assert a[..|pat|] == (a + b)[..|pat|];
        }
      }
    }
  }

  /** Dropping the first character shifts every later match one place left. */
  lemma ShiftMatches(s: string, pat: string)
    requires |s| >= 1
    ensures forall j :: 1 <= j ==> (OccursAtIgnoreCase(s, pat, j) <==> OccursAtIgnoreCase(s[1..], pat, j - 1))
  {
    forall j | 1 <= j ensures OccursAtIgnoreCase(s, pat, j) <==> OccursAtIgnoreCase(s[1..], pat, j - 1) {
      OccursInSuffix(s, pat, 1, j - 1);
    }
  }

  /** Where the left-to-right scan first meets `pat`, if anywhere. */
  function FirstMatch(s: string, pat: string): (r: Option<nat>)
    requires |pat| > 0
    ensures r.Some? ==> OccursAtIgnoreCase(s, pat, r.value)
    ensures r.Some? ==> forall j :: 0 <= j < r.value ==> !OccursAtIgnoreCase(s, pat, j)
    ensures r.None? ==> forall j :: !OccursAtIgnoreCase(s, pat, j)
    decreases |s|
  {
    if |s| < |pat| then None
    else if OccursAtIgnoreCase(s, pat, 0) then Some(0)
    else
      var k := FirstMatch(s[1..], pat);
      ShiftMatches(s, pat);
      if k.None? then None else Some(k.value + 1)
  }

  /**
   * The scan copies the text before the match at `k`, replaces that match
   * and carries on after it; the count is one more than the rest's.
   */
  ghost predicate SplitsAtMatch(s: string, pat: string, rep: string, k: nat)
  {
    && |pat| > 0 && k + |pat| <= |s|
    && ReplaceIgnoreCase(s, pat, rep) == s[..k] + rep + ReplaceIgnoreCase(s[k + |pat|..], pat, rep)
    && MatchCount(s, pat) == 1 + MatchCount(s[k + |pat|..], pat)
  }

  /** The scan splits the text at its first match. */
  lemma {:induction false} ReplaceAtFirst(s: string, pat: string, rep: string, k: nat)
    requires |pat| > 0 && OccursAtIgnoreCase(s, pat, k)
    requires forall j :: 0 <= j < k ==> !OccursAtIgnoreCase(s, pat, j)
    ensures SplitsAtMatch(s, pat, rep, k)
    decreases |s|
  {
    if k == 0 {
      ReplaceAtFront(s, pat, rep);
    } else {
      FirstMatchOfTail(s, pat, k);
      ReplaceAtFirst(s[1..], pat, rep, k - 1);
      SkipFrontKeeps(s, pat, rep, k);
    }
  }

  /** A first match past the front is the tail's first match, one place earlier. */
  lemma FirstMatchOfTail(s: string, pat: string, k: nat)
    requires |pat| > 0 && 0 < k && OccursAtIgnoreCase(s, pat, k)
    requires forall j :: 0 <= j < k ==> !OccursAtIgnoreCase(s, pat, j)
    ensures |s| >= |pat| && !OccursAtIgnoreCase(s, pat, 0)
    ensures OccursAtIgnoreCase(s[1..], pat, k - 1)
    ensures forall j :: 0 <= j < k - 1 ==> !OccursAtIgnoreCase(s[1..], pat, j)
  {
    ShiftMatches(s, pat);
    forall j | 0 <= j < k - 1 ensures !OccursAtIgnoreCase(s[1..], pat, j) {
      assert !OccursAtIgnoreCase(s, pat, j + 1);
    }
  }

  lemma ReplaceAtFront(s: string, pat: string, rep: string)
    requires |pat| > 0 && OccursAtIgnoreCase(s, pat, 0)
    ensures SplitsAtMatch(s, pat, rep, 0)
  {
    assert s[..0] + rep == rep;
  }

  /** A replacement found in the tail stays in place once the kept first character is restored. */
  lemma SkipFrontKeeps(s: string, pat: string, rep: string, k: nat)
    requires |pat| > 0 && 0 < k && |s| >= |pat| && !OccursAtIgnoreCase(s, pat, 0)
    requires SplitsAtMatch(s[1..], pat, rep, k - 1)
    ensures SplitsAtMatch(s, pat, rep, k)
  {
    ReplaceSkipsFirst(s, pat, rep);
    assert s[1..][k - 1 + |pat|..] == s[k + |pat|..];
    SpliceHead(s, s[1..], k, rep, ReplaceIgnoreCase(s[k + |pat|..], pat, rep));
  }

  lemma SpliceHead(s: string, t: string, k: nat, rep: string, rest: string)
    requires |s| > 0 && t == s[1..] && 0 < k <= |s|
    ensures [s[0]] + (t[..k - 1] + rep + rest) == s[..k] + rep + rest
  {
    assert s[..k] == [s[0]] + t[..k - 1];
  }

  /** No '<' in `s` can open a closing body tag: each is followed by two characters other than "/b" in any case. */
  ghost predicate TagSafe(s: string)
  {
    forall j :: 0 <= j < |s| && s[j] == '<' ==> j + 2 < |s| && !(s[j + 1] == '/' && LowerChar(s[j + 2]) == 'b')
  }

  lemma TagSafeConcat(a: string, b: string)
    requires TagSafe(a) && TagSafe(b)
    ensures TagSafe(a + b)
  {
    forall j | 0 <= j < |a + b| && (a + b)[j] == '<'
      ensures j + 2 < |a + b| && !((a + b)[j + 1] == '/' && LowerChar((a + b)[j + 2]) == 'b')
    {
      if j < |a| {
        assert a[j] == '<';
      } else {
        assert b[j - |a|] == '<';
      }
    }
  }

  lemma TagFree(s: string)
    requires '<' !in s
    ensures TagSafe(s)
  {
  }

  /** A piece that opens one tag, other than a closing body tag. */
  lemma OpenTagSafe(x: string)
    requires '<' !in x && |x| >= 2 && !(x[0] == '/' && LowerChar(x[1]) == 'b')
    ensures TagSafe("<" + x)
  {
    var s := "<" + x;
    forall j | 0 < j < |s| ensures s[j] != '<' {
      assert s[j] == x[j - 1];
    }
  }

  /** A number has no '<' in it. */
  lemma NumberTagFree(n: int)
    ensures '<' !in IntToString(n)
  {
    var d := NatToString(if n < 0 then -n else n);
    forall i | 0 <= i < |d| ensures d[i] != '<' {
      assert IsDigit(d[i]);
    }
    if n < 0 {
      assert IntToString(n) == "-" + d;
    }
  }

  lemma TagSafe4(a: string, b: string, c: string, d: string)
    requires TagSafe(a) && TagSafe(b) && TagSafe(c) && TagSafe(d)
    ensures TagSafe(a + b + c + d)
  {
    TagSafeConcat(a, b);
    TagSafeConcat(a + b, c);
    TagSafeConcat(a + b + c, d);
  }

  lemma FooterOpenSafe()
    ensures TagSafe(FooterOpen) && FooterOpen[0] == '\n'
  {
    TagFree("\n    ");
    assert "<footer" == "<" + "footer";
    OpenTagSafe("footer");
    TagFree(" id=\"app-footer\"");
    TagFree(" class=\"app-footer\">\n        ");
    TagSafe4("\n    ", "<footer", " id=\"app-footer\"", " class=\"app-footer\">\n        ");
  }

  lemma FooterSpanSafe()
    ensures TagSafe(FooterSpan)
  {
    assert "<span>" == "<" + "span>";
    OpenTagSafe("span>");
    TagFree("&copy; ");
    TagSafeConcat("<span>", "&copy; ");
  }

  lemma FooterLinkSafe()
    ensures TagSafe(FooterLink)
  {
    TagFree(" Powered by ");
    assert "<a href=" == "<" + "a href=";
    OpenTagSafe("a href=");
    TagFree("\"https://zero16sec.com\"");
    TagFree(" target=\"_blank\"");
    TagSafe4(" Powered by ", "<a href=", "\"https://zero16sec.com\"", " target=\"_blank\"");
  }

  lemma FooterCaptionSafe()
    ensures TagSafe(FooterCaption)
  {
    TagFree(" rel=\"noopener noreferrer\"");
    TagFree(" id=\"footer-link\">");
    TagFree("Zero One Six Security, LLC");
    TagSafeConcat(" rel=\"noopener noreferrer\"", " id=\"footer-link\">");
    TagSafeConcat(" rel=\"noopener noreferrer\"" + " id=\"footer-link\">", "Zero One Six Security, LLC");
  }

  lemma FooterCloseSafe()
    ensures TagSafe(FooterClose)
  {
    assert "</a>" == "<" + "/a>";
    OpenTagSafe("/a>");
    assert "</span>" == "<" + "/span>";
    OpenTagSafe("/span>");
    TagFree("\n    ");
    assert "</footer>" == "<" + "/footer>";
    OpenTagSafe("/footer>");
    TagSafe4("</a>", "</span>", "\n    ", "</footer>");
  }

  /** No piece of the footer can open a closing body tag, and it starts on a new line. */
  lemma FooterTagSafe(year: int)
    ensures TagSafe(FooterHtml(year)) && FooterHtml(year)[0] == '\n'
  {
    FooterOpenSafe();
    FooterSpanSafe();
    FooterLinkSafe();
    FooterCaptionSafe();
    FooterCloseSafe();
    NumberTagFree(year);
    TagFree(IntToString(year));
    TagSafe4(FooterOpen, FooterSpan, IntToString(year), FooterLink);
    TagSafeConcat(FooterOpen + FooterSpan + IntToString(year) + FooterLink, FooterCaption);
    TagSafeConcat(FooterOpen + FooterSpan + IntToString(year) + FooterLink + FooterCaption, FooterClose);
  }

  /** A match that would start inside a tag-safe text is ruled out, whatever follows it. */
  lemma TagSafeBlocks(a: string, b: string)
    requires TagSafe(a)
    ensures forall j :: 0 <= j < |a| ==> !OccursAtIgnoreCase(a + b, BodyClose, j)
  {
    forall j | 0 <= j < |a| ensures !OccursAtIgnoreCase(a + b, BodyClose, j) {
      var s := a + b;
      if j + |BodyClose| <= |s| {
        var w := s[j..j + |BodyClose|];
        assert w[0] == a[j];
        if a[j] != '<' {
          assert LowerChar(w[0]) != LowerChar(BodyClose[0]);
        } else if a[j + 1] != '/' {
          assert w[1] == a[j + 1];
          assert LowerChar(w[1]) != LowerChar(BodyClose[1]);
        } else {
          assert w[2] == a[j + 2];
          assert LowerChar(w[2]) != LowerChar(BodyClose[2]);
        }
      }
    }
  }

  /** A new line inside a window rules out a closing body tag there. */
  lemma NewlineBlocks(x: string, m: int, i: int)
    requires 0 <= i <= m < i + |BodyClose| && m < |x| && x[m] == '\n'
    ensures !OccursAtIgnoreCase(x, BodyClose, i)
  {
    if i + |BodyClose| <= |x| {
      var w := x[i..i + |BodyClose|];
      assert w[m - i] == '\n';
      assert BodyClose[m - i] in BodyClose;
      assert LowerChar(w[m - i]) != LowerChar(BodyClose[m - i]);
    }
  }

  /** No closing body tag starts inside the one a replacement ends with and runs past it. */
  lemma TagEndBlocks(rep: string, rest: string, i: int)
    requires |rep| >= |BodyClose| && rep[|rep| - |BodyClose|..] == BodyClose
    requires |rep| - |BodyClose| < i < |rep|
    ensures !OccursAtIgnoreCase(rep + rest, BodyClose, i)
  {
    var q := i - (|rep| - |BodyClose|);
    assert rep[i] == BodyClose[q];
    assert BodyClose[1..] == "/body>";
    assert BodyClose[q] in BodyClose[1..];
    if i + |BodyClose| <= |rep + rest| {
      var w := (rep + rest)[i..i + |BodyClose|];
      assert w[0] == rep[i];
      assert LowerChar(w[0]) != LowerChar(BodyClose[0]);
    }
  }

  /** A replacement text that brings back exactly the one closing body tag it replaces. */
  ghost predicate CountNeutral(rep: string)
  {
    |rep| >= |BodyClose| && rep[0] == '\n' && rep[|rep| - |BodyClose|..] == BodyClose
    && MatchCount(rep, BodyClose) == 1
  }

  /** A count-neutral text followed by anything adds exactly one match to what follows. */
  lemma NeutralThenRest(rep: string, rest: string)
    requires CountNeutral(rep)
    ensures MatchCount(rep + rest, BodyClose) == 1 + MatchCount(rest, BodyClose)
  {
    forall i | 0 <= i < |rep| < i + |BodyClose| ensures !OccursAtIgnoreCase(rep + rest, BodyClose, i) {
      TagEndBlocks(rep, rest, i);
    }
    MatchCountConcat(rep, rest, BodyClose);
  }

  /** Text free of matches, followed by something that starts on a new line, adds no match. */
  lemma CleanThenNewline(s: string, k: nat, rest: string)
    requires k <= |s| && forall j :: 0 <= j < k ==> !OccursAtIgnoreCase(s, BodyClose, j)
    requires |rest| > 0 && rest[0] == '\n'
    ensures MatchCount(s[..k] + rest, BodyClose) == MatchCount(rest, BodyClose)
  {
    var head := s[..k];
    forall i | 0 <= i < |head| < i + |BodyClose| ensures !OccursAtIgnoreCase(head + rest, BodyClose, i) {
      NewlineBlocks(head + rest, k, i);
    }
    MatchCountConcat(head, rest, BodyClose);
    NoMatchInPrefix(s, BodyClose, k);
    ReplaceWithoutMatch(head, BodyClose, "");
  }

  /** A prefix that ends before the first match holds none. */
  lemma NoMatchInPrefix(s: string, pat: string, k: nat)
    requires |pat| > 0 && k <= |s| && forall j :: 0 <= j < k ==> !OccursAtIgnoreCase(s, pat, j)
    ensures forall j :: !OccursAtIgnoreCase(s[..k], pat, j)
  {
    forall j ensures !OccursAtIgnoreCase(s[..k], pat, j) {
      if 0 <= j && j + |pat| <= k {
        PrefixWindow(s, k, j, |pat|);
        assert !OccursAtIgnoreCase(s, pat, j);
      }
    }
  }

  lemma PrefixWindow(s: string, k: nat, j: nat, n: nat)
    requires j + n <= k <= |s|
    ensures s[..k][j..j + n] == s[j..j + n]
  {
  }

  /** Clean text, then a count-neutral replacement, then anything: one match more than the last part. */
  lemma CountAfterFirst(s: string, k: nat, rep: string, rest: string)
    requires k <= |s| && forall j :: 0 <= j < k ==> !OccursAtIgnoreCase(s, BodyClose, j)
    requires CountNeutral(rep)
    ensures MatchCount(s[..k] + rep + rest, BodyClose) == 1 + MatchCount(rest, BodyClose)
  {
    NeutralThenRest(rep, rest);
    CleanThenNewline(s, k, rep + rest);
    assert s[..k] + rep + rest == s[..k] + (rep + rest);
  }

  /** Replacing every closing body tag by a count-neutral text keeps their number. */
  lemma {:induction false} ReplaceKeepsCount(s: string, rep: string)
    requires CountNeutral(rep)
    ensures MatchCount(ReplaceIgnoreCase(s, BodyClose, rep), BodyClose) == MatchCount(s, BodyClose)
    decreases |s|
  {
    var first := FirstMatch(s, BodyClose);
    if first.None? {
      ReplaceWithoutMatch(s, BodyClose, rep);
    } else {
      var k := first.value;
      ReplaceAtFirst(s, BodyClose, rep, k);
      var t := s[k + |BodyClose|..];
      ReplaceKeepsCount(t, rep);
      CountAfterFirst(s, k, rep, ReplaceIgnoreCase(t, BodyClose, rep));
    }
  }

  /** The footer and a script without a closing body tag, then a new line, hold no match. */
  lemma NoTagBeforeClose(footer: string, script: string)
    requires TagSafe(footer)
    requires forall j :: !OccursAtIgnoreCase(script, BodyClose, j)
    ensures forall j :: !OccursAtIgnoreCase(footer + script + "\n", BodyClose, j)
  {
    var x := footer + script + "\n";
    TagSafeBlocks(footer, script + "\n");
    assert x == footer + (script + "\n");
    forall j ensures !OccursAtIgnoreCase(x, BodyClose, j) {
      if |footer| <= j && j + |BodyClose| <= |x| {
        if j + |BodyClose| <= |footer| + |script| {
          assert x[j..j + |BodyClose|] == script[j - |footer|..j - |footer| + |BodyClose|];
          assert !OccursAtIgnoreCase(script, BodyClose, j - |footer|);
        } else {
          NewlineBlocks(x, |x| - 1, j);
        }
      }
    }
  }

  /** The middleware's insertion is count-neutral when its script has no closing body tag. */
  lemma InsertionNeutral(year: int, script: string)
    requires forall j :: !OccursAtIgnoreCase(script, BodyClose, j)
    ensures CountNeutral(Insertion(NewInjector(year, script)))
  {
    var footer := FooterHtml(year);
    FooterTagSafe(year);
    var x := footer + script + "\n";
    NoTagBeforeClose(footer, script);
    ReplaceWithoutMatch(x, BodyClose, "");
    forall i | 0 <= i < |x| < i + |BodyClose| ensures !OccursAtIgnoreCase(x + BodyClose, BodyClose, i) {
      NewlineBlocks(x + BodyClose, |x| - 1, i);
    }
    MatchCountConcat(x, BodyClose, BodyClose);
    assert BodyClose[..|BodyClose|] == BodyClose;
    assert MatchCount(BodyClose[|BodyClose|..], BodyClose) == 0;
    assert Insertion(NewInjector(year, script)) == x + BodyClose;
  }

  /**
   * Rewriting keeps the number of closing body tags, matched ignoring case:
   * each one replaced comes back at the end of its insertion, and the footer
   * and a script without one add no other.
   */
  lemma InjectKeepsBodyCloseCount(contentType: Option<string>, body: string, year: int, script: string)
    requires forall j :: !OccursAtIgnoreCase(script, BodyClose, j)
    ensures var r := Inject(contentType, body, NewInjector(year, script));
            r.Rewritten? ==> MatchCount(r.body, BodyClose) == MatchCount(body, BodyClose)
  {
    InsertionNeutral(year, script);
    ReplaceKeepsCount(body, Insertion(NewInjector(year, script)));
  }
}

=== FILE: models.dfy ===
/** The persisted records. A record's id is its key in the store, not a field. */
module Models {
  import opened Wrappers
  import opened Clock

  /** The check-kind enum; a stored value outside the two named members is `Unsupported`. */
  datatype CheckType = Http | Ping | Unsupported(code: int)

  /** A URL or host the monitoring loop probes. */
  datatype MonitoredUrl = MonitoredUrl(
    friendlyName: string,
    url: string,
    checkType: CheckType,
    createdAt: Ticks)

  /** One probe observation of a monitored URL. */
  datatype UrlCheck = UrlCheck(
    monitoredUrlId: int,
    checkedAt: Ticks,
    responseTimeMs: int,
    statusCode: int,
    isSuccess: bool,
    errorMessage: Option<string>)

  /** One speed-test run; throughputs in Mbps. */
  datatype SpeedTest = SpeedTest(
    testedAt: Ticks,
    downloadMbps: real,
    uploadMbps: real,
    pingMs: int,
    jitterMs: int,
    serverName: Option<string>,
    serverLocation: Option<string>,
    isp: Option<string>,
    isSuccess: bool,
    errorMessage: Option<string>)

  /** A watched TLS endpoint, overwritten in place by every check. */
  datatype SslCertificate = SslCertificate(
    friendlyName: string,
    url: string,
    issuer: string,
    subject: string,
    validFrom: Ticks,
    validTo: Ticks,
    lastChecked: Ticks,
    isValid: bool,
    errorMessage: Option<string>,
    daysUntilExpiration: int)

  /** A registered firewall appliance; the API key is kept only in encrypted form. */
  datatype Firewall = Firewall(
    friendlyName: string,
    hostname: string,
    encryptedApiKey: string,
    firewallHostname: Option<string>,
    model: Option<string>,
    serialNumber: Option<string>,
    softwareVersion: Option<string>,
    createdAt: Ticks,
    lastTestedAt: Option<Ticks>)

  newtype byte = x: int | 0 <= x < 256

  /** A dashboard account; `passwordHash` holds the Base64-decoded bytes. */
  datatype User = User(
    username: string,
    passwordHash: seq<byte>,
    mustChangePassword: bool,
    createdAt: Ticks,
    lastLoginAt: Option<Ticks>)
}

=== FILE: monitored_urls.dfy ===
/**
 * The monitored-URL controller: the dashboard listing (recent checks newest
 * first, average response time, latest check) and create, read, update and
 * delete of monitored URLs. Writes keep the store consistent: URLs stay
 * unique and checks keep pointing at existing URLs.
 */
module MonitoredUrls {
  import opened Wrappers
  import opened Text
  import opened Clock
  import opened Models
  import opened Context
  import opened Ordering

  const Required: string := "FriendlyName and Url are required"
  const InvalidUrl: string := "Invalid URL format. Must be a valid HTTP/HTTPS URL (e.g., https://example.com)"
  const Duplicate: string := "This URL is already being monitored"

  /** The request body; the check type defaults to Http when the body omits it. */
  datatype UrlDto = UrlDto(friendlyName: string, url: string, checkType: CheckType)

  datatype UrlView = UrlView(id: int, friendlyName: string, url: string, checkType: CheckType, createdAt: Ticks)

  /** What a monitored-URL request answers. */
  datatype Response =
    | BadRequest(message: string)
    | Conflict(message: string)
    | NotFound
    | Created(id: int, url: MonitoredUrl)
    | NoContent
    | Found(view: UrlView)

  /** One dashboard row: the URL, its checks in the window newest first, and all-time figures. */
  datatype UrlSummary = UrlSummary(
    view: UrlView,
    checks: seq<(int, UrlCheck)>,
    averageResponseTime: real,
    latestCheck: Option<(int, UrlCheck)>)

  function ViewOf(id: int, u: MonitoredUrl): UrlView
  {
    UrlView(id, u.friendlyName, u.url, u.checkType, u.createdAt)
  }

  function CheckedAt(e: (int, UrlCheck)): int
  {
    e.1.checkedAt
  }

  /** Every check of one URL with its id, in stored order. */
  function ChecksOf(t: Table<UrlCheck>, urlId: int): (r: seq<(int, UrlCheck)>)
    requires t.Valid()
    ensures forall i :: 0 <= i < |r| ==> r[i].1.monitoredUrlId == urlId && r[i].0 in t.rows && t.rows[r[i].0] == r[i].1
    ensures forall k :: k in t.rows && t.rows[k].monitoredUrlId == urlId ==> (k, t.rows[k]) in r
    ensures multiset(r) <= multiset(Entries(t))
    ensures IdsOnce(r)
  {
    var r := Filter(Entries(t), (e: (int, UrlCheck)) => e.1.monitoredUrlId == urlId);
    FilterCounts(Entries(t), (e: (int, UrlCheck)) => e.1.monitoredUrlId == urlId);
    forall i | 0 <= i < |r| ensures r[i].0 in t.rows && t.rows[r[i].0] == r[i].1 {
      EntriesComplete(t, r[i].0, r[i].1);
    }
    forall k | k in t.rows && t.rows[k].monitoredUrlId == urlId ensures (k, t.rows[k]) in r {
      EntriesComplete(t, k, t.rows[k]);
    }
    ListedOnce(t, r);
    r
  }

  function SumResponseTimes(cs: seq<(int, UrlCheck)>): int
  {
    if cs == [] then 0 else SumResponseTimes(cs[..|cs| - 1]) + cs[|cs| - 1].1.responseTimeMs
  }

  /** The sum of response times lies between count times the least and count times the most. */
  lemma {:induction false} SumResponseTimesBounds(cs: seq<(int, UrlCheck)>, lo: int, hi: int)
    requires forall i :: 0 <= i < |cs| ==> lo <= cs[i].1.responseTimeMs <= hi
    ensures |cs| * lo <= SumResponseTimes(cs) <= |cs| * hi
  {
    if cs != [] {
      SumResponseTimesBounds(cs[..|cs| - 1], lo, hi);
      assert |cs| * lo == (|cs| - 1) * lo + lo;
      assert |cs| * hi == (|cs| - 1) * hi + hi;
    }
  }

  /** `Average(c => c.ResponseTimeMs)` when there are checks, else 0. */
  function AverageResponseTime(cs: seq<(int, UrlCheck)>): real
  {
    if cs == [] then 0.0 else SumResponseTimes(cs) as real / |cs| as real
  }

  /** The average of checks whose times all lie in [lo, hi] lies in [lo, hi] too. */
  lemma AverageWithinBounds(cs: seq<(int, UrlCheck)>, lo: int, hi: int)
    requires cs != []
    requires forall i :: 0 <= i < |cs| ==> lo <= cs[i].1.responseTimeMs <= hi
    ensures lo as real <= AverageResponseTime(cs) <= hi as real
  {
    SumResponseTimesBounds(cs, lo, hi);
    var n := |cs| as real;
    var s := SumResponseTimes(cs) as real;
    assert n * (lo as real) <= s <= n * (hi as real);
    assert AverageResponseTime(cs) == s / n;
  }

  /** One URL's checks no older than `cutoff`, newest first, each once. */
  function RecentChecks(t: Table<UrlCheck>, urlId: int, cutoff: int): (r: seq<(int, UrlCheck)>)
    requires t.Valid()
    ensures forall i :: 0 <= i < |r| ==>
              && r[i].0 in t.rows && t.rows[r[i].0] == r[i].1
              && r[i].1.monitoredUrlId == urlId && r[i].1.checkedAt >= cutoff
    ensures forall k :: (k in t.rows && t.rows[k].monitoredUrlId == urlId && t.rows[k].checkedAt >= cutoff) ==>
              (k, t.rows[k]) in r
    ensures IdsOnce(r)
    ensures forall i, j :: 0 <= i < j < |r| ==> r[i].1.checkedAt >= r[j].1.checkedAt
  {
    RecentChecksStored(t, urlId, cutoff);
    RecentChecksOnce(t, urlId, cutoff);
    RecentNewestFirst(ChecksOf(t, urlId), CheckedAt, cutoff)
  }

  /** The recent checks of one URL are stored rows. */
  lemma RecentChecksStored(t: Table<UrlCheck>, urlId: int, cutoff: int)
    requires t.Valid()
    ensures var r := RecentNewestFirst(ChecksOf(t, urlId), CheckedAt, cutoff);
            forall i :: 0 <= i < |r| ==> r[i].0 in t.rows && t.rows[r[i].0] == r[i].1
  {
    var all := ChecksOf(t, urlId);
    DrawnFromStored(t, all, RecentNewestFirst(all, CheckedAt, cutoff));
  }

  /** The recent checks of one URL name each stored row at most once. */
  lemma RecentChecksOnce(t: Table<UrlCheck>, urlId: int, cutoff: int)
    requires t.Valid()
    ensures IdsOnce(RecentNewestFirst(ChecksOf(t, urlId), CheckedAt, cutoff))
  {
    var all := ChecksOf(t, urlId);
    var recent := RecentNewestFirst(all, CheckedAt, cutoff);
    RecentWithinInput(all, CheckedAt, cutoff);
    RecentChecksStored(t, urlId, cutoff);
    ListedOnce(t, recent);
  }

  /** A URL has no newest check exactly when it has no checks at all. */
  lemma LatestNoneIffNoChecks(t: Table<UrlCheck>, urlId: int)
    requires t.Valid()
    ensures Latest(ChecksOf(t, urlId), CheckedAt).None? <==> forall k :: k in t.rows ==> t.rows[k].monitoredUrlId != urlId
  {
    var all := ChecksOf(t, urlId);
    if all != [] {
      assert all[0].0 in t.rows && t.rows[all[0].0].monitoredUrlId == urlId;
    }
  }

  /** The newest check of a URL is stored under its id and no check of that URL is newer. */
  lemma LatestIsNewestStored(t: Table<UrlCheck>, urlId: int)
    requires t.Valid()
    ensures var latest := Latest(ChecksOf(t, urlId), CheckedAt);
            latest.Some? ==>
              var (k, c) := latest.value;
              && k in t.rows && t.rows[k] == c && c.monitoredUrlId == urlId
              && forall k' :: k' in t.rows && t.rows[k'].monitoredUrlId == urlId ==> t.rows[k'].checkedAt <= c.checkedAt
  {
    var all := ChecksOf(t, urlId);
    var latest := Latest(all, CheckedAt);
    if latest.Some? {
      DrawnFromStored(t, all, [latest.value]);
      assert [latest.value][0] == latest.value;
      forall k' | k' in t.rows && t.rows[k'].monitoredUrlId == urlId
        ensures t.rows[k'].checkedAt <= latest.value.1.checkedAt
      {
        LatestBeatsMember(all, CheckedAt, (k', t.rows[k']));
      }
    }
  }

  /** One URL's newest check of all, if it has any. */
  function LatestCheck(t: Table<UrlCheck>, urlId: int): (r: Option<(int, UrlCheck)>)
    requires t.Valid()
    ensures r.None? <==> forall k :: k in t.rows ==> t.rows[k].monitoredUrlId != urlId
    ensures r.Some? ==>
              var (k, c) := r.value;
              && k in t.rows && t.rows[k] == c && c.monitoredUrlId == urlId
              && forall k' :: k' in t.rows && t.rows[k'].monitoredUrlId == urlId ==> t.rows[k'].checkedAt <= c.checkedAt
  {
    LatestNoneIffNoChecks(t, urlId);
    LatestIsNewestStored(t, urlId);
    Latest(ChecksOf(t, urlId), CheckedAt)
  }

  /**
   * One dashboard row. Only checks no older than the retention window are
   * listed, newest first; the average and the latest check use every check.
   */
  function Summarize(db: Db, id: int, now: Ticks): (r: UrlSummary)
    requires Consistent(db) && id in db.urls.rows
    ensures r.view == ViewOf(id, db.urls.rows[id])
    ensures forall i :: 0 <= i < |r.checks| ==>
              && r.checks[i].0 in db.checks.rows && db.checks.rows[r.checks[i].0] == r.checks[i].1
              && r.checks[i].1.monitoredUrlId == id && r.checks[i].1.checkedAt >= RetentionCutoff(now)
    ensures forall k :: (k in db.checks.rows && db.checks.rows[k].monitoredUrlId == id
                         && db.checks.rows[k].checkedAt >= RetentionCutoff(now)) ==> (k, db.checks.rows[k]) in r.checks
    ensures IdsOnce(r.checks)
    ensures forall i, j :: 0 <= i < j < |r.checks| ==> r.checks[i].1.checkedAt >= r.checks[j].1.checkedAt
    ensures r.averageResponseTime == AverageResponseTime(ChecksOf(db.checks, id))
    ensures r.latestCheck.None? <==> forall k :: k in db.checks.rows ==> db.checks.rows[k].monitoredUrlId != id
    ensures r.latestCheck.Some? ==>
              var (k, c) := r.latestCheck.value;
              && k in db.checks.rows && db.checks.rows[k] == c && c.monitoredUrlId == id
              && forall k' :: k' in db.checks.rows && db.checks.rows[k'].monitoredUrlId == id ==>
                   db.checks.rows[k'].checkedAt <= c.checkedAt
  {
    UrlSummary(ViewOf(id, db.urls.rows[id]), RecentChecks(db.checks, id, RetentionCutoff(now)),
               AverageResponseTime(ChecksOf(db.checks, id)), LatestCheck(db.checks, id))
  }

  /** The dashboard listing: one row per monitored URL, in id order. */
  function GetMonitoredUrls(db: Db, now: Ticks): (r: seq<UrlSummary>)
    requires Consistent(db)
    ensures |r| == |Ids(db.urls)|
    ensures forall i :: 0 <= i < |r| ==> r[i] == Summarize(db, Ids(db.urls)[i], now)
  {
    var ids := Ids(db.urls);
    seq(|ids|, i requires 0 <= i < |ids| => Summarize(db, ids[i], now))
  }

  /** One monitored URL, or NotFound. */
  function GetMonitoredUrl(db: Db, id: int): (r: Response)
    ensures id !in db.urls.rows ==> r == NotFound
    ensures id in db.urls.rows ==> r == Found(ViewOf(id, db.urls.rows[id]))
  {
    if id in db.urls.rows then Found(ViewOf(id, db.urls.rows[id])) else NotFound
  }

  /** Some stored URL other than `except` has exactly this address. */
  predicate UrlInUse(urls: map<int, MonitoredUrl>, url: string, except: Option<int>)
  {
    exists k :: k in urls && urls[k].url == url && Some(k) != except
  }

  /** An Http check needs an absolute URI; other kinds accept any text. */
  predicate AddressAccepted(dto: UrlDto, isAbsoluteUri: string -> bool)
  {
    dto.checkType != Http || isAbsoluteUri(dto.url)
  }

  /**
   * Adds a monitored URL. Blank fields, an Http address that is not an
   * absolute URI, and an address already monitored are refused in that order;
   * otherwise exactly one URL is added, created at `now`.
   */
  function CreateMonitoredUrl(db: Db, dto: UrlDto, isAbsoluteUri: string -> bool, now: Ticks): (r: (Response, Db))
    requires Consistent(db)
    ensures Consistent(r.1)
    ensures Blank(Some(dto.friendlyName)) || Blank(Some(dto.url)) ==> r == (BadRequest(Required), db)
    ensures !Blank(Some(dto.friendlyName)) && !Blank(Some(dto.url)) && !AddressAccepted(dto, isAbsoluteUri) ==>
              r == (BadRequest(InvalidUrl), db)
    ensures (!Blank(Some(dto.friendlyName)) && !Blank(Some(dto.url)) && AddressAccepted(dto, isAbsoluteUri)
             && UrlInUse(db.urls.rows, dto.url, None)) ==> r == (Conflict(Duplicate), db)
    ensures r.0.Created? <==>
              !Blank(Some(dto.friendlyName)) && !Blank(Some(dto.url)) && AddressAccepted(dto, isAbsoluteUri)
              && !UrlInUse(db.urls.rows, dto.url, None)
    ensures r.0.Created? ==>
              && r.0.url == MonitoredUrl(dto.friendlyName, dto.url, dto.checkType, now)
              && r.0.id !in db.urls.rows
              && r.1.urls.rows == db.urls.rows[r.0.id := r.0.url]
              && r.1 == db.(urls := r.1.urls)
  {
    if Blank(Some(dto.friendlyName)) || Blank(Some(dto.url)) then (BadRequest(Required), db)
    else if !AddressAccepted(dto, isAbsoluteUri) then (BadRequest(InvalidUrl), db)
    else if UrlInUse(db.urls.rows, dto.url, None) then (Conflict(Duplicate), db)
    else
      var u := MonitoredUrl(dto.friendlyName, dto.url, dto.checkType, now);
      var (urls, id) := Insert(db.urls, u);
      assert urls.rows == db.urls.rows[id := u];
      (Created(id, u), db.(urls := urls))
  }

  /**
   * Edits a monitored URL. Blank fields are refused, then an unknown id, then
   * an Http address that is not an absolute URI, then an address another URL
   * already has; otherwise name, address and kind are overwritten and the
   * URL's checks are kept.
   */
  function UpdateMonitoredUrl(db: Db, id: int, dto: UrlDto, isAbsoluteUri: string -> bool): (r: (Response, Db))
    requires Consistent(db)
    ensures Consistent(r.1)
    ensures r.0 != NoContent ==> r.1 == db
    ensures Blank(Some(dto.friendlyName)) || Blank(Some(dto.url)) ==> r.0 == BadRequest(Required)
    ensures !Blank(Some(dto.friendlyName)) && !Blank(Some(dto.url)) && id !in db.urls.rows ==> r.0 == NotFound
    ensures (!Blank(Some(dto.friendlyName)) && !Blank(Some(dto.url)) && id in db.urls.rows
             && !AddressAccepted(dto, isAbsoluteUri)) ==> r.0 == BadRequest(InvalidUrl)
    ensures (!Blank(Some(dto.friendlyName)) && !Blank(Some(dto.url)) && id in db.urls.rows
             && AddressAccepted(dto, isAbsoluteUri) && UrlInUse(db.urls.rows, dto.url, Some(id))) ==>
              r.0 == Conflict(Duplicate)
    ensures r.0 == NoContent <==>
              !Blank(Some(dto.friendlyName)) && !Blank(Some(dto.url)) && id in db.urls.rows
              && AddressAccepted(dto, isAbsoluteUri) && !UrlInUse(db.urls.rows, dto.url, Some(id))
    ensures r.0 == NoContent ==>
              && r.1.urls.rows == db.urls.rows[id := db.urls.rows[id].(friendlyName := dto.friendlyName,
                                                                          url := dto.url, checkType := dto.checkType)]
              && r.1 == db.(urls := r.1.urls)
  {
    if Blank(Some(dto.friendlyName)) || Blank(Some(dto.url)) then (BadRequest(Required), db)
    else if id !in db.urls.rows then (NotFound, db)
    else if !AddressAccepted(dto, isAbsoluteUri) then (BadRequest(InvalidUrl), db)
    else if UrlInUse(db.urls.rows, dto.url, Some(id)) then (Conflict(Duplicate), db)
    else
      var u := db.urls.rows[id].(friendlyName := dto.friendlyName, url := dto.url, checkType := dto.checkType);
      (NoContent, db.(urls := Replace(db.urls, id, u)))
  }

  /** Deletes a monitored URL together with its checks, or answers NotFound. */
  function DeleteMonitoredUrl(db: Db, id: int): (r: (Response, Db))
    requires Consistent(db)
    ensures Consistent(r.1)
    ensures id !in db.urls.rows ==> r == (NotFound, db)
    ensures id in db.urls.rows ==>
              && r.0 == NoContent
              && r.1.urls.rows.Keys == db.urls.rows.Keys - {id}
              && (forall k :: k in r.1.checks.rows <==> k in db.checks.rows && db.checks.rows[k].monitoredUrlId != id)
              && (forall k :: k in r.1.checks.rows ==> r.1.checks.rows[k] == db.checks.rows[k])
              && (forall k :: k in r.1.urls.rows ==> r.1.urls.rows[k] == db.urls.rows[k])
              && r.1.speedTests == db.speedTests && r.1.certificates == db.certificates
              && r.1.firewalls == db.firewalls && r.1.users == db.users
    ensures id in db.urls.rows ==> r.1 == DeleteUrl(db, id)
  {
    if id !in db.urls.rows then (NotFound, db) else (NoContent, DeleteUrl(db, id))
  }
}

=== FILE: ordering.dfy ===
/**
 * The stable insertion sort behind every `OrderBy`/`OrderByDescending` the
 * source asks the store for, over an arbitrary total preorder `le`.
 */
module Ordering {
  import opened Wrappers

  ghost predicate TotalPreorder<T(!new)>(le: (T, T) -> bool)
  {
    && (forall a, b :: le(a, b) || le(b, a))
    && (forall a, b, c :: le(a, b) && le(b, c) ==> le(a, c))
  }

  predicate Sorted<T>(s: seq<T>, le: (T, T) -> bool)
  {
    forall i, j :: 0 <= i < j < |s| ==> le(s[i], s[j])
  }

  /** A sorted sequence stays sorted under a new head that is `le` every element. */
  lemma SortedCons<T>(x: T, t: seq<T>, le: (T, T) -> bool)
    requires Sorted(t, le)
    requires forall j :: 0 <= j < |t| ==> le(x, t[j])
    ensures Sorted([x] + t, le)
  {
    var r := [x] + t;
    forall i, j | 0 <= i < j < |r| ensures le(r[i], r[j]) {
      assert r[j] == t[j - 1];
      if i > 0 {
        assert r[i] == t[i - 1];
      }
    }
  }

  /** The head of a sorted sequence is `le` everything after it, and anything it is `le` of. */
  lemma HeadBelowRest<T>(s: seq<T>, x: T, t: seq<T>, le: (T, T) -> bool)
    requires Sorted(s, le) && s != [] && le(s[0], x)
    requires multiset(t) == multiset(s[1..]) + multiset{x}
    ensures forall j :: 0 <= j < |t| ==> le(s[0], t[j])
  {
    forall j | 0 <= j < |t| ensures le(s[0], t[j]) {
      assert t[j] in multiset(t);
      if t[j] != x {
        assert t[j] in multiset(s[1..]);
        var k :| 0 <= k < |s[1..]| && s[1..][k] == t[j];
        assert s[k + 1] == t[j];
      }
    }
  }

  /** Something not above the head of a sorted sequence is below all of it. */
  lemma BelowHead<T(!new)>(x: T, s: seq<T>, le: (T, T) -> bool)
    requires TotalPreorder(le) && Sorted(s, le) && s != [] && !le(s[0], x)
    ensures forall j :: 0 <= j < |s| ==> le(x, s[j])
  {
    assert le(x, s[0]);
    forall j | 0 < j < |s| ensures le(x, s[j]) {
      assert le(s[0], s[j]);
    }
  }

  /** Places `x` after every leading element that is `le` it (so after its equals). */
  function InsertSorted<T(!new)>(x: T, s: seq<T>, le: (T, T) -> bool): (r: seq<T>)
    requires TotalPreorder(le)
    requires Sorted(s, le)
    ensures Sorted(r, le)
    ensures multiset(r) == multiset(s) + multiset{x}
    ensures |r| == |s| + 1
  {
    if s == [] then [x]
    else if le(s[0], x) then
      var t := InsertSorted(x, s[1..], le);
      assert s == [s[0]] + s[1..];
      HeadBelowRest(s, x, t, le);
      SortedCons(s[0], t, le);
      [s[0]] + t
    else
      BelowHead(x, s, le);
      SortedCons(x, s, le);
      [x] + s
  }

  /**
   * `OrderBy`: the result is sorted by `le` and is a permutation of the input.
   * Equal elements keep their input order (each new element goes after its equals).
   */
  function SortBy<T(!new)>(s: seq<T>, le: (T, T) -> bool): (r: seq<T>)
    requires TotalPreorder(le)
    ensures Sorted(r, le)
    ensures multiset(r) == multiset(s)
    ensures |r| == |s|
  {
    if s == [] then []
    else
      assert s == s[..|s| - 1] + [s[|s| - 1]];
      InsertSorted(s[|s| - 1], SortBy(s[..|s| - 1], le), le)
  }

  /** Keeps the elements satisfying `p`, in their original order. */
  function Filter<T(!new)>(s: seq<T>, p: T -> bool): (r: seq<T>)
    ensures |r| <= |s|
    ensures forall i :: 0 <= i < |r| ==> p(r[i])
    ensures forall i :: 0 <= i < |r| ==> r[i] in s
    ensures forall i :: 0 <= i < |s| && p(s[i]) ==> s[i] in r
  {
    if s == [] then []
    else
      var rest := Filter(s[1..], p);
      var head := if p(s[0]) then [s[0]] else [];
      FilterMemberStep(s, p, head, rest);
      head + rest
  }

  /** `Filter` keeps each accepted element exactly as often as the input holds it, and no other. */
  lemma {:induction false} FilterCounts<T(!new)>(s: seq<T>, p: T -> bool)
    ensures forall x :: multiset(Filter(s, p))[x] == if p(x) then multiset(s)[x] else 0
  {
    if s != [] {
      FilterCounts(s[1..], p);
      FilterCountStep(s, p, if p(s[0]) then [s[0]] else [], Filter(s[1..], p));
    }
  }

  /** One step of `Filter`'s membership argument: keeping or dropping the head. */
  lemma FilterMemberStep<T>(s: seq<T>, p: T -> bool, head: seq<T>, rest: seq<T>)
    requires s != [] && head == if p(s[0]) then [s[0]] else []
    requires forall i :: 0 <= i < |rest| ==> p(rest[i]) && rest[i] in s[1..]
    requires forall i :: 0 <= i < |s[1..]| && p(s[1..][i]) ==> s[1..][i] in rest
    ensures forall i :: 0 <= i < |head + rest| ==> p((head + rest)[i]) && (head + rest)[i] in s
    ensures forall i :: 0 <= i < |s| && p(s[i]) ==> s[i] in head + rest
  {
    forall i | 0 <= i < |s| && p(s[i]) ensures s[i] in head + rest {
      if i > 0 {
        assert s[i] == s[1..][i - 1];
      }
    }
  }

  /** One step of `Filter`'s counting argument: keeping or dropping the head. */
  lemma FilterCountStep<T>(s: seq<T>, p: T -> bool, head: seq<T>, rest: seq<T>)
    requires s != [] && head == if p(s[0]) then [s[0]] else []
    requires forall x :: multiset(rest)[x] == if p(x) then multiset(s[1..])[x] else 0
    ensures forall x :: multiset(head + rest)[x] == if p(x) then multiset(s)[x] else 0
  {
    assert s == [s[0]] + s[1..];
    assert multiset(s) == multiset{s[0]} + multiset(s[1..]);
    assert multiset(head + rest) == multiset(head) + multiset(rest);
  }

  function Reverse<T>(s: seq<T>): (r: seq<T>)
    ensures |r| == |s|
    ensures forall i :: 0 <= i < |s| ==> r[i] == s[|s| - 1 - i]
    ensures multiset(r) == multiset(s)
  {
    if s == [] then []
    else
      assert s == [s[0]] + s[1..];
      Reverse(s[1..]) + [s[0]]
  }

  /** No element occurs twice. */
  predicate Distinct<T(==)>(s: seq<T>)
  {
    forall i, j :: 0 <= i < j < |s| ==> s[i] != s[j]
  }

  /** A sequence without repeats counts each element at most once. */
  lemma {:induction false} DistinctCountsOnce<T>(s: seq<T>)
    requires Distinct(s)
    ensures forall x :: multiset(s)[x] <= 1
    decreases |s|
  {
    if s != [] {
      var t := s[1..];
      assert s == [s[0]] + t;
      forall i, j | 0 <= i < j < |t| ensures t[i] != t[j] {
        assert t[i] == s[i + 1] && t[j] == s[j + 1];
      }
      DistinctCountsOnce(t);
      forall k | 0 <= k < |t| ensures t[k] != s[0] {
        assert t[k] == s[k + 1];
      }
      assert s[0] !in t;
    }
  }

  /** A repeated element counts at least twice. */
  lemma RepeatCountsTwice<T>(s: seq<T>)
    requires !Distinct(s)
    ensures exists x :: multiset(s)[x] > 1
  {
    var i, j :| 0 <= i < j < |s| && s[i] == s[j];
    var a, b := s[..j], s[j..];
    assert s == a + b;
    assert s[i] in a && a[i] == s[i];
    assert b[0] == s[j];
    assert multiset(s)[s[i]] == multiset(a)[s[i]] + multiset(b)[s[i]];
  }

  /** A sequence has no repeats exactly when no element counts more than once. */
  lemma DistinctCounts<T>(s: seq<T>)
    ensures Distinct(s) <==> forall x :: multiset(s)[x] <= 1
  {
    if Distinct(s) {
      DistinctCountsOnce(s);
    } else {
      RepeatCountsTwice(s);
    }
  }

  /** Newest first by `time`; elements with equal times keep their input order. */
  function NewestFirst<T(!new)>(s: seq<T>, time: T -> int): (r: seq<T>)
    ensures multiset(r) == multiset(s) && |r| == |s|
    ensures forall i, j :: 0 <= i < j < |r| ==> time(r[i]) >= time(r[j])
  {
    var le := (a: T, b: T) => time(a) >= time(b);
    assert TotalPreorder(le);
    var r := SortBy(s, le);
    assert Sorted(r, le);
    r
  }

  /** Two sequences with the same multiset hold the same elements. */
  lemma SameElements<T>(a: seq<T>, b: seq<T>)
    requires multiset(a) == multiset(b)
    ensures forall x :: x in a <==> x in b
  {
    forall x ensures x in a <==> x in b {
      assert x in a <==> x in multiset(a);
      assert x in b <==> x in multiset(b);
    }
  }

  /** Reordering the elements at or after `cutoff` keeps exactly those elements. */
  lemma ReorderedRecent<T>(s: seq<T>, recent: seq<T>, sorted: seq<T>, time: T -> int, cutoff: int)
    requires forall i :: 0 <= i < |recent| ==> recent[i] in s && time(recent[i]) >= cutoff
    requires forall i :: 0 <= i < |s| && time(s[i]) >= cutoff ==> s[i] in recent
    requires multiset(sorted) == multiset(recent)
    ensures forall i :: 0 <= i < |sorted| ==> sorted[i] in s && time(sorted[i]) >= cutoff
    ensures forall x :: x in s && time(x) >= cutoff ==> x in sorted
  {
    SameElements(sorted, recent);
    forall i | 0 <= i < |sorted| ensures sorted[i] in s && time(sorted[i]) >= cutoff {
      assert sorted[i] in sorted;
      var k :| 0 <= k < |recent| && recent[k] == sorted[i];
    }
  }

  /** The elements at or after `cutoff`, newest first. */
  function RecentNewestFirst<T(!new)>(s: seq<T>, time: T -> int, cutoff: int): (r: seq<T>)
    ensures forall i :: 0 <= i < |r| ==> r[i] in s && time(r[i]) >= cutoff
    ensures forall x :: x in s && time(x) >= cutoff ==> x in r
    ensures forall x :: multiset(r)[x] == if time(x) >= cutoff then multiset(s)[x] else 0
    ensures forall i, j :: 0 <= i < j < |r| ==> time(r[i]) >= time(r[j])
  {
    var recent := Filter(s, (x: T) => time(x) >= cutoff);
    var sorted := NewestFirst(recent, time);
    ReorderedRecent(s, recent, sorted, time, cutoff);
    FilterCounts(s, (x: T) => time(x) >= cutoff);
    sorted
  }

  /** Nothing in the input is newer than the newest element. */
  lemma LatestBeatsMember<T(!new)>(s: seq<T>, time: T -> int, x: T)
    requires x in s
    ensures Latest(s, time).Some? && time(x) <= time(Latest(s, time).value)
  {
    var j :| 0 <= j < |s| && s[j] == x;
  }

  /** The recent part holds nothing more often than the input does. */
  lemma RecentWithinInput<T(!new)>(s: seq<T>, time: T -> int, cutoff: int)
    ensures multiset(RecentNewestFirst(s, time, cutoff)) <= multiset(s)
  {
    var r := RecentNewestFirst(s, time, cutoff);
    forall x ensures multiset(r)[x] <= multiset(s)[x] {
    }
  }

  /** The newest element (the earliest in input order among equal times), if any. */
  function Latest<T(!new)>(s: seq<T>, time: T -> int): (r: Option<T>)
    ensures r.None? <==> s == []
    ensures r.Some? ==> r.value in s && forall i :: 0 <= i < |s| ==> time(s[i]) <= time(r.value)
  {
    var sorted := NewestFirst(s, time);
    if sorted == [] then None
    else
      assert sorted[0] in multiset(s);
      forall i | 0 <= i < |s| ensures time(s[i]) <= time(sorted[0]) {
        assert s[i] in multiset(sorted);
        var j :| 0 <= j < |sorted| && sorted[j] == s[i];
      }
      Some(sorted[0])
  }

  /** Code-point (SQLite BINARY) string order: a proper prefix first, else the first differing character decides. */
  predicate LexLe(a: string, b: string)
    decreases |a|
  {
    a == [] || (b != [] && (a[0] < b[0] || (a[0] == b[0] && LexLe(a[1..], b[1..]))))
  }

  lemma {:induction false} LexLeTotal(a: string, b: string)
    ensures LexLe(a, b) || LexLe(b, a)
    decreases |a|
  {
    if a != [] && b != [] && a[0] == b[0] {
      LexLeTotal(a[1..], b[1..]);
    }
  }

  lemma {:induction false} LexLeTransitive(a: string, b: string, c: string)
    requires LexLe(a, b) && LexLe(b, c)
    ensures LexLe(a, c)
    decreases |a|
  {
    if a != [] && a[0] == b[0] && b[0] == c[0] {
      LexLeTransitive(a[1..], b[1..], c[1..]);
    }
  }

  /** Code-point order is antisymmetric: strings that are each `LexLe` the other are equal. */
  lemma {:induction false} LexLeAntisymmetric(a: string, b: string)
    requires LexLe(a, b) && LexLe(b, a)
    ensures a == b
    decreases |a|
  {
    if a != [] {
      LexLeAntisymmetric(a[1..], b[1..]);
      assert a == [a[0]] + a[1..] && b == [b[0]] + b[1..];
    }
  }

  /** Ordering any records by a string key under code-point (SQLite BINARY) order is a total preorder. */
  lemma KeyedLexTotalPreorder<T(!new)>(key: T -> string, le: (T, T) -> bool)
    requires forall x, y :: le(x, y) == LexLe(key(x), key(y))
    ensures TotalPreorder(le)
  {
    forall x, y ensures le(x, y) || le(y, x) {
      LexLeTotal(key(x), key(y));
    }
    forall x, y, z | le(x, y) && le(y, z) ensures le(x, z) {
      LexLeTransitive(key(x), key(y), key(z));
    }
  }
}

=== FILE: palo_alto.dfy ===
/**
 * The firewall appliance client. Each call sends one request to the
 * appliance's XML API and turns the reply into a (success, payload, error)
 * triple: status "success" yields the payload, any other status yields the
 * reply's message or a per-call default, and an exception yields its message.
 * Nothing escapes as an exception. Replies arrive as values.
 */
module PaloAlto {
  import opened Wrappers
  import opened Text
  import opened Clock

  /** A parsed reply: the root `status` attribute, `result/msg`, and the call's payload; or an exception. */
  datatype Reply<P> =
    | Threw(message: string)
    | Document(status: Option<string>, msg: Option<string>, payload: P)

  /** The triple every call returns. */
  datatype ApiResult<T> = ApiResult(success: bool, value: T, error: Option<string>)

  /**
   * The envelope rule shared by all four appliance calls: `extract` reads the
   * payload of a successful reply; `failValue` and `fallback` are what a
   * failed call returns when the reply carries no message.
   */
  function Envelope<P, T>(reply: Reply<P>, extract: P -> T, failValue: T, fallback: string): (r: ApiResult<T>)
    ensures r.success <==> reply.Document? && reply.status == Some("success")
    ensures r.success ==> r.value == extract(reply.payload) && r.error == None
    ensures !r.success ==> r.value == failValue && r.error.Some?
    ensures reply.Threw? ==> r.error == Some(reply.message)
    ensures reply.Document? && reply.status != Some("success") ==>
              r.error == Some(if reply.msg.Some? then reply.msg.value else fallback)
  {
    match reply
    case Threw(message) => ApiResult(false, failValue, Some(message))
    case Document(status, msg, payload) =>
      if status == Some("success") then ApiResult(true, extract(payload), None)
      else ApiResult(false, failValue, Some(msg.GetOr(fallback)))
  }

  /** The `result/system` element of a system-info reply; absent children are `None`. */
  datatype SystemElement = SystemElement(
    hostname: Option<string>,
    devicename: Option<string>,
    model: Option<string>,
    serial: Option<string>,
    swVersion: Option<string>)

  datatype SystemInfo = SystemInfo(hostname: string, model: string, serialNumber: string, softwareVersion: string)

  datatype UrlTestResult = UrlTestResult(url: string, category: string, sourceIp: string)

  /** One `entry` element of a traffic-log reply; absent children are `None`. */
  datatype EntryElement = EntryElement(
    src: Option<string>,
    dst: Option<string>,
    timeGenerated: Option<string>,
    action: Option<string>,
    sessionEndReason: Option<string>,
    bytes: Option<string>,
    bytesSent: Option<string>,
    bytesReceived: Option<string>,
    category: Option<string>,
    app: Option<string>,
    dport: Option<string>)

  datatype TrafficLogEntry = TrafficLogEntry(
    sourceIp: string,
    destinationIp: string,
    timeGenerated: string,
    action: string,
    sessionEndReason: string,
    bytes: string,
    bytesSent: string,
    bytesReceived: string,
    category: string,
    application: string,
    destinationPort: string)

  /** A DNS lookup: aliases, canonical name and addresses (as text), or an exception. */
  datatype DnsAnswer =
    | DnsFailed(message: string)
    | HostEntry(aliases: seq<string>, hostName: string, addresses: seq<string>)

  /**
   * The appliance and resolver as seen from the client: each endpoint maps
   * the request's parameters to the reply it gets.
   */
  datatype Appliance = Appliance(
    keygen: (string, string, string) -> Reply<Option<string>>,
    systemInfo: (string, string) -> Reply<Option<SystemElement>>,
    testUrl: (string, string, string, string) -> Reply<Option<string>>,
    trafficLogs: (string, string, string, int) -> Reply<Option<seq<EntryElement>>>,
    dns: string -> DnsAnswer)

  /** The reply reports success: a document whose root status is "success". */
  predicate Succeeded<P>(reply: Reply<P>)
  {
    reply.Document? && reply.status == Some("success")
  }

  /** The error a failed call reports: the exception's message, else the reply's message, else `fallback`. */
  predicate ReportsFailure<P>(reply: Reply<P>, error: Option<string>, fallback: string)
  {
    && (reply.Threw? ==> error == Some(reply.message))
    && (reply.Document? ==> error == Some(reply.msg.GetOr(fallback)))
  }

  /** Requests an API key for `username`/`password` from the appliance at `hostname`. */
  function GetApiKey(api: Appliance, hostname: string, username: string, password: string): (r: ApiResult<Option<string>>)
    ensures var reply := api.keygen(hostname, username, password);
            && (r.success <==> Succeeded(reply))
            && (r.success ==> r.value == reply.payload && r.error.None?)
            && (!r.success ==> r.value.None? && ReportsFailure(reply, r.error, "Unknown error"))
  {
    Envelope(api.keygen(hostname, username, password), (k: Option<string>) => k, None, "Unknown error")
  }

  /** Device fields with their defaults: host name falls back to device name, then "Unknown". */
  function ReadSystemInfo(system: Option<SystemElement>): (r: SystemInfo)
    ensures system.None? ==> r == SystemInfo("Unknown", "Unknown", "Unknown", "Unknown")
    ensures system.Some? ==>
              && r.hostname == Coalesce(system.value.hostname, system.value.devicename, "Unknown")
              && r.model == system.value.model.GetOr("Unknown")
              && r.serialNumber == system.value.serial.GetOr("Unknown")
              && r.softwareVersion == system.value.swVersion.GetOr("Unknown")
  {
    match system
    case None => SystemInfo("Unknown", "Unknown", "Unknown", "Unknown")
    case Some(s) =>
      SystemInfo(Coalesce(s.hostname, s.devicename, "Unknown"), s.model.GetOr("Unknown"),
                 s.serial.GetOr("Unknown"), s.swVersion.GetOr("Unknown"))
  }

  /** Reads the device's system information; a successful call always carries one. */
  function GetSystemInfo(api: Appliance, hostname: string, apiKey: string): (r: ApiResult<Option<SystemInfo>>)
    ensures var reply := api.systemInfo(hostname, apiKey);
            && (r.success <==> Succeeded(reply))
            && (r.success <==> r.value.Some?)
            && (r.success ==> r.value == Some(ReadSystemInfo(reply.payload)) && r.error.None?)
            && (!r.success ==> ReportsFailure(reply, r.error, "Failed to get system info"))
  {
    Envelope(api.systemInfo(hostname, apiKey),
             (s: Option<SystemElement>) => Some(ReadSystemInfo(s)), None, "Failed to get system info")
  }

  /** The category text: the trimmed `result` text, or "unknown" when there is no `result`. */
  function CategoryOf(result: Option<string>): (r: string)
    ensures result.None? ==> r == "unknown"
    ensures result.Some? ==> r == Trim(result.value)
  {
    match result
    case None => "unknown"
    case Some(text) => Trim(text)
  }

  /** Asks the appliance for the category of `url` seen from `sourceIp`; both are echoed back. */
  function TestUrl(api: Appliance, hostname: string, apiKey: string, sourceIp: string, url: string)
    : (r: ApiResult<Option<UrlTestResult>>)
    ensures var reply := api.testUrl(hostname, apiKey, sourceIp, url);
            && (r.success <==> Succeeded(reply))
            && (r.success <==> r.value.Some?)
            && (r.success ==> r.value == Some(UrlTestResult(url, CategoryOf(reply.payload), sourceIp)) && r.error.None?)
            && (!r.success ==> ReportsFailure(reply, r.error, "Test failed"))
  {
    Envelope(api.testUrl(hostname, apiKey, sourceIp, url),
             (p: Option<string>) => Some(UrlTestResult(url, CategoryOf(p), sourceIp)), None, "Test failed")
  }

  /** The outcome of a domain resolution. */
  datatype Resolution = Resolution(success: bool, ips: seq<string>, isSinkhole: bool, error: Option<string>)

  predicate IsSinkholeName(name: string)
  {
    ContainsIgnoreCase(name, "sinkhole")
  }

  /** The first name mentioning "sinkhole" (any case), scanning in order. */
  function FirstSinkhole(names: seq<string>): (r: Option<string>)
    ensures r.None? <==> forall i :: 0 <= i < |names| ==> !IsSinkholeName(names[i])
    ensures r.Some? ==> exists i :: 0 <= i < |names| && names[i] == r.value
                          && IsSinkholeName(names[i])
                          && forall j :: 0 <= j < i ==> !IsSinkholeName(names[j])
  {
    if names == [] then None
    else if IsSinkholeName(names[0]) then Some(names[0])
    else
      var r := FirstSinkhole(names[1..]);
      assert r.Some? ==> exists i :: 0 <= i < |names| && names[i] == r.value
                          && IsSinkholeName(names[i])
                          && forall j :: 0 <= j < i ==> !IsSinkholeName(names[j]) by {
        if r.Some? {
          var i :| 0 <= i < |names[1..]| && names[1..][i] == r.value && IsSinkholeName(names[1..][i])
                   && forall j :: 0 <= j < i ==> !IsSinkholeName(names[1..][j]);
          assert names[i + 1] == r.value;
          forall j | 0 <= j < i + 1 ensures !IsSinkholeName(names[j]) {
            if j > 0 { assert names[j] == names[1..][j - 1]; }
          }
        }
      }
      r
  }

  /**
   * Resolves `domain`. The aliases, then the canonical name, are scanned for
   * "sinkhole" (any case); the first hit is returned alone, flagged, with the
   * addresses ignored. Otherwise every address is returned in order.
   */
  function ResolveDomain(api: Appliance, domain: string): (r: Resolution)
    ensures api.dns(domain).DnsFailed? ==> r == Resolution(false, [], false, Some(api.dns(domain).message))
    ensures api.dns(domain).HostEntry? ==> r.success && r.error.None?
    ensures api.dns(domain).HostEntry? ==>
              var e := api.dns(domain);
              var hit := FirstSinkhole(e.aliases + [e.hostName]);
              && (r.isSinkhole <==> hit.Some?)
              && (hit.Some? ==> r.ips == [hit.value])
              && (hit.None? ==> r.ips == e.addresses)
  {
    match api.dns(domain)
    case DnsFailed(message) => Resolution(false, [], false, Some(message))
    case HostEntry(aliases, hostName, addresses) =>
      match FirstSinkhole(aliases + [hostName])
      case Some(name) => Resolution(true, [name], true, None)
      case None => Resolution(true, addresses, false, None)
  }

  /** `(addr.dst eq D)` for each destination, joined by " or ", in list order. */
  function DestinationTerms(ips: seq<string>): (r: seq<string>)
    ensures |r| == |ips|
    ensures forall i :: 0 <= i < |ips| ==> r[i] == "(addr.dst eq " + ips[i] + ")"
  {
    seq(|ips|, i requires 0 <= i < |ips| => "(addr.dst eq " + ips[i] + ")")
  }

  function SourceClause(sourceIp: string): string
  {
    "(addr.src eq " + sourceIp + ")"
  }

  function DestinationClause(ips: seq<string>): string
  {
    "( " + Join(" or ", DestinationTerms(ips)) + " )"
  }

  function TimeClause(op: string, t: Stamp): string
    requires t.Valid()
  {
    "( time_generated " + op + " \"" + FormatStamp(t) + "\" )"
  }

  /** The clauses of a traffic-log query, in the order they are joined. */
  function FilterParts(sourceIp: string, destinationIps: Option<seq<string>>, start: Stamp, end: Stamp): seq<string>
    requires start.Valid() && end.Valid()
  {
    [SourceClause(sourceIp)]
      + (if destinationIps.Some? && |destinationIps.value| > 0 then [DestinationClause(destinationIps.value)] else [])
      + [TimeClause("geq", start), TimeClause("leq", end)]
  }

  /**
   * The traffic-log filter: source clause, destination clause only for a
   * present non-empty list, then the two time bounds, joined by " and ".
   */
  function TrafficFilter(sourceIp: string, destinationIps: Option<seq<string>>, start: Stamp, end: Stamp): string
    requires start.Valid() && end.Valid()
  {
    Join(" and ", FilterParts(sourceIp, destinationIps, start, end))
  }

  /** The filter spelled out clause by clause, for both shapes of the destination list. */
  lemma TrafficFilterLayout(sourceIp: string, destinationIps: Option<seq<string>>, start: Stamp, end: Stamp)
    requires start.Valid() && end.Valid()
    ensures destinationIps.Some? && |destinationIps.value| > 0 ==>
              TrafficFilter(sourceIp, destinationIps, start, end)
                == SourceClause(sourceIp) + " and " + DestinationClause(destinationIps.value)
                   + " and " + TimeClause("geq", start) + " and " + TimeClause("leq", end)
    ensures !(destinationIps.Some? && |destinationIps.value| > 0) ==>
              TrafficFilter(sourceIp, destinationIps, start, end)
                == SourceClause(sourceIp) + " and " + TimeClause("geq", start) + " and " + TimeClause("leq", end)
  {
    var src, geq, leq := SourceClause(sourceIp), TimeClause("geq", start), TimeClause("leq", end);
    if destinationIps.Some? && |destinationIps.value| > 0 {
      var dst := DestinationClause(destinationIps.value);
      assert FilterParts(sourceIp, destinationIps, start, end) == [src, dst, geq, leq];
      JoinOfFour(" and ", src, dst, geq, leq);
    } else {
      assert FilterParts(sourceIp, destinationIps, start, end) == [src, geq, leq];
      JoinOfThree(" and ", src, geq, leq);
    }
  }

  /** A single destination gives the clause `( (addr.dst eq D) )`. */
  lemma SingleDestinationClause(ip: string)
    ensures DestinationClause([ip]) == "( (addr.dst eq " + ip + ") )"
  {
  }

  /**
   * The local clock: the current instant, the calendar reading of every
   * representable instant, and the message `DateTime` arithmetic raises when
   * a result falls outside the representable range.
   */
  datatype LocalClock = LocalClock(now: Ticks, stampOf: Ticks -> Stamp, rangeError: string)
  {
    ghost predicate Valid()
    {
      && 0 <= now <= MaxTicks
      && forall t :: 0 <= t <= MaxTicks ==> stampOf(t).Valid()
    }

    /** `now.AddHours(-hoursAgo)` is representable. */
    predicate WindowInRange(hoursAgo: int)
    {
      0 <= now - hoursAgo * TicksPerHour <= MaxTicks
    }
  }

  /** Field defaults for one log entry: "" for text, "0" for byte counts. */
  function ReadEntry(e: EntryElement): TrafficLogEntry
  {
    TrafficLogEntry(e.src.GetOr(""), e.dst.GetOr(""), e.timeGenerated.GetOr(""), e.action.GetOr(""),
                    e.sessionEndReason.GetOr(""), e.bytes.GetOr("0"), e.bytesSent.GetOr("0"),
                    e.bytesReceived.GetOr("0"), e.category.GetOr(""), e.app.GetOr(""), e.dport.GetOr(""))
  }

  /** One log entry per `entry` element, in order; none when the log element is missing. */
  function ReadEntries(entries: Option<seq<EntryElement>>): (r: seq<TrafficLogEntry>)
    ensures entries.None? ==> r == []
    ensures entries.Some? ==> |r| == |entries.value|
    ensures entries.Some? ==> forall i :: 0 <= i < |r| ==> r[i] == ReadEntry(entries.value[i])
  {
    match entries
    case None => []
    case Some(es) => seq(|es|, i requires 0 <= i < |es| => ReadEntry(es[i]))
  }

  /** A missing count reads as "0", a missing text field as "", and present values pass through. */
  lemma ReadEntryDefaults(e: EntryElement)
    ensures e.bytes.None? ==> ReadEntry(e).bytes == "0"
    ensures e.bytesSent.None? ==> ReadEntry(e).bytesSent == "0"
    ensures e.bytesReceived.None? ==> ReadEntry(e).bytesReceived == "0"
    ensures e.src.None? ==> ReadEntry(e).sourceIp == ""
    ensures e.dst.None? ==> ReadEntry(e).destinationIp == ""
    ensures e.src.Some? ==> ReadEntry(e).sourceIp == e.src.value
    ensures e.bytes.Some? ==> ReadEntry(e).bytes == e.bytes.value
  {
  }

  /** The filter a query sent at `clock.now` covering the last `hoursAgo` hours uses. */
  function QueryFilter(sourceIp: string, destinationIps: Option<seq<string>>, hoursAgo: int, clock: LocalClock): string
    requires clock.Valid() && clock.WindowInRange(hoursAgo)
  {
    var end := clock.now;
    var start := end - hoursAgo * TicksPerHour;
    TrafficFilter(sourceIp, destinationIps, clock.stampOf(start), clock.stampOf(end))
  }

  /**
   * Queries the traffic log: the window ends at the local clock's reading and
   * starts `hoursAgo` hours earlier; the reply's entries are read in order.
   * A window start outside the calendar raises before anything is sent, and
   * the handler answers with the exception's message.
   */
  function QueryTrafficLogs(api: Appliance, hostname: string, apiKey: string, sourceIp: string,
                            destinationIps: Option<seq<string>>, hoursAgo: int, maxLogs: int, clock: LocalClock)
    : (r: ApiResult<seq<TrafficLogEntry>>)
    requires clock.Valid()
    ensures !clock.WindowInRange(hoursAgo) ==> r == ApiResult(false, [], Some(clock.rangeError))
    ensures clock.WindowInRange(hoursAgo) ==>
            var reply := api.trafficLogs(hostname, apiKey, QueryFilter(sourceIp, destinationIps, hoursAgo, clock), maxLogs);
            && (r.success <==> Succeeded(reply))
            && (r.success ==> r.value == ReadEntries(reply.payload) && r.error.None?)
            && (!r.success ==> r.value == [] && ReportsFailure(reply, r.error, "Query failed"))
  {
    if !clock.WindowInRange(hoursAgo) then ApiResult(false, [], Some(clock.rangeError))
    else
      var filter := QueryFilter(sourceIp, destinationIps, hoursAgo, clock);
      Envelope(api.trafficLogs(hostname, apiKey, filter, maxLogs), ReadEntries, [], "Query failed")
  }
}

=== FILE: speed_tests.dfy ===
/**
 * Speed tests: locating the command-line tool, turning one run of it into a
 * stored result (measured or failed), the hourly background run with its
 * retention pruning, and the controller's on-demand run and listings.
 */
module SpeedTests {
  import opened Wrappers
  import opened Text
  import opened Clock
  import opened Models
  import opened Context
  import opened Ordering

  /** `Path.Combine` on Windows: a separator is added unless the first part already ends in one. */
  function Combine(a: string, b: string): (r: string)
    ensures a == "" ==> r == b
    ensures a != "" ==> StartsWith(r, a) && |r| >= |a| + |b| && r[|r| - |b|..] == b
    ensures a != "" && a[|a| - 1] !in "\\/" ==> r == a + "\\" + b
    ensures a != "" && a[|a| - 1] in "\\/" ==> r == a + b
  {
    if a == "" then b
    else if a[|a| - 1] in "\\/" then a + b
    else a + "\\" + b
  }

  /** Where the tool is looked for, in order of preference. */
  function Candidates(baseDir: string): (c: seq<string>)
    ensures |c| == 3 && c[2] == "speedtest.exe"
  {
    [Combine(Combine(baseDir, "tools"), "speedtest.exe"), Combine(baseDir, "speedtest.exe"), "speedtest.exe"]
  }

  function FirstExisting(paths: seq<string>, exists_: string -> bool): (r: Option<string>)
    ensures r.None? <==> forall i :: 0 <= i < |paths| ==> !exists_(paths[i])
    ensures r.Some? ==> exists i :: 0 <= i < |paths| && paths[i] == r.value && exists_(paths[i])
                          && forall j :: 0 <= j < i ==> !exists_(paths[j])
  {
    if paths == [] then None
    else if exists_(paths[0]) then Some(paths[0])
    else
      var r := FirstExisting(paths[1..], exists_);
      assert r.Some? ==> exists i :: 0 <= i < |paths| && paths[i] == r.value && exists_(paths[i])
                           && forall j :: 0 <= j < i ==> !exists_(paths[j]) by {
        if r.Some? {
          var i :| 0 <= i < |paths[1..]| && paths[1..][i] == r.value && exists_(paths[1..][i])
                   && forall j :: 0 <= j < i ==> !exists_(paths[1..][j]);
          assert paths[i + 1] == r.value;
          forall j | 0 <= j < i + 1 ensures !exists_(paths[j]) {
            if j > 0 { assert paths[j] == paths[1..][j - 1]; }
          }
        }
      }
      r
  }

  /**
   * The tool path: the first candidate that exists, else the preferred
   * candidate even though it does not exist.
   */
  function ToolPath(baseDir: string, exists_: string -> bool): (p: string)
    ensures p in Candidates(baseDir)
    ensures exists_(Candidates(baseDir)[0]) ==> p == Candidates(baseDir)[0]
    ensures (forall i :: 0 <= i < 3 ==> !exists_(Candidates(baseDir)[i])) ==> p == Candidates(baseDir)[0]
    ensures exists_(p) || p == Candidates(baseDir)[0]
    ensures exists_(p) <==> exists i :: 0 <= i < 3 && exists_(Candidates(baseDir)[i])
    ensures exists_(p) ==> exists i :: 0 <= i < 3 && Candidates(baseDir)[i] == p
                                       && forall j :: 0 <= j < i ==> !exists_(Candidates(baseDir)[j])
  {
    FirstExisting(Candidates(baseDir), exists_).GetOr(Candidates(baseDir)[0])
  }

  const ToolArguments: string := "--accept-license --accept-gdpr --format=json"

  /** The fields read from the tool's JSON report, or the exception reading it raised. */
  datatype JsonReport =
    | Report(downloadBandwidth: real, uploadBandwidth: real, latency: real, jitter: real,
             serverName: Option<string>, location: Option<string>, country: Option<string>, isp: Option<string>)
    | Unreadable(message: string)

  /** One run of the tool: it could not be started, or it exited with a code, its output and its error text. */
  datatype CliOutcome =
    | StartFailed(message: string)
    | Exited(exitCode: int, stdout: JsonReport, stderr: string)

  /** What one run yields: a measured result, or the message of the exception that ended it. */
  datatype CliResult = Measured(test: SpeedTest) | CliError(message: string)

  /** Banker's rounding to a whole number: halves go to the even neighbour. */
  function RoundHalfEven(y: real): (n: int)
    ensures -0.5 <= n as real - y <= 0.5
    ensures n as real - y == 0.5 || n as real - y == -0.5 ==> n % 2 == 0
  {
    var f := y.Floor;
    var frac := y - f as real;
    if frac < 0.5 then f
    else if frac > 0.5 then f + 1
    else if f % 2 == 0 then f
    else f + 1
  }

  /** `Math.Round(x, 2)`: to the nearest hundredth, halves to even. */
  function Round2(x: real): (r: real)
  {
    RoundHalfEven(x * 100.0) as real / 100.0
  }

  /** Rounding to hundredths moves a value by at most half a hundredth. */
  lemma Round2Nearest(x: real)
    ensures -0.005 <= Round2(x) - x <= 0.005
  {
    var n := RoundHalfEven(x * 100.0);
    assert -0.5 <= n as real - x * 100.0 <= 0.5;
    assert Round2(x) - x == (n as real - x * 100.0) / 100.0;
  }

  /** Whole hundredths are left as they are, so rounding twice is rounding once. */
  lemma Round2Exact(k: int)
    ensures Round2(k as real / 100.0) == k as real / 100.0
  {
    assert (k as real / 100.0) * 100.0 == k as real;
    assert (k as real).Floor == k;
  }

  /** `(int)x`: truncation toward zero (values beyond the 32-bit range are not modelled). */
  function TruncToInt(x: real): (n: int)
    ensures x >= 0.0 ==> 0 <= n && n as real <= x < n as real + 1.0
    ensures x < 0.0 ==> n <= 0 && n as real - 1.0 < x <= n as real
  {
    if x >= 0.0 then x.Floor else -((-x).Floor)
  }

  /** Bandwidth in bytes per second to megabits per second, to two decimals. */
  function Mbps(bandwidth: real): real
  {
    Round2(bandwidth / 125000.0)
  }

  /** A missing string interpolates as nothing. */
  function OrEmpty(s: Option<string>): string
  {
    s.GetOr("")
  }

  /**
   * Interprets one run: a run that cannot start, exits non-zero, or prints an
   * unreadable report fails with that message (a non-zero exit reports the
   * tool's error text); otherwise the report becomes a successful result
   * stamped `now`.
   */
  function Interpret(o: CliOutcome, now: Ticks): (r: CliResult)
    ensures o.StartFailed? ==> r == CliError(o.message)
    ensures o.Exited? && o.exitCode != 0 ==> r == CliError("Speedtest failed: " + o.stderr)
    ensures o.Exited? && o.exitCode == 0 && o.stdout.Unreadable? ==> r == CliError(o.stdout.message)
    ensures r.Measured? <==> o.Exited? && o.exitCode == 0 && o.stdout.Report?
    ensures r.Measured? ==>
              var rep := o.stdout;
              && r.test.isSuccess && r.test.errorMessage == None && r.test.testedAt == now
              && r.test.downloadMbps == Mbps(rep.downloadBandwidth)
              && r.test.uploadMbps == Mbps(rep.uploadBandwidth)
              && r.test.pingMs == TruncToInt(rep.latency) && r.test.jitterMs == TruncToInt(rep.jitter)
              && r.test.serverName == rep.serverName && r.test.isp == rep.isp
              && r.test.serverLocation == Some(OrEmpty(rep.location) + ", " + OrEmpty(rep.country))
  {
    match o
    case StartFailed(message) => CliError(message)
    case Exited(code, stdout, stderr) =>
      if code != 0 then CliError("Speedtest failed: " + stderr)
      else match stdout
        case Unreadable(message) => CliError(message)
        case Report(down, up, latency, jitter, name, location, country, isp) =>
          Measured(SpeedTest(now, Mbps(down), Mbps(up), TruncToInt(latency), TruncToInt(jitter), name,
                             Some(OrEmpty(location) + ", " + OrEmpty(country)), isp, true, None))
  }

  /** Runs the tool at `path` with the fixed arguments and interprets the run. */
  function ExecuteCli(run: (string, string) -> CliOutcome, path: string, now: Ticks): CliResult
  {
    Interpret(run(path, ToolArguments), now)
  }

  /** The row stored for a failed run: only the time, the failure flag and the message. */
  function FailedTest(now: Ticks, message: string): (t: SpeedTest)
    ensures !t.isSuccess && t.errorMessage == Some(message) && t.testedAt == now
    ensures t.downloadMbps == 0.0 && t.uploadMbps == 0.0 && t.pingMs == 0 && t.jitterMs == 0
    ensures t.serverName == None && t.serverLocation == None && t.isp == None
  {
    SpeedTest(now, 0.0, 0.0, 0, 0, None, None, None, false, Some(message))
  }

  /** The row a result is stored as. */
  function Row(r: CliResult, now: Ticks): (t: SpeedTest)
    ensures r.Measured? ==> t == r.test
    ensures r.CliError? ==> t == FailedTest(now, r.message)
  {
    match r
    case Measured(test) => test
    case CliError(message) => FailedTest(now, message)
  }

  /** Removes every result older than the retention window; nothing else changes. */
  function CleanupOldTests(t: Table<SpeedTest>, now: Ticks): (r: Table<SpeedTest>)
    requires t.Valid()
    ensures r.Valid() && r.nextId == t.nextId
    ensures forall k :: k in r.rows <==> k in t.rows && t.rows[k].testedAt >= RetentionCutoff(now)
    ensures forall k :: k in r.rows ==> r.rows[k] == t.rows[k]
  {
    Where(t, (s: SpeedTest) => s.testedAt >= RetentionCutoff(now))
  }

  lemma CleanupIdempotent(t: Table<SpeedTest>, now: Ticks)
    requires t.Valid()
    ensures CleanupOldTests(CleanupOldTests(t, now), now) == CleanupOldTests(t, now)
  {
    var once := CleanupOldTests(t, now);
    var twice := CleanupOldTests(once, now);
    assert twice.rows == once.rows;
  }

  /**
   * The background run: the result is stored either way; only after a
   * successful run are old results pruned.
   */
  function RunSpeedTest(t: Table<SpeedTest>, run: (string, string) -> CliOutcome, path: string, now: Ticks)
    : (r: Table<SpeedTest>)
    requires t.Valid()
    ensures r.Valid()
    ensures var res := ExecuteCli(run, path, now);
            && t.nextId in r.rows && r.rows[t.nextId] == Row(res, now)
            && (res.CliError? ==> r == Insert(t, Row(res, now)).0)
            && (res.Measured? ==> r == CleanupOldTests(Insert(t, Row(res, now)).0, now))
    ensures forall k :: k in r.rows ==> k == t.nextId || (k in t.rows && r.rows[k] == t.rows[k])
    ensures forall k :: k in t.rows && k !in r.rows ==>
              ExecuteCli(run, path, now).Measured? && t.rows[k].testedAt < RetentionCutoff(now)
  {
    var res := ExecuteCli(run, path, now);
    var (added, id) := Insert(t, Row(res, now));
    if res.Measured? then CleanupOldTests(added, now) else added
  }

  /** A failed run never removes anything, however old. */
  lemma FailedRunKeepsHistory(t: Table<SpeedTest>, run: (string, string) -> CliOutcome, path: string, now: Ticks)
    requires t.Valid() && ExecuteCli(run, path, now).CliError?
    ensures forall k :: k in t.rows ==> k in RunSpeedTest(t, run, path, now).rows
  {
  }

  /** What a speed-test request answers. */
  datatype Response =
    | Ran(id: int, test: SpeedTest)
    | ServerError(error: string, path: string)
    | Latest(id: int, test: SpeedTest)
    | NotFound(message: string)

  /**
   * The on-demand run: the result is stored either way and nothing is pruned;
   * a failure answers a server error naming the message and the tool path.
   */
  function RunNow(t: Table<SpeedTest>, run: (string, string) -> CliOutcome, path: string, now: Ticks)
    : (r: (Response, Table<SpeedTest>))
    requires t.Valid()
    ensures r.1.Valid()
    ensures var res := ExecuteCli(run, path, now);
            && r.1 == Insert(t, Row(res, now)).0
            && (res.Measured? ==> r.0 == Ran(t.nextId, res.test))
            && (res.CliError? ==> r.0 == ServerError(res.message, path))
    ensures r.1.rows.Keys == t.rows.Keys + {t.nextId} && forall k :: k in t.rows ==> r.1.rows[k] == t.rows[k]
    ensures r.0.Ran? ==> r.0.id in r.1.rows && r.1.rows[r.0.id] == r.0.test
  {
    var res := ExecuteCli(run, path, now);
    var (added, id) := Insert(t, Row(res, now));
    match res
    case Measured(test) => (Ran(id, test), added)
    case CliError(message) => (ServerError(message, path), added)
  }

  function TestedAt(e: (int, SpeedTest)): int
  {
    e.1.testedAt
  }

  /** The recent results are stored rows, and every stored row in the window is among them. */
  lemma RecentTestsStored(t: Table<SpeedTest>, cutoff: int)
    requires t.Valid()
    ensures var r := RecentNewestFirst(Entries(t), TestedAt, cutoff);
            && (forall i :: 0 <= i < |r| ==> r[i].0 in t.rows && t.rows[r[i].0] == r[i].1)
            && (forall k :: k in t.rows && t.rows[k].testedAt >= cutoff ==> (k, t.rows[k]) in r)
  {
    var r := RecentNewestFirst(Entries(t), TestedAt, cutoff);
    forall i | 0 <= i < |r| ensures r[i].0 in t.rows && t.rows[r[i].0] == r[i].1 {
      EntriesComplete(t, r[i].0, r[i].1);
    }
    forall k | k in t.rows && t.rows[k].testedAt >= cutoff ensures (k, t.rows[k]) in r {
      EntriesComplete(t, k, t.rows[k]);
    }
  }

  /** The recent results name each stored row at most once. */
  lemma RecentTestsOnce(t: Table<SpeedTest>, cutoff: int)
    requires t.Valid()
    ensures IdsOnce(RecentNewestFirst(Entries(t), TestedAt, cutoff))
  {
    RecentTestsStored(t, cutoff);
    ListedOnce(t, RecentNewestFirst(Entries(t), TestedAt, cutoff));
  }

  /** Results within the retention window, newest first. */
  function GetSpeedTests(t: Table<SpeedTest>, now: Ticks): (r: seq<(int, SpeedTest)>)
    requires t.Valid()
    ensures forall i :: 0 <= i < |r| ==>
              r[i].0 in t.rows && t.rows[r[i].0] == r[i].1 && r[i].1.testedAt >= RetentionCutoff(now)
    ensures forall k :: k in t.rows && t.rows[k].testedAt >= RetentionCutoff(now) ==> (k, t.rows[k]) in r
    ensures IdsOnce(r)
    ensures forall i, j :: 0 <= i < j < |r| ==> r[i].1.testedAt >= r[j].1.testedAt
  {
    RecentTestsStored(t, RetentionCutoff(now));
    RecentTestsOnce(t, RetentionCutoff(now));
    RecentNewestFirst(Entries(t), TestedAt, RetentionCutoff(now))
  }

  /** The most recent result of all, or NotFound when there is none. */
  function GetLatestSpeedTest(t: Table<SpeedTest>): (r: Response)
    requires t.Valid()
    ensures r.NotFound? <==> t.rows == map[]
    ensures r.NotFound? ==> r.message == "No speed tests available yet"
    ensures r.Latest? ==>
              && r.id in t.rows && t.rows[r.id] == r.test
              && forall k :: k in t.rows ==> t.rows[k].testedAt <= r.test.testedAt
  {
    var es := Entries(t);
    var latest := Ordering.Latest(es, TestedAt);
    forall k | k in t.rows ensures (k, t.rows[k]) in es {
      EntriesComplete(t, k, t.rows[k]);
    }
    forall k | latest.Some? && k in t.rows ensures t.rows[k].testedAt <= latest.value.1.testedAt {
      var j :| 0 <= j < |es| && es[j] == (k, t.rows[k]);
    }
    if latest.None? then
      NotFound("No speed tests available yet")
    else
      EntriesComplete(t, latest.value.0, latest.value.1);
      Latest(latest.value.0, latest.value.1)
  }
}

=== FILE: ssl_certificates.dfy ===
/**
 * The certificate controller: scheme normalisation of watched URLs, and the
 * create, update, delete, check-now and listing operations over the
 * certificate table. Each write re-checks the certificate immediately.
 */
module SslCertificates {
  import opened Wrappers
  import opened Text
  import opened Clock
  import opened Models
  import opened Context
  import opened Ordering
  import opened SslMonitoring

  /**
   * Forces the secure scheme: an "https://" prefix (any case) is kept as is,
   * an "http://" prefix (any case) is swapped for "https://", and anything
   * else gets "https://" in front.
   */
  function NormalizeUrl(u: string): (r: string)
    ensures StartsWithIgnoreCase(r, "https://")
    ensures StartsWithIgnoreCase(u, "https://") ==> r == u
    ensures !StartsWithIgnoreCase(u, "https://") && StartsWithIgnoreCase(u, "http://") ==> r == "https://" + u[7..]
    ensures !StartsWithIgnoreCase(u, "https://") && !StartsWithIgnoreCase(u, "http://") ==> r == "https://" + u
  {
    if StartsWithIgnoreCase(u, "https://") then u
    else if StartsWithIgnoreCase(u, "http://") then
      var r := "https://" + u[7..];
      assert r[..8] == "https://";
      r
    else
      var r := "https://" + u;
      assert r[..8] == "https://";
      r
  }

  /** Normalising twice is normalising once. */
  lemma NormalizeIdempotent(u: string)
    ensures NormalizeUrl(NormalizeUrl(u)) == NormalizeUrl(u)
  {
  }

  /** What a certificate request answers. */
  datatype Response =
    | BadRequest(message: Option<string>)
    | NotFound
    | Created(id: int, cert: SslCertificate)
    | NoContent
    | Found(cert: SslCertificate)

  const Required: string := "Friendly name and URL are required"
  const Duplicate: string := "This URL is already being monitored"

  /** Some stored certificate already watches exactly `url` (case-sensitive). */
  predicate UrlTaken(t: Table<SslCertificate>, url: string)
  {
    exists k :: k in t.rows && t.rows[k].url == url
  }

  /**
   * Registers a certificate to watch. Blank names or URLs are refused first;
   * then a normalised URL already stored is refused; otherwise exactly one row
   * is added, already checked against the capture for its URL.
   */
  function Create(t: Table<SslCertificate>, body: SslCertificate, capture: string -> Capture, now: Ticks)
    : (r: (Response, Table<SslCertificate>))
    requires t.Valid()
    ensures r.1.Valid()
    ensures Blank(Some(body.friendlyName)) || Blank(Some(body.url)) ==>
              r == (BadRequest(Some(Required)), t)
    ensures !Blank(Some(body.friendlyName)) && !Blank(Some(body.url)) && UrlTaken(t, NormalizeUrl(body.url)) ==>
              r == (BadRequest(Some(Duplicate)), t)
    ensures r.0.Created? <==> !Blank(Some(body.friendlyName)) && !Blank(Some(body.url)) && !UrlTaken(t, NormalizeUrl(body.url))
    ensures r.0.Created? ==>
              var url := NormalizeUrl(body.url);
              && r.0.id !in t.rows
              && r.1.rows.Keys == t.rows.Keys + {r.0.id}
              && r.1.rows[r.0.id] == r.0.cert
              && r.0.cert == UpdateCertificateInfo(body.(url := url), capture(url), now)
              && (forall k :: k in t.rows ==> r.1.rows[k] == t.rows[k])
  {
    if Blank(Some(body.friendlyName)) || Blank(Some(body.url)) then (BadRequest(Some(Required)), t)
    else
      var url := NormalizeUrl(body.url);
      if UrlTaken(t, url) then (BadRequest(Some(Duplicate)), t)
      else
        var cert := UpdateCertificateInfo(body.(url := url), capture(url), now);
        var (t', id) := Insert(t, cert);
        (Created(id, cert), t')
  }

  /**
   * Edits a certificate. A path id differing from the body's id is refused,
   * then an unknown id; otherwise only the name and the normalised URL are
   * taken from the body (no blank or duplicate check) and the certificate is
   * re-checked.
   */
  function Update(t: Table<SslCertificate>, id: int, bodyId: int, body: SslCertificate,
                  capture: string -> Capture, now: Ticks): (r: (Response, Table<SslCertificate>))
    requires t.Valid()
    ensures r.1.Valid()
    ensures id != bodyId ==> r == (BadRequest(None), t)
    ensures id == bodyId && id !in t.rows ==> r == (NotFound, t)
    ensures id == bodyId && id in t.rows ==>
              var url := NormalizeUrl(body.url);
              && r.0 == NoContent
              && r.1.rows.Keys == t.rows.Keys
              && r.1.rows[id] == UpdateCertificateInfo(
                   t.rows[id].(friendlyName := body.friendlyName, url := url), capture(url), now)
              && (forall k :: k in t.rows && k != id ==> r.1.rows[k] == t.rows[k])
  {
    if id != bodyId then (BadRequest(None), t)
    else if id !in t.rows then (NotFound, t)
    else
      var url := NormalizeUrl(body.url);
      var edited := t.rows[id].(friendlyName := body.friendlyName, url := url);
      (NoContent, Replace(t, id, UpdateCertificateInfo(edited, capture(url), now)))
  }

  /** Update performs no duplicate check: it can give two rows the same URL. */
  lemma UpdateCanDuplicateUrl(a: SslCertificate, b: SslCertificate, capture: string -> Capture, now: Ticks)
    requires a.url == "https://a.example/"
    ensures var t := Table(map[1 := a, 2 := b], 3);
            var r := Update(t, 2, 2, b.(url := "https://a.example/"), capture, now).1;
            r.rows[1].url == r.rows[2].url
  {
  }

  /** Deletes exactly the row with `id`, or answers NotFound and changes nothing. */
  function Delete(t: Table<SslCertificate>, id: int): (r: (Response, Table<SslCertificate>))
    requires t.Valid()
    ensures r.1.Valid()
    ensures id !in t.rows ==> r == (NotFound, t)
    ensures id in t.rows ==>
              && r.0 == NoContent
              && r.1.rows.Keys == t.rows.Keys - {id}
              && (forall k :: k in r.1.rows ==> r.1.rows[k] == t.rows[k])
  {
    if id !in t.rows then (NotFound, t) else (NoContent, Remove(t, id))
  }

  /** Looks one certificate up by id. */
  function Get(t: Table<SslCertificate>, id: int): (r: Response)
    ensures r == NotFound <==> id !in t.rows
    ensures r != NotFound ==> r == Found(t.rows[id])
  {
    if id !in t.rows then NotFound else Found(t.rows[id])
  }

  /** Re-checks one stored certificate on demand and returns it. */
  function CheckNow(t: Table<SslCertificate>, id: int, capture: string -> Capture, now: Ticks)
    : (r: (Response, Table<SslCertificate>))
    requires t.Valid()
    ensures r.1.Valid()
    ensures id !in t.rows ==> r == (NotFound, t)
    ensures id in t.rows ==>
              && r.1.rows.Keys == t.rows.Keys
              && r.0 == Found(r.1.rows[id])
              && r.1.rows[id] == UpdateCertificateInfo(t.rows[id], capture(t.rows[id].url), now)
              && (forall k :: k in t.rows && k != id ==> r.1.rows[k] == t.rows[k])
  {
    if id !in t.rows then (NotFound, t)
    else
      var cert := UpdateCertificateInfo(t.rows[id], capture(t.rows[id].url), now);
      (Found(cert), Replace(t, id, cert))
  }

  /** After a check-now, looking the certificate up answers what the check-now answered. */
  lemma CheckNowThenGet(t: Table<SslCertificate>, id: int, capture: string -> Capture, now: Ticks)
    requires t.Valid()
    ensures var (r, t') := CheckNow(t, id, capture, now);
            Get(t', id) == r
  {
  }

  function ByDays(a: (int, SslCertificate), b: (int, SslCertificate)): bool
  {
    a.1.daysUntilExpiration <= b.1.daysUntilExpiration
  }

  /** Every stored certificate with its id, soonest expiry first. */
  function GetAll(t: Table<SslCertificate>): (r: seq<(int, SslCertificate)>)
    requires t.Valid()
    ensures multiset(r) == multiset(Entries(t))
    ensures forall i, j :: 0 <= i < j < |r| ==> r[i].1.daysUntilExpiration <= r[j].1.daysUntilExpiration
  {
    SortBy(Entries(t), ByDays)
  }

  /** The listing holds every stored certificate under its own id, and nothing else. */
  lemma GetAllComplete(t: Table<SslCertificate>, k: int, c: SslCertificate)
    requires t.Valid()
    ensures (k, c) in GetAll(t) <==> k in t.rows && t.rows[k] == c
  {
    EntriesComplete(t, k, c);
    assert (k, c) in GetAll(t) <==> (k, c) in multiset(GetAll(t));
  }
}

=== FILE: ssl_monitoring.dfy ===
/**
 * Certificate classification, shared by the daily certificate loop and the
 * certificate controller, and the loop body that re-checks every stored
 * certificate in place. The TLS capture is an input.
 */
module SslMonitoring {
  import opened Wrappers
  import opened Clock
  import opened Models
  import opened Context

  /**
   * What a TLS handshake yielded: the leaf certificate's window and names
   * (captured whatever its trust status), nothing, or an exception.
   */
  datatype Capture =
    | Captured(notBefore: Ticks, notAfter: Ticks, issuer: string, subject: string)
    | NoCertificate
    | Failed(message: string)

  const NotYetValid: string := "Certificate not yet valid"
  const Expired: string := "Certificate expired"
  const NotRetrieved: string := "Could not retrieve certificate"

  /**
   * Records one check of `cert` at time `now`. A captured certificate
   * refreshes the window, names, validity and days left; otherwise the record
   * is marked invalid with a reason and its window and names are kept.
   */
  function UpdateCertificateInfo(cert: SslCertificate, capture: Capture, now: Ticks): (r: SslCertificate)
    ensures r.friendlyName == cert.friendlyName && r.url == cert.url
    ensures r.lastChecked == now
    ensures capture.Captured? ==>
              && r.validFrom == capture.notBefore && r.validTo == capture.notAfter
              && r.issuer == capture.issuer && r.subject == capture.subject
    ensures capture.Captured? ==> (r.isValid <==> capture.notBefore <= now <= capture.notAfter)
    ensures capture.Captured? ==> (r.errorMessage.None? <==> r.isValid)
    ensures capture.Captured? ==> (r.errorMessage == Some(NotYetValid) <==> now < capture.notBefore)
    ensures capture.Captured? ==>
              (r.errorMessage == Some(Expired) <==> capture.notBefore <= now && capture.notAfter < now)
    ensures capture.Captured? ==> r.daysUntilExpiration == WholeDays(capture.notAfter - now)
    ensures capture.Captured? ==> (r.daysUntilExpiration < 0 <==> capture.notAfter - now <= -TicksPerDay)
    ensures !capture.Captured? ==> !r.isValid
    ensures capture.NoCertificate? ==> r.errorMessage == Some(NotRetrieved)
    ensures capture.Failed? ==> r.errorMessage == Some(capture.message)
    ensures !capture.Captured? ==>
              && r.validFrom == cert.validFrom && r.validTo == cert.validTo
              && r.issuer == cert.issuer && r.subject == cert.subject
              && r.daysUntilExpiration == cert.daysUntilExpiration
  {
    match capture
    case Captured(from, to, issuer, subject) =>
      var valid := now >= from && now <= to;
      cert.(validFrom := from, validTo := to, issuer := issuer, subject := subject, lastChecked := now,
            daysUntilExpiration := WholeDays(to - now),
            isValid := valid,
            errorMessage := if valid then None else if now < from then Some(NotYetValid) else Some(Expired))
    case NoCertificate =>
      cert.(isValid := false, errorMessage := Some(NotRetrieved), lastChecked := now)
    case Failed(message) =>
      cert.(isValid := false, errorMessage := Some(message), lastChecked := now)
  }

  /**
   * A captured certificate's days-left count is zero while it is inside its
   * last day or expired by less than a day: validity and the day count can
   * disagree in sign by up to a day.
   */
  lemma ExpiredWithZeroDays(cert: SslCertificate, now: Ticks)
    ensures var r := UpdateCertificateInfo(cert, Captured(now - TicksPerDay, now - 1, "", ""), now);
            !r.isValid && r.errorMessage == Some(Expired) && r.daysUntilExpiration == 0
  {
  }

  /**
   * The daily loop body: every stored certificate is re-checked against its
   * own capture and written back under the same id; none is added or removed.
   */
  function CheckAllCertificates(t: Table<SslCertificate>, capture: string -> Capture, now: Ticks): (r: Table<SslCertificate>)
    requires t.Valid()
    ensures r.Valid() && r.nextId == t.nextId
    ensures r.rows.Keys == t.rows.Keys
    ensures forall k :: k in r.rows ==>
              r.rows[k] == UpdateCertificateInfo(t.rows[k], capture(t.rows[k].url), now)
  {
    Table(map k | k in t.rows :: UpdateCertificateInfo(t.rows[k], capture(t.rows[k].url), now), t.nextId)
  }
}

=== FILE: text.dfy ===
/**
 * String helpers shared by every component: whitespace, ASCII case folding,
 * prefix and substring tests, joining, trimming and decimal conversion.
 * Case-insensitive comparison folds ASCII letters only.
 */
module Text {
  import opened Wrappers

  /** The code points `Char.IsWhiteSpace` accepts. */
  predicate IsWhiteSpace(c: char)
  {
    || ('\U{9}' <= c <= '\U{D}') || c == ' ' || c == '\U{85}' || c == '\U{A0}'
    || c == '\U{1680}' || ('\U{2000}' <= c <= '\U{200A}') || c == '\U{2028}' || c == '\U{2029}'
    || c == '\U{202F}' || c == '\U{205F}' || c == '\U{3000}'
  }

  /** `string.IsNullOrWhiteSpace`: absent, empty, or whitespace only. */
  predicate Blank(s: Option<string>)
  {
    s.None? || forall i :: 0 <= i < |s.value| ==> IsWhiteSpace(s.value[i])
  }

  function LowerChar(c: char): char
  {
    if 'A' <= c <= 'Z' then (c as int + 32) as char else c
  }

  /** Lower-cases the ASCII letters of `s` and keeps every other character. */
  function Lower(s: string): (r: string)
    ensures |r| == |s|
    ensures forall i :: 0 <= i < |s| ==> r[i] == LowerChar(s[i])
  {
    if s == [] then [] else [LowerChar(s[0])] + Lower(s[1..])
  }

  predicate EqualsIgnoreCase(a: string, b: string)
  {
    |a| == |b| && forall i :: 0 <= i < |a| ==> LowerChar(a[i]) == LowerChar(b[i])
  }

  predicate StartsWith(s: string, p: string)
  {
    |p| <= |s| && s[..|p|] == p
  }

  predicate StartsWithIgnoreCase(s: string, p: string)
  {
    |p| <= |s| && EqualsIgnoreCase(s[..|p|], p)
  }

  /** `p` occurs in `s` at position `i`. */
  predicate OccursAt(s: string, p: string, i: int)
  {
    0 <= i && i + |p| <= |s| && s[i..i + |p|] == p
  }

  predicate Contains(s: string, p: string)
  {
    exists i :: 0 <= i <= |s| - |p| && OccursAt(s, p, i)
  }

  predicate OccursAtIgnoreCase(s: string, p: string, i: int)
  {
    0 <= i && i + |p| <= |s| && EqualsIgnoreCase(s[i..i + |p|], p)
  }

  predicate ContainsIgnoreCase(s: string, p: string)
  {
    exists i :: 0 <= i <= |s| - |p| && OccursAtIgnoreCase(s, p, i)
  }

  /** `string.Join(sep, parts)`. */
  function Join(sep: string, parts: seq<string>): string
  {
    if |parts| == 0 then ""
    else if |parts| == 1 then parts[0]
    else Join(sep, parts[..|parts| - 1]) + sep + parts[|parts| - 1]
  }

  lemma JoinOfThree(sep: string, a: string, b: string, c: string)
    ensures Join(sep, [a, b, c]) == a + sep + b + sep + c
  {
    assert [a, b][..1] == [a];
    assert Join(sep, [a, b]) == a + sep + b;
    assert [a, b, c][..2] == [a, b];
  }

  lemma JoinOfFour(sep: string, a: string, b: string, c: string, d: string)
    ensures Join(sep, [a, b, c, d]) == a + sep + b + sep + c + sep + d
  {
    assert [a, b, c, d][..3] == [a, b, c];
    JoinOfThree(sep, a, b, c);
  }

  function TrimStart(s: string): (r: string)
    ensures |r| <= |s| && r == s[|s| - |r|..]
    ensures r == [] || !IsWhiteSpace(r[0])
    ensures forall i :: 0 <= i < |s| - |r| ==> IsWhiteSpace(s[i])
  {
    if s != [] && IsWhiteSpace(s[0]) then TrimStart(s[1..]) else s
  }

  function TrimEnd(s: string): (r: string)
    ensures |r| <= |s| && r == s[..|r|]
    ensures r == [] || !IsWhiteSpace(r[|r| - 1])
    ensures forall i :: |r| <= i < |s| ==> IsWhiteSpace(s[i])
  {
    if s != [] && IsWhiteSpace(s[|s| - 1]) then TrimEnd(s[..|s| - 1]) else s
  }

  /**
   * `string.Trim()`: the result is a slice of `s` that neither starts nor ends
   * with whitespace, and everything cut off on either side is whitespace.
   */
  function Trim(s: string): (r: string)
    ensures exists a, b ::
              && 0 <= a <= b <= |s| && r == s[a..b]
              && (forall i :: 0 <= i < a ==> IsWhiteSpace(s[i]))
              && (forall i :: b <= i < |s| ==> IsWhiteSpace(s[i]))
    ensures r == [] || (!IsWhiteSpace(r[0]) && !IsWhiteSpace(r[|r| - 1]))
  {
    var t := TrimStart(s);
    var r := TrimEnd(t);
    assert r == s[|s| - |t|..|s| - |t| + |r|];
    r
  }

  function DigitChar(d: int): char
    requires 0 <= d < 10
  {
    ('0' as int + d) as char
  }

  predicate IsDigit(c: char)
  {
    '0' <= c <= '9'
  }

  function DigitValue(c: char): int
    requires IsDigit(c)
  {
    c as int - '0' as int
  }

  /** Decimal digits of `n`, most significant first, no leading zeros. */
  function NatToString(n: nat): (r: string)
    ensures |r| >= 1
    ensures forall i :: 0 <= i < |r| ==> IsDigit(r[i])
    ensures n > 0 ==> r[0] != '0'
  {
    if n < 10 then [DigitChar(n)] else NatToString(n / 10) + [DigitChar(n % 10)]
  }

  /** Invariant-culture `int.ToString()`: a '-' before the magnitude when negative. */
  function IntToString(n: int): string
  {
    if n < 0 then "-" + NatToString(-n) else NatToString(n)
  }

  /** The value of a string of decimal digits, read most significant first. */
  function DigitsValue(s: string): nat
    requires forall i :: 0 <= i < |s| ==> IsDigit(s[i])
  {
    if s == [] then 0 else DigitsValue(s[..|s| - 1]) * 10 + DigitValue(s[|s| - 1])
  }

  /** Reading back the digits `NatToString` writes gives the number again. */
  lemma {:induction false} DigitsValueOfNatToString(n: nat)
    ensures DigitsValue(NatToString(n)) == n
  {
    if n >= 10 {
      var p := NatToString(n / 10);
      var s := p + [DigitChar(n % 10)];
      assert s[..|s| - 1] == p;
      DigitsValueOfNatToString(n / 10);
    }
  }
}

=== FILE: url_monitoring.dfy ===
/**
 * The URL-monitoring loop body: probe every monitored URL once (HTTP GET or
 * ICMP echo), record one check per URL whatever happens, then prune checks
 * older than the retention window. Probe results arrive as values.
 */
module UrlMonitoring {
  import opened Wrappers
  import opened Text
  import opened Clock
  import opened Models
  import opened Context

  /** What one probe observed, before it is tied to a URL and a time. */
  datatype Observation = Observation(
    responseTimeMs: int,
    statusCode: int,
    isSuccess: bool,
    errorMessage: Option<string>)

  /** The HTTP client's answer: a response (code and enum name), or an exception. */
  datatype HttpOutcome =
    | HttpResponse(code: int, codeName: string, elapsedMs: int)
    | HttpFailed(message: string, elapsedMs: int)

  /** `IsSuccessStatusCode`. */
  predicate IsSuccessStatusCode(code: int)
  {
    200 <= code <= 299
  }

  /** Maps an HTTP probe outcome to an observation. */
  function FromHttp(o: HttpOutcome): (r: Observation)
    ensures r.responseTimeMs == o.elapsedMs
    ensures o.HttpResponse? ==> r.statusCode == o.code && (r.isSuccess <==> IsSuccessStatusCode(o.code))
    ensures o.HttpResponse? ==> r.errorMessage == if r.isSuccess then None else Some("HTTP " + o.codeName)
    ensures o.HttpFailed? ==> r.statusCode == 0 && !r.isSuccess && r.errorMessage == Some(o.message)
  {
    match o
    case HttpResponse(code, name, elapsed) =>
      var ok := IsSuccessStatusCode(code);
      Observation(elapsed, code, ok, if ok then None else Some("HTTP " + name))
    case HttpFailed(message, elapsed) =>
      Observation(elapsed, 0, false, Some(message))
  }

  /** The ICMP reply status enum; every member other than `Success` is a failure. */
  datatype IpStatus = IpSuccess | IpFailure(name: string)
  {
    function Name(): string
    {
      match this
      case IpSuccess => "Success"
      case IpFailure(name) => name
    }
  }

  /** The ping sender's answer: a reply with a status, or an exception. */
  datatype PingOutcome =
    | PingReply(status: IpStatus, roundtripMs: int)
    | PingFailed(message: string, elapsedMs: int)

  /** Maps a ping outcome to an observation. */
  function FromPing(o: PingOutcome): (r: Observation)
    ensures o.PingReply? ==> r.responseTimeMs == o.roundtripMs
    ensures o.PingReply? ==> (r.isSuccess <==> o.status.IpSuccess?)
    ensures o.PingReply? ==> r.statusCode == if r.isSuccess then 200 else 0
    ensures o.PingReply? && !r.isSuccess ==> r.errorMessage == Some("Ping Status: " + o.status.Name())
    ensures r.isSuccess <==> r.errorMessage.None?
    ensures o.PingFailed? ==> r == Observation(o.elapsedMs, 0, false, Some(o.message))
  {
    match o
    case PingReply(status, rtt) =>
      var ok := status.IpSuccess?;
      Observation(rtt, if ok then 200 else 0, ok, if ok then None else Some("Ping Status: " + status.Name()))
    case PingFailed(message, elapsed) =>
      Observation(elapsed, 0, false, Some(message))
  }

  /** `s.Replace(p, "")`: deletes the occurrences of `p` found scanning left to right. */
  function RemoveAll(s: string, p: string): (r: string)
    requires |p| > 0
    ensures |r| <= |s|
    ensures !Contains(s, p) ==> r == s
  {
    if |s| < |p| then s
    else if s[..|p|] == p then
      assert OccursAt(s, p, 0);
      RemoveAll(s[|p|..], p)
    else
      var r := [s[0]] + RemoveAll(s[1..], p);
      assert !Contains(s, p) ==> !Contains(s[1..], p) by {
        if Contains(s[1..], p) {
          var i :| 0 <= i <= |s[1..]| - |p| && OccursAt(s[1..], p, i);
          assert s[i + 1..i + 1 + |p|] == s[1..][i..i + |p|];
          assert OccursAt(s, p, i + 1);
        }
      }
      r
  }

  /** `s.Split('/')[0]`: the text before the first '/', or all of `s`. */
  function BeforeSlash(s: string): (r: string)
    ensures |r| <= |s| && r == s[..|r|]
    ensures '/' !in r
    ensures |r| < |s| ==> s[|r|] == '/'
    ensures '/' !in s ==> r == s
  {
    if s == [] || s[0] == '/' then "" else [s[0]] + BeforeSlash(s[1..])
  }

  /**
   * The host a ping targets: an absolute URI's host when the URI parser
   * (`uriHost`) accepts the text, else the text with "http://" and then
   * "https://" deleted, cut at the first '/'.
   */
  function PingHost(url: string, uriHost: string -> Option<string>): (h: string)
    ensures uriHost(url).Some? ==> h == uriHost(url).value
    ensures uriHost(url).None? ==> '/' !in h
    ensures uriHost(url).None? && '/' !in url && !Contains(url, "http://") && !Contains(url, "https://")
            ==> h == url
    ensures uriHost(url).None? ==> h == BeforeSlash(RemoveAll(RemoveAll(url, "http://"), "https://"))
  {
    match uriHost(url)
    case Some(host) => host
    case None =>
      var stripped := RemoveAll(RemoveAll(url, "http://"), "https://");
      BeforeSlash(stripped)
  }

  /** Without a match at the front, `RemoveAll` keeps the first character. */
  lemma RemoveAllSkipsFirst(s: string, p: string)
    requires |p| > 0 && s != [] && !OccursAt(s, p, 0)
    ensures RemoveAll(s, p) == [s[0]] + RemoveAll(s[1..], p)
  {
    if |s| >= |p| {
      assert s[..|p|] != p;
    } else {
      assert RemoveAll(s[1..], p) == s[1..];
    }
  }

  /** No occurrence of `p` in `s` starts before position `n`. */
  predicate NoMatchBefore(s: string, p: string, n: int)
  {
    forall i :: 0 <= i < n ==> !OccursAt(s, p, i)
  }

  /** No match before `n` in `s` means none before `n - 1` in its tail. */
  lemma NoMatchInTail(s: string, p: string, n: int)
    requires s != [] && NoMatchBefore(s, p, n)
    ensures NoMatchBefore(s[1..], p, n - 1)
  {
    forall i | 0 <= i < n - 1 ensures !OccursAt(s[1..], p, i) {
      assert !OccursAt(s, p, i + 1);
      if i + |p| <= |s[1..]| {
        assert s[i + 1..i + 1 + |p|] == s[1..][i..i + |p|];
      }
    }
  }

  lemma PrefixStep(s: string, n: int, x: string)
    requires 0 < n <= |s|
    ensures s[1..][n - 1..] == s[n..]
    ensures [s[0]] + (s[1..][..n - 1] + x) == s[..n] + x
  {
    assert [s[0]] + s[1..][..n - 1] == s[..n];
  }

  /** Deleting `p` leaves the first `n` characters alone when no occurrence starts among them. */
  lemma {:induction false} RemoveAllKeepsPrefix(s: string, p: string, n: int)
    requires |p| > 0 && 0 <= n <= |s| && NoMatchBefore(s, p, n)
    ensures RemoveAll(s, p) == s[..n] + RemoveAll(s[n..], p)
    decreases n
  {
    if n == 0 {
      assert s[..0] == [] && s[0..] == s;
    } else {
      assert !OccursAt(s, p, 0);
      RemoveAllSkipsFirst(s, p);
      NoMatchInTail(s, p, n);
      RemoveAllKeepsPrefix(s[1..], p, n - 1);
      PrefixStep(s, n, RemoveAll(s[n..], p));
    }
  }

  /**
   * A scheme prefix cannot start inside a host free of ':' and '/' that a '/'
   * ends: its ':' would have to fall inside the host or on the '/'.
   */
  lemma NoSchemeInHost(pre: string, host: string, rest: string, p: string)
    requires p == "http://" || p == "https://"
    requires ':' !in host && '/' !in host
    ensures forall i :: |pre| <= i <= |pre| + |host| ==> !OccursAt(pre + host + "/" + rest, p, i)
    ensures pre == [] ==> NoMatchBefore(host + "/" + rest, p, |host| + 1)
  {
    var s := pre + host + "/" + rest;
    var e := |pre| + |host|;
    if pre == [] {
      assert s == host + "/" + rest;
    }
    assert s[e] == '/';
    assert p[|p| - 3] == ':';
    assert forall k :: 0 <= k < |p| - 2 ==> p[k] != '/';
    forall i | |pre| <= i <= e ensures !OccursAt(s, p, i) {
      if i + |p| <= |s| {
        var j := i + |p| - 3;
        var w := s[i..i + |p|];
        if j < e {
          assert host[j - |pre|] in host;
          assert w[|p| - 3] == s[j] == host[j - |pre|];
          assert w[|p| - 3] != p[|p| - 3];
        } else {
          assert w[e - i] == s[e];
          assert w[e - i] != p[e - i];
        }
      }
    }
  }

  /** `s.Split('/')[0]` of a text whose first '/' follows `a` is `a`. */
  lemma {:induction false} BeforeSlashOfSplit(a: string, b: string)
    requires '/' !in a
    ensures BeforeSlash(a + "/" + b) == a
  {
    if a != [] {
      assert (a + "/" + b)[1..] == a[1..] + "/" + b;
      BeforeSlashOfSplit(a[1..], b);
    }
  }

  /** Both deletions pass over a host free of ':' and '/' followed by a '/'. */
  lemma SchemesKeepHost(host: string, rest: string)
    requires ':' !in host && '/' !in host
    ensures RemoveAll(RemoveAll(host + "/" + rest, "http://"), "https://")
            == host + "/" + RemoveAll(RemoveAll(rest, "http://"), "https://")
  {
    var n := |host| + 1;
    var s := host + "/" + rest;
    assert s[..n] == host + "/" && s[n..] == rest;
    NoSchemeInHost([], host, rest, "http://");
    RemoveAllKeepsPrefix(s, "http://", n);
    var rest1 := RemoveAll(rest, "http://");
    var s1 := host + "/" + rest1;
    assert s1[..n] == host + "/" && s1[n..] == rest1;
    NoSchemeInHost([], host, rest1, "https://");
    RemoveAllKeepsPrefix(s1, "https://", n);
  }

  /** "http://" is deleted from the front of `https://...` text only past the scheme. */
  lemma HttpsSchemeSurvivesHttp(host: string, rest: string)
    requires ':' !in host && '/' !in host
    ensures RemoveAll("https://" + host + "/" + rest, "http://")
            == "https://" + host + "/" + RemoveAll(rest, "http://")
  {
    var scheme := "https://";
    var url := scheme + host + "/" + rest;
    var n := |scheme| + |host| + 1;
    NoSchemeInHost(scheme, host, rest, "http://");
    forall i | 0 <= i < n ensures !OccursAt(url, "http://", i) {
      if i + 7 <= |url| && i < |scheme| {
        if i == 0 {
          assert url[i..i + 7][4] == 's';
        } else {
          assert url[i..i + 7][0] == scheme[i] != 'h';
        }
      }
    }
    assert url[..n] == scheme + host + "/" && url[n..] == rest;
    RemoveAllKeepsPrefix(url, "http://", n);
  }

  /** Deleting both schemes from `http://host/rest` leaves `host/` and the cleaned rest. */
  lemma StripHttpUrl(host: string, rest: string)
    requires ':' !in host && '/' !in host
    ensures RemoveAll(RemoveAll("http://" + host + "/" + rest, "http://"), "https://")
            == host + "/" + RemoveAll(RemoveAll(rest, "http://"), "https://")
  {
    var url := "http://" + host + "/" + rest;
    assert url[..7] == "http://" && url[7..] == host + "/" + rest;
    SchemesKeepHost(host, rest);
  }

  /** Deleting both schemes from `https://host/rest` leaves `host/` and the cleaned rest. */
  lemma StripHttpsUrl(host: string, rest: string)
    requires ':' !in host && '/' !in host
    ensures RemoveAll(RemoveAll("https://" + host + "/" + rest, "http://"), "https://")
            == host + "/" + RemoveAll(RemoveAll(rest, "http://"), "https://")
  {
    HttpsSchemeSurvivesHttp(host, rest);
    HttpsSchemeDeleted(host, RemoveAll(rest, "http://"));
  }

  /** Deleting "https://" from `https://host/rest` leaves `host/` and the cleaned rest. */
  lemma HttpsSchemeDeleted(host: string, rest: string)
    requires ':' !in host && '/' !in host
    ensures RemoveAll("https://" + host + "/" + rest, "https://") == host + "/" + RemoveAll(rest, "https://")
  {
    var url := "https://" + host + "/" + rest;
    assert url[..8] == "https://" && url[8..] == host + "/" + rest;
    NoMatchHostAfterHttp(host, rest);
  }

  /** Deleting "https://" from `host/rest` leaves `host/`. */
  lemma NoMatchHostAfterHttp(host: string, rest: string)
    requires ':' !in host && '/' !in host
    ensures RemoveAll(host + "/" + rest, "https://") == host + "/" + RemoveAll(rest, "https://")
  {
    var n := |host| + 1;
    var s := host + "/" + rest;
    assert s[..n] == host + "/" && s[n..] == rest;
    NoSchemeInHost([], host, rest, "https://");
    RemoveAllKeepsPrefix(s, "https://", n);
  }

  /**
   * When the URI parser rejects `http://host/path` or `https://host/path`,
   * the fallback still pings exactly `host`, whatever the path holds.
   */
  lemma PingHostStripsScheme(scheme: string, host: string, rest: string, uriHost: string -> Option<string>)
    requires scheme == "http://" || scheme == "https://"
    requires ':' !in host && '/' !in host
    requires uriHost(scheme + host + "/" + rest).None?
    ensures PingHost(scheme + host + "/" + rest, uriHost) == host
  {
    if scheme == "http://" {
      StripHttpUrl(host, rest);
    } else {
      StripHttpsUrl(host, rest);
    }
    BeforeSlashOfSplit(host, RemoveAll(RemoveAll(rest, "http://"), "https://"));
  }

  /** The probes a loop iteration consults: the network and the URI parser. */
  datatype Probes = Probes(
    http: string -> HttpOutcome,
    ping: string -> PingOutcome,
    uriHost: string -> Option<string>)

  /** Message of the exception an unsupported check kind raises. */
  function UnsupportedMessage(code: int): string
  {
    "Check type " + IntToString(code) + " not supported"
  }

  /**
   * Probes one URL according to its check kind. An unsupported kind throws
   * before any probe runs, and the loop records that exception.
   */
  function Observe(u: MonitoredUrl, probes: Probes): (r: Observation)
    ensures u.checkType.Http? ==> r == FromHttp(probes.http(u.url))
    ensures u.checkType.Ping? ==> r == FromPing(probes.ping(PingHost(u.url, probes.uriHost)))
    ensures u.checkType.Unsupported? ==>
              r == Observation(0, 0, false, Some(UnsupportedMessage(u.checkType.code)))
  {
    match u.checkType
    case Http => FromHttp(probes.http(u.url))
    case Ping => FromPing(probes.ping(PingHost(u.url, probes.uriHost)))
    case Unsupported(code) => Observation(0, 0, false, Some(UnsupportedMessage(code)))
  }

  function ToCheck(id: int, o: Observation, now: Ticks): UrlCheck
  {
    UrlCheck(id, now, o.responseTimeMs, o.statusCode, o.isSuccess, o.errorMessage)
  }

  /** One check per id of `ids`, in order, each stamped `now`. */
  function ChecksFor(urls: map<int, MonitoredUrl>, ids: seq<int>, probes: Probes, now: Ticks): (cs: seq<UrlCheck>)
    requires forall i :: 0 <= i < |ids| ==> ids[i] in urls
    ensures |cs| == |ids|
    ensures forall i :: 0 <= i < |ids| ==> cs[i] == ToCheck(ids[i], Observe(urls[ids[i]], probes), now)
  {
    if ids == [] then []
    else [ToCheck(ids[0], Observe(urls[ids[0]], probes), now)] + ChecksFor(urls, ids[1..], probes, now)
  }

  /** `k` is a row added to `before` (giving `after`) for monitored URL `u`. */
  ghost predicate AddedFor(before: Table<UrlCheck>, after: Table<UrlCheck>, k: int, u: int)
  {
    k in after.rows && k !in before.rows && after.rows[k].monitoredUrlId == u
  }

  /** Every monitored URL got exactly one added row. */
  ghost predicate ExactlyOneAddedPerUrl(before: Table<UrlCheck>, after: Table<UrlCheck>, urls: map<int, MonitoredUrl>)
  {
    forall u :: u in urls ==>
      exists k :: AddedFor(before, after, k, u) && forall k' :: AddedFor(before, after, k', u) ==> k' == k
  }

  /** Appending one check per id of a duplicate-free id list adds exactly one row per id. */
  lemma AppendOnePerId(before: Table<UrlCheck>, ids: seq<int>, cs: seq<UrlCheck>, urls: map<int, MonitoredUrl>)
    requires before.Valid()
    requires forall i, j :: 0 <= i < j < |ids| ==> ids[i] < ids[j]
    requires forall u :: u in urls ==> u in ids
    requires |cs| == |ids| && forall i :: 0 <= i < |ids| ==> cs[i].monitoredUrlId == ids[i]
    ensures ExactlyOneAddedPerUrl(before, AppendAll(before, cs), urls)
  {
    var after := AppendAll(before, cs);
    forall u | u in urls
      ensures exists k :: AddedFor(before, after, k, u) && forall k' :: AddedFor(before, after, k', u) ==> k' == k
    {
      var i :| 0 <= i < |ids| && ids[i] == u;
      var k := before.nextId + i;
      assert AddedFor(before, after, k, u);
      forall k' | AddedFor(before, after, k', u) ensures k' == k {
        var j := k' - before.nextId;
        assert cs[j].monitoredUrlId == ids[j];
      }
    }
  }

  /**
   * Probes every monitored URL and appends the resulting checks: exactly one
   * new row per URL, stamped `now`, and nothing else in the store changes.
   */
  function RecordChecks(db: Db, probes: Probes, now: Ticks): (r: Db)
    requires Consistent(db)
    ensures Consistent(r)
    ensures r.(checks := db.checks) == db
    ensures forall k :: k in db.checks.rows ==> k in r.checks.rows && r.checks.rows[k] == db.checks.rows[k]
    ensures forall k :: k in r.checks.rows && k !in db.checks.rows ==>
              && r.checks.rows[k].checkedAt == now
              && r.checks.rows[k].monitoredUrlId in db.urls.rows
              && r.checks.rows[k] == ToCheck(r.checks.rows[k].monitoredUrlId,
                                             Observe(db.urls.rows[r.checks.rows[k].monitoredUrlId], probes), now)
    ensures ExactlyOneAddedPerUrl(db.checks, r.checks, db.urls.rows)
  {
    var ids := Ids(db.urls);
    var cs := ChecksFor(db.urls.rows, ids, probes, now);
    AppendOnePerId(db.checks, ids, cs, db.urls.rows);
    db.(checks := AppendAll(db.checks, cs))
  }

  /** Keeps exactly the checks taken at or after the retention cutoff. */
  function CleanupOldChecks(t: Table<UrlCheck>, now: Ticks): (r: Table<UrlCheck>)
    requires t.Valid()
    ensures r.Valid()
    ensures forall k :: k in r.rows <==> k in t.rows && t.rows[k].checkedAt >= RetentionCutoff(now)
    ensures forall k :: k in r.rows ==> r.rows[k] == t.rows[k]
  {
    Where(t, (c: UrlCheck) => c.checkedAt >= RetentionCutoff(now))
  }

  /** Pruning a second time with the same clock removes nothing more. */
  lemma CleanupIdempotent(t: Table<UrlCheck>, now: Ticks)
    requires t.Valid()
    ensures CleanupOldChecks(CleanupOldChecks(t, now), now) == CleanupOldChecks(t, now)
  {
    var once := CleanupOldChecks(t, now);
    assert CleanupOldChecks(once, now).rows == once.rows;
  }

  /** Pruning keeps rows stamped at `now`, so it keeps the one-per-URL property of a fresh batch. */
  lemma CleanupKeepsBatch(before: Table<UrlCheck>, after: Table<UrlCheck>, urls: map<int, MonitoredUrl>, now: Ticks)
    requires before.Valid() && after.Valid()
    requires ExactlyOneAddedPerUrl(before, after, urls)
    requires forall k :: k in after.rows && k !in before.rows ==> after.rows[k].checkedAt == now
    ensures ExactlyOneAddedPerUrl(before, CleanupOldChecks(after, now), urls)
  {
    var pruned := CleanupOldChecks(after, now);
    forall u | u in urls
      ensures exists k :: AddedFor(before, pruned, k, u) && forall k' :: AddedFor(before, pruned, k', u) ==> k' == k
    {
      var k :| AddedFor(before, after, k, u) && forall k' :: AddedFor(before, after, k', u) ==> k' == k;
      assert RetentionCutoff(now) <= now;
      assert AddedFor(before, pruned, k, u);
      forall k' | AddedFor(before, pruned, k', u) ensures k' == k {
        assert AddedFor(before, after, k', u);
      }
    }
  }

  /**
   * One loop iteration: record a check per URL, then prune. Every URL keeps
   * exactly one fresh check stamped `now`; older rows survive exactly when
   * they are inside the window.
   */
  function CheckAllUrls(db: Db, probes: Probes, now: Ticks): (r: Db)
    requires Consistent(db)
    ensures Consistent(r)
    ensures r.(checks := db.checks) == db
    ensures forall k :: k in db.checks.rows ==>
              (k in r.checks.rows <==> db.checks.rows[k].checkedAt >= RetentionCutoff(now))
    ensures forall k :: k in db.checks.rows && k in r.checks.rows ==> r.checks.rows[k] == db.checks.rows[k]
    ensures forall k :: k in r.checks.rows && k !in db.checks.rows ==> r.checks.rows[k].checkedAt == now
    ensures ExactlyOneAddedPerUrl(db.checks, r.checks, db.urls.rows)
  {
    var recorded := RecordChecks(db, probes, now);
    CleanupKeepsBatch(db.checks, recorded.checks, db.urls.rows, now);
    recorded.(checks := CleanupOldChecks(recorded.checks, now))
  }
}

=== FILE: wrappers.dfy ===
/** Optional values: the model's stand-in for the source's nullable references. */
module Wrappers {

  datatype Option<+T> = None | Some(value: T) {

    /** The value, or `default` when absent: the source's `??` operator. */
    function GetOr(default: T): T
    {
      match this
      case Some(v) => v
      case None => default
    }
  }

  /** `a ?? b ?? c`: the first present value of two, else the default. */
  function Coalesce<T>(a: Option<T>, b: Option<T>, default: T): T
  {
    if a.Some? then a.value else b.GetOr(default)
  }
}
